=== FILE: README.md ===
# sqlb SELECT rendering, modelled in Dafny

sqlb is a Go library that builds SQL `SELECT` statements from table and column
metadata. It writes them into a byte buffer and an argument slice. Every
element of a statement takes part in one protocol with three phases:

1. `size` says how many bytes the element will write;
2. `argCount` says how many arguments it will bind;
3. `scan` writes the bytes and arguments, with nested elements writing at a
   shared argument cursor.

The caller allocates exactly `size` bytes and `argCount` argument slots and
then scans. The library is correct only if the first two phases describe the
third exactly. The protocol is used by:

- the `selectStatement` (projections, FROM selections, joins, WHERE, GROUP BY,
  HAVING, ORDER BY and LIMIT);
- derived tables (a nested `SELECT ... AS name`) and their derived columns;
- the LIMIT clause and columns;
- the older `SelectClause` renderer;
- the `Query` object callers hold, which keeps its buffers between renderings.

The Dafny project models these as immutable datatypes and pure functions:

- **Text, Dialects, Symbols.** Text is a `string`, and arguments are a
  `seq<Value>`. A dialect carries its kind, its symbol table (keyword text per
  marker) and its clause separator. General lemmas hold for every symbol
  table; the concrete MySQL and PostgreSQL tables appear only in the scenario
  modules.
- **Schema, Expressions, Functions, DerivedColumns, Projections, Clauses.**
  The leaf elements and their size, count and scan phases.
- **Statements, StatementProtocol.** The statement tree. Its scan is proved
  to be exactly as long as its size phase and to bind exactly as many values
  as its count phase. The argument slice is written at a shared cursor
  without disturbing other slots. The code as written is compared with the
  intended behaviour.
- **StatementMutators.** The statement's append, replace and remove
  operations.
- **Nodes.** The closed family of all node kinds and the protocol's central
  promise over it.
- **SelectClauses.** The `SelectClause` renderer. It includes the argument
  collision in its scan, modelled as written next to the intended behaviour.
- **Compose.** The `Select(...)` composition loop. It turns tables, columns,
  lists, sub-selects and joins into projections, selections and joins.
- **Queries.** The `Query` object: rendering with buffer reuse, the mutators,
  joins with their error states, and `Select`.
- **Scenarios, QueryScenarios** (with the literal texts in **SqlTexts**). The
  expected texts and arguments of the library's behavioural tests, replayed
  against the model.

## Model

| member | source | states |
|---|---|---|
| Schema.NewTableDef | table_test.go:66-87 | a table definition built from column names is well formed (every column points back at the table) and has one column per name, in the given order, with consecutive identities |
| Schema.ColumnIndex | table_test.go:110-117 | the first index whose column has the name, or None exactly when no column has it |
| Schema.LookupColumn | table_test.go:110-117 | a known column name yields that table's column definition; an unknown name yields nothing, and only then |
| Schema.DefTable | table_test.go:17-30 | a table over a definition keeps the definition's identity and has no alias |
| Schema.TableAs | table_test.go:120-130 | an aliased table keeps its definition and records the alias |
| Schema.DefColumns | table_test.go:66-87 | the columns of a definition: one per column definition, in definition order |
| Schema.As | column.go:37-44 | aliasing a column sets its alias and changes nothing else |
| Schema.Desc | column.go:46-48 | a descending sort column over the column |
| Schema.Asc | column.go:50-52 | an ascending sort column over the column |
| Schema.RenderColumnDef | column.go:20-29 | the qualified column text is exactly as long as the size phase says and binds nothing |
| Schema.RenderAlias | column.go:22-33 | ` AS alias` has the announced length, binds nothing, and is empty for an empty alias |
| Schema.RenderColumn | column.go:16-35 | a column's text has the announced length, starts with its definition's text, adds the alias only when there is one, and binds nothing (ArgCount 0) |
| Schema.RenderTable | table_test.go:17-55 | a table's text has the announced length, starts with the table name, is just the name when unaliased, and binds nothing |
| DerivedColumns.ExposedName | derived.go:147-151 | the name an outer query sees is the inner column's alias when it has one, else its name |
| DerivedColumns.DisableAliasScan | derived.go:134-138 | the derived column with its outer alias cleared, and a restorer that puts exactly the original alias back |
| DerivedColumns.RenderDerivedColumn | derived.go:144-172 | text of the announced length, starting with the derived table's name and a period, binding nothing (argCount 0) |
| Projections.Unaliased | group_by_test.go:44-49 | a column, derived column or aggregate loses its alias and nothing else; a trim call is returned as it is |
| Projections.UnaliasedIdempotent | group_by_test.go:44-49 | dropping the alias twice is the same as dropping it once |
| Projections.RenderProjection | select_statement.go:88-94 | one projection's text has the announced length and binds nothing |
| Projections.RenderProjections | select_statement.go:54-94 | a projection list joined by a separator: the sum of the parts' sizes plus one separator between each neighbouring pair, nothing bound |
| Projections.UnaliasedAll | group_by_test.go:44-49 | the list with every alias dropped, element by element |
| Expressions.RenderOperand | expression_test.go:26-42 | an operand is a column (no argument) or a placeholder binding its value |
| Expressions.RenderPlaceholders | expression_test.go:50-60 | n values render as n placeholders joined by commas and bind exactly those values in order |
| Expressions.RenderSimple | expression_test.go:26-118 | a non-composite condition has the announced length and binds exactly its values in textual order |
| Expressions.Parenthesise | expression_test.go:62-78 | a composite wraps both sides and the connective in one pair of parentheses, binding the left side's values and then the right side's |
| Expressions.RenderExpr | expression_test.go:120-133 | every condition's text has the announced length, and its arguments are exactly its values, as many as the count phase says |
| Expressions.ArgCountIsValueCount | expression_test.go:120-133 | the count phase of a condition equals the number of values it holds |
| Functions.Aggregate | function_test.go:56-74 | an aggregate over a column definition, with no alias |
| Functions.ColumnAggregate | function_test.go:110-128 | an aggregate over a column is the aggregate over its definition |
| Functions.AggAs | function_test.go:22-40 | aliasing an aggregate changes only its alias |
| Functions.RenderAgg | function_test.go:22-74 | an aggregate's text has the announced length and binds nothing |
| Functions.RenderTrim | string_functions_test.go:47-66 | a trim function's text has the announced length and binds nothing |
| Functions.TrimDialectSwitch | string_functions_test.go:47-66 | switching the dialect (same symbol table) changes only the opening function keyword: the rest of the text is identical, and neither binds arguments |
| Clauses.RenderLimit | limit.go:8-36 | LIMIT binds one argument, or two with an offset, first the limit and then the offset, with the announced length |
| Clauses.RenderExprs | select_statement.go:109-116 | a separated list of conditions: the sum of the parts plus the separators, binding the count phase's total |
| Clauses.RenderCondition | select_test.go:39-43 | a WHERE or HAVING clause (scanned at select_statement.go:109-111 and 115-117) has the announced length and binds its conditions' arguments, giving ` WHERE users.name = ?` in the test |
| Clauses.RenderGroupBy | group_by_test.go:51-65 | a GROUP BY clause has the announced length and binds nothing |
| Clauses.GroupByIgnoresAliases | group_by_test.go:44-49 | GROUP BY lists that differ only in column aliases render identically |
| Clauses.GroupByIgnoresColumnAlias | group_by_test.go:44-49 | giving any column of any GROUP BY list an alias leaves the clause's text and arguments unchanged |
| Clauses.RenderSortColumn | column.go:46-52 | a sort column has the announced length (with ` DESC` when descending) and binds nothing |
| Clauses.RenderSortColumns | select_test.go:49-53 | sort columns joined by a separator (the ORDER BY list scanned at select_statement.go:118-120): parts plus separators, nothing bound |
| Clauses.RenderOrderBy | select_test.go:49-53 | an ORDER BY clause (scanned at select_statement.go:118-120) has the announced length and binds nothing, giving ` ORDER BY users.name DESC` in the test |
| Statements.RenderClauses | select_statement.go:109-123 | the trailing clauses have the announced length and bind WHERE's, HAVING's and LIMIT's arguments |
| Statements.RenderOptCondition | select_statement.go:109-116 | an absent condition writes and binds nothing; a present one writes its clause |
| Statements.RenderStatement | select_statement.go:19-125 | a statement's scan is exactly as long as its size phase and binds exactly as many values as its count phase, for every symbol table (corrected comma count) |
| Statements.RenderHead | select_statement.go:85-94 | SELECT and the comma-joined projections, with the announced length, binding nothing |
| Statements.RenderFrom | select_statement.go:95-108 | the FROM part has the announced length and binds the selections' and joins' arguments only when there is a selection |
| Statements.RenderSelections | select_statement.go:95-104 | selections joined by a separator: parts plus separators, binding their total count |
| Statements.RenderSelection | select_statement.go:95-104 | a table or derived table as a FROM subject, with the announced length and count |
| Statements.RenderDerivedTable | derived.go:54-73 | `(inner) AS name` has the announced length and binds exactly the inner statement's arguments |
| Statements.RenderJoins | select_statement.go:105-107 | the joins in order, with the announced total length and count |
| Statements.RenderJoin | select_test.go:86-90 | one join (scanned at select_statement.go:105-107) has the announced length and binds its ON condition's and right side's arguments, giving ` JOIN users ON articles.author = users.id` in the test |
| StatementProtocol.ScanStatement | select_statement.go:85-125 | scanning at a shared cursor writes the statement's arguments into exactly the next ArgCount slots in emission order, leaves every other slot as it was, and advances the cursor by the count |
| StatementProtocol.SharedCursorNoCollision | select_statement.go:85-125 | two statements scanned one after the other at a shared cursor leave both argument lists side by side, neither overwriting the other |
| StatementProtocol.SizeAsWrittenExactWithProjections | select_statement.go:48-83 | the size formula as written is exact whenever there is at least one projection |
| StatementProtocol.SizeAsWrittenShortWithoutProjections | select_statement.go:54 | with no projections the size formula as written is one comma-and-space short of what scan writes |
| StatementProtocol.ArgCountAsWrittenExactWithSelections | select_statement.go:19-46 | the argument count as written is exact whenever there is a selection |
| StatementProtocol.ArgCountAsWrittenOvercountsWithoutSelections | select_statement.go:27-29 | with no selections the count as written still includes the joins' arguments, which scan never writes |
| StatementProtocol.JoinsIgnoredWithoutSelections | select_statement.go:95-108 | without selections the joins affect neither the text, nor the size, nor the (corrected) count |
| StatementProtocol.GetAllDerivedColumns | derived.go:29-40 | one slot per inner projection: a derived column reading that inner column through the derived table exactly where the inner projection is a column, empty elsewhere |
| StatementProtocol.DerivedColumnsReadFromTheirTable | derived.go:130-132 | every derived column produced for a derived table is read from that table under its name |
| StatementProtocol.DerivedProjections | derived.go:42-52 | the derived table's own projection list has one slot per inner projection, and every slot is empty |
| StatementMutators.AppendOrCreate | select_statement.go:132-138 | appending to an optional list creates it when absent and keeps the old items before the new ones |
| StatementMutators.AddJoin | select_statement.go:127-130 | the join goes last and nothing else changes |
| StatementMutators.AddWhere | select_statement.go:132-138 | the condition goes after the existing WHERE conditions, creating the clause if needed; nothing else changes |
| StatementMutators.AddHaving | select_statement.go:163-169 | the same for HAVING |
| StatementMutators.AddGroupBy | select_statement.go:142-161 | no columns is a no-op; otherwise the columns go after the existing GROUP BY columns; nothing else changes |
| StatementMutators.AddOrderBy | select_statement.go:173-192 | the same for ORDER BY sort columns |
| StatementMutators.SetLimit | select_statement.go:201-205 | the limit replaces any previous limit and offset; nothing else changes |
| StatementMutators.SetLimitWithOffset | select_statement.go:194-199 | limit and offset replace any previous ones; nothing else changes |
| StatementMutators.JoinsContain | select.go:214-221 | true exactly when some join in the list has the identity; both containsJoin functions use it |
| StatementMutators.ContainsJoin | select_statement.go:207-214 | true exactly when the statement holds a join with the identity |
| StatementMutators.AddToProjections | select_statement.go:216-218 | the projection goes last and nothing else changes |
| StatementMutators.FirstIndexOf | select_statement.go:220-232 | the first selection with the identity, or None exactly when there is none |
| StatementMutators.RemoveSelection | select_statement.go:220-232 | removes the first selection with the identity (and only it), keeps the others in order, and leaves a statement without it unchanged |
| StatementMutators.AddWhereArgCount | select_statement.go:19-46 | adding a condition raises the argument count by the condition's own count |
| StatementMutators.AddHavingArgCount | select_statement.go:19-46 | the same for HAVING |
| StatementMutators.AddJoinArgCount | select_statement.go:27-29 | adding a join raises the (corrected) count by the join's count when there is a selection, and not at all otherwise |
| StatementMutators.ArgFreeMutators | select_statement.go:19-46 | GROUP BY, ORDER BY and added projections never change the argument count |
| StatementMutators.SetLimitArgCount | limit.go:8-13 | a limit adds one argument, a limit with offset two, whatever limit was there before |
| StatementMutators.LimitReplaces | select_statement.go:194-205 | the last limit call wins: setting a limit after another forgets the earlier one |
| StatementMutators.GroupByAppendsCompose | select_statement.go:142-161 | two GROUP BY calls equal one call with both column lists |
| StatementMutators.OrderByAppendsCompose | select_statement.go:173-192 | two ORDER BY calls equal one call with both lists |
| StatementMutators.AddJoinThenContains | select_statement.go:207-214 | after adding a join the statement contains it, and membership of other identities is unchanged |
| StatementMutators.RemoveSelectionLength | select_statement.go:220-232 | removing a selection shortens the list by one exactly when the identity was present |
| StatementMutators.AddToProjectionsKeepsArgs | select_statement.go:216-218 | adding a projection never changes the rendered arguments |
| Nodes.Render | select_statement.go:85-125 | for every node kind and symbol table, the scan's text length is the size phase and its argument count the count phase; kinds that cannot bind bind nothing |
| Nodes.RenderPlain | column.go:16-35 | nodes that cannot bind write their announced size and no arguments |
| Nodes.RenderBinding | limit.go:8-36 | nodes that can bind (conditions, limits, joins, derived tables, statements) write their announced size and count |
| Nodes.RenderValueNode | limit.go:8-36 | condition and limit nodes keep the protocol |
| Nodes.RenderJoinNode | select_statement.go:105-107 | join nodes keep the protocol |
| Nodes.RenderDerivedTableNode | derived.go:54-73 | derived-table nodes keep the protocol |
| Nodes.RenderStatementNode | select_statement.go:19-125 | statement nodes keep the protocol |
| SelectClauses.RenderFilters | select.go:99-109 | WHERE with AND between filters, with the announced length and count |
| SelectClauses.RenderList | select.go:80-83 | SELECT and the projected list, with the announced length, binding nothing |
| SelectClauses.RenderFromAlias | select.go:84-93 | FROM, the selections and the alias, with the announced length, binding the selections' arguments |
| SelectClauses.RenderSelectHead | select.go:78-98 | the head up to the joins has the announced length and binds the selections' arguments and then the joins' |
| SelectClauses.RenderSelectTail | select.go:99-124 | the filters and trailing clauses have the announced length and count |
| SelectClauses.RenderSelectClause | select.go:14-126 | the whole clause's text length equals its size phase and its intended argument count equals its count phase |
| SelectClauses.SelectionArgLists | select.go:85-89 | the per-selection argument lists, one per selection |
| SelectClauses.JoinArgLists | select.go:94-98 | the per-join argument lists, one per join |
| SelectClauses.WriteEachAtStart | select.go:86 | writing several lists each at the start of the same buffer keeps its length and leaves the last list in front |
| SelectClauses.ArgsAsWritten | select.go:78-126 | the argument slice as the code fills it has the count phase's length |
| SelectClauses.ScanCounts | select.go:128-144 | the byte and argument buffers are allocated at the size and count phases |
| SelectClauses.StringArgsAsWritten | select.go:137-144 | as written, the text is the clause's rendering at the announced length and the arguments have the announced count |
| SelectClauses.StringArgs | select.go:137-144 | intended: the arguments are the selections' and then the joins' in emission order, at the announced count |
| SelectClauses.String | select.go:128-135 | the text is the same in the written and the intended version |
| SelectClauses.ArgsAsWrittenAgreeWithoutHeadArgs | select.go:78-126 | when selections and joins bind nothing, the code's arguments are the intended ones |
| SelectClauses.ValueJoinArgs | select.go:94-95 | a join on `column = value` binds exactly that value |
| SelectClauses.WriteThreeAtStart | select.go:94-95 | writing an empty list and then two one-value lists at the start of a two-slot buffer leaves the second value in front and a nil after it |
| SelectClauses.TwoValueJoins | select.go:94-95 | a clause holding two joins whose conditions bind v1 and v2 |
| SelectClauses.TwoValueJoinsAsWritten | select.go:94-95 | as written, the two joins' arguments come out as [v2, nil]: the second overwrites the first |
| SelectClauses.TwoValueJoinsIntended | select.go:94-95 | intended, they come out as [v1, v2] |
| SelectClauses.JoinArgsCollide | select.go:86 | for any non-nil v2, the arguments as written differ from the intended ones |
| SelectClauses.As | select.go:37-44 | sets the alias and nothing else |
| SelectClauses.Where | select.go:146-149 | appends the filter and nothing else changes |
| SelectClauses.GroupBy | select.go:153-174 | no columns is a no-op; otherwise the columns go after the existing GROUP BY columns |
| SelectClauses.OrderBy | select.go:178-199 | no sort columns is a no-op; otherwise they go after the existing ones |
| SelectClauses.Limit | select.go:208-212 | the limit replaces any previous limit and offset |
| SelectClauses.LimitWithOffset | select.go:201-206 | limit and offset replace any previous ones |
| SelectClauses.ClauseAddToProjections | select.go:223-225 | the projection goes last and nothing else changes |
| SelectClauses.WhereArgCount | select.go:14-35 | a filter raises the argument count by its own count |
| Compose.TableColumns | query.go:85-101 | a table used as a join side projects one column per column definition, in order, each belonging to that (possibly aliased) table and unaliased |
| Compose.SideColumns | query.go:85-101 | a join side's projections: a table's columns, or none for a derived table |
| Compose.Unseen | query.go:85-101 | the columns whose identity is not in the projection map, each once |
| Compose.PCols | select.go:284-289 | columns as projections, element by element |
| Compose.AddUnseen | query.go:85-101 | appends exactly the columns not yet projected and records all their identities; joins and selections are untouched |
| Compose.AddUnseenAppends | query.go:85-101 | adding a join side's columns only appends columns it owns and keeps the projection map consistent |
| Compose.DerivedName | select_test.go:66-75 | an aliased sub-select keeps its alias; an unnamed one is called `derived` plus the running count, which then goes up by one |
| Compose.DerivedProjs | derived.go:29-40 | a sub-select contributes exactly one derived column per inner column projection, in the inner order; the k-th reads the k-th inner column from the derived table and has no outer alias |
| Compose.DerivedProjsRender | derived.go:158-172 | the k-th derived column renders as the derived table's name, a period and the k-th inner column's alias or name |
| Compose.SomeDerived | derived.go:29-40 | only filled slots of the derived-column list become projections, each reading from the table; none exactly when no slot is filled. getAllDerivedColumns leaves nil entries in place; dropping them is this model's choice for sub-select items, which follow the tests |
| Compose.SomeDerivedOfColumns | derived.go:29-40 | slots filled exactly at the inner columns give one derived column per inner column, in order |
| Compose.RegisterTables | query.go:109-117 | every column in a list registers its table under the table's identity; nothing else is added and nothing removed |
| Compose.AddLeft | query.go:81-93 | a new join goes last; its left side is registered only if no selection has its identity yet |
| Compose.AddRight | query.go:94-103 | the right side's columns are projected but the right side is never registered as a selection |
| Compose.AddLeftExtends | query.go:83-93 | the left side's registration only appends columns it owns |
| Compose.AddRightExtends | query.go:94-103 | the right side's registration only appends columns it owns |
| Compose.StepInv | query.go:77-134 | every kind of item keeps the loop invariant, never unregisters a selection, and only appends projections |
| Compose.JoinStepInv | query.go:79-104 | a join item keeps the loop invariant, keeps registrations and only appends projections |
| Compose.ComposeInv | query.go:77-135 | the whole loop keeps the invariant: selections keyed by identity, join identities distinct, every join's left side registered, every mapped identity projected |
| Compose.KnownJoinSkipped | query.go:81 | a join already present is ignored entirely |
| Compose.NewJoinStep | query.go:81-104 | a new join is appended, registers its left side (if needed) and nothing else, and projects only columns of its two sides |
| Compose.JoinRightNotRegistered | query.go:94-103 | a join's right side does not become a selection |
| Compose.ColumnsNotDeduplicated | query.go:105-108 | the same column selected twice is projected twice, with its table registered once |
| Compose.TableStep | query.go:118-123 | a table projects all its columns in order and registers itself |
| Compose.ListStep | query.go:109-117 | a list's elements are projected as given, and exactly their columns' tables are registered |
| Compose.SelectionsOf | query.go:136-142 | the map's selections, each once, covering the whole map, in no particular order |
| Compose.SelectStatement | query.go:65-143 | Select builds a statement with the loop's projections and joins, the map's selections each once, every join's left side among them, and no clauses |
| Compose.SelectClauseOf | select.go:227-310 | the same composition into a SelectClause, with no alias, filters or clauses |
| Queries.Resize | query.go:12-17 | a buffer of the right length is kept; any other is replaced by a fresh one of the right length |
| Queries.StringArgs | query.go:22-33 | returns the statement's text and arguments; the argument slice stays nil exactly when it was nil and nothing binds; buffers are reallocated only when their length changed; nothing but the buffers changes |
| Queries.String | query.go:9-20 | the statement's text, with the arguments left in the query's buffer |
| Queries.StringArgsIdempotent | query.go:22-33 | rendering a second time returns the same text and arguments and allocates nothing |
| Queries.NothingCached | query.go:22-33 | the result depends only on the statement, not on the buffers left by an earlier rendering |
| Queries.Where | query.go:35-38 | delegates to the statement's WHERE and changes nothing else |
| Queries.GroupBy | query.go:40-43 | delegates to the statement's GROUP BY |
| Queries.OrderBy | query.go:45-48 | delegates to the statement's ORDER BY |
| Queries.Limit | query.go:50-53 | delegates to the statement's limit |
| Queries.LimitWithOffset | query.go:55-58 | delegates to the statement's limit with offset |
| Queries.As | query.go:60-63 | sets the query's alias and nothing else |
| Queries.AsItem | select_test.go:66-75 | a query used as an item is a sub-select of its statement under its alias |
| Queries.AddWhereKeepsHeadAndFrom | select_test.go:117-134 | a WHERE condition changes neither the head nor the FROM part |
| Queries.ClausesBindInOrder | select_statement.go:109-124 | the trailing clauses bind the WHERE values, then the HAVING values, then the limit and the offset; GROUP BY and ORDER BY bind nothing |
| Queries.OptConditionValues | select_statement.go:109-111 | a present WHERE or HAVING binds its conditions' values in order; an absent one binds nothing |
| Queries.LimitBindsValues | limit.go:23-36 | a LIMIT binds the limit, then the offset when one is set |
| Queries.ClausesBindWhereValues | select_statement.go:109-111 | without HAVING or LIMIT, the trailing clauses bind exactly the WHERE values |
| Queries.StatementBindsInOrder | select_statement.go:85-125 | a statement binds its FROM part's values, then WHERE's, then HAVING's, then the limit and the offset |
| Queries.AddWhereClauseArgs | select_statement.go:132-138 | after a WHERE condition the clauses bind the old WHERE values, the condition's, then the HAVING values and the limit and offset |
| Queries.AddWhereAppendsArgs | select_statement.go:132-138 | for a statement without HAVING or LIMIT, after a WHERE condition the statement binds its old arguments and then the condition's; with them, the new values go before HAVING's and LIMIT's (Queries.AddWhereClauseArgs, Queries.StatementBindsInOrder) |
| Queries.WhereIsRendered | select_test.go:117-134 | for a statement without HAVING or LIMIT, a condition added to a live query appears in its next rendering, with its values appended to the arguments; the general order is Queries.StatementBindsInOrder |
| Queries.JoinLeft | select_test.go:81-85 | the first table the condition names that is a selection other than the target, or None exactly when there is none |
| Queries.Join | select_test.go:76-90 | a failed query stays unchanged; no selection gives the no-selection error; no usable left side gives the unknown-target error; otherwise the target leaves the FROM list and a join whose left side is the first selection the condition names (other than the target) is added, and nothing else changes |
| Queries.JoinValidity | select_test.go:136-155 | a valid query stays valid after a join exactly when the join found a left side |
| Queries.ErrorSticks | select_test.go:136-155 | once a join fails, later joins change nothing and the query stays invalid |
| Queries.Select | query.go:65-143 | a fresh query is valid, holds the composed statement, has no alias and nil buffers |
| Queries.ValidityStates | select_test.go:136-155 | the zero query is invalid with no error; a query carrying an error is invalid |
| Scenarios.ColumnDefTexts | table_test.go:110-117 | `users.id` and `users.name` |
| Scenarios.ColumnTexts | select_test.go:24-25 | unaliased columns render as their qualified names |
| Scenarios.UsersHead | select_test.go:34-37 | `SELECT users.id, users.name` |
| Scenarios.UsersTable | select_test.go:34-37 | the users selection renders as `users` |
| Scenarios.UsersFrom | select_test.go:34-37 | ` FROM users` for any statement over users alone |
| Scenarios.UsersHeadAndFrom | select_test.go:34-37 | the head and FROM part of a users statement, binding nothing |
| Scenarios.UsersWithClauses | select_test.go:39-65 | a users statement renders the plain text followed by its clauses' text and arguments |
| Scenarios.NoClauses | select_statement.go:109-123 | a statement with no trailing clauses writes and binds nothing after FROM |
| Scenarios.UsersStatementRenders | select_test.go:34-37 | `SELECT users.id, users.name FROM users`, no arguments |
| Scenarios.OnlyWhere | select_statement.go:109-116 | only WHERE present: the clauses are the WHERE clause |
| Scenarios.OnlyGroupBy | select_statement.go:109-123 | only GROUP BY present: the clauses are the GROUP BY clause |
| Scenarios.OnlyOrderBy | select_statement.go:109-123 | only ORDER BY present |
| Scenarios.OnlyLimit | select_statement.go:109-123 | only LIMIT present |
| Scenarios.NameIsFooText | expression_test.go:27-31 | `users.name = ?` binding "foo" |
| Scenarios.WhereClauseText | select_test.go:39-43 | ` WHERE users.name = ?` binding "foo" |
| Scenarios.SimpleWhere | select_test.go:39-43 | the Simple WHERE text and argument |
| Scenarios.GroupByClauseText | group_by_test.go:30-35 | ` GROUP BY users.name` |
| Scenarios.SimpleGroupBy | select_test.go:44-48 | the Simple GROUP BY text |
| Scenarios.OrderByClauseText | select_test.go:49-53 | ` ORDER BY users.name DESC` |
| Scenarios.SimpleOrderByDesc | select_test.go:49-53 | the Simple ORDER BY text |
| Scenarios.LimitClauseTexts | select_test.go:54-65 | ` LIMIT ?` binding 10, and ` LIMIT ? OFFSET ?` binding 10 and 20 |
| Scenarios.SimpleLimit | select_test.go:54-59 | the Simple LIMIT text and argument |
| Scenarios.SimpleLimitWithOffset | select_test.go:60-65 | the LIMIT-with-OFFSET text and arguments |
| Scenarios.ValueComparisonText | expression_test.go:96-118 | a column compared with a value: column, operator, one placeholder binding the value |
| Scenarios.ComparisonOperatorTexts | expression_test.go:44-106 | the `!=`, `>` and `>=` texts |
| Scenarios.OrderingComparisonTexts | expression_test.go:108-118 | the `<` and `<=` texts |
| Scenarios.ReverseEqualText | expression_test.go:33-37 | `? = users.name` |
| Scenarios.ColumnsEqualText | expression_test.go:39-42 | two columns compared bind nothing |
| Scenarios.PlaceholderTexts | expression_test.go:50-60 | one and three placeholders |
| Scenarios.InListTexts | expression_test.go:50-60 | `IN (?)` and `IN (?, ?, ?)` with their values |
| Scenarios.ParenthesisedText | expression_test.go:62-78 | composite conditions are parenthesised around the connective |
| Scenarios.ConjunctionText | expression_test.go:62-69 | the AND text and both values |
| Scenarios.DisjunctionText | expression_test.go:71-78 | the OR text and both values |
| Scenarios.BetweenText | expression_test.go:80-84 | the BETWEEN text and both bounds |
| Scenarios.NullCheckTexts | expression_test.go:86-94 | `IS NULL` and `IS NOT NULL`, no arguments |
| Scenarios.GroupByTwoColumnsText | group_by_test.go:37-42 | ` GROUP BY users.name, users.id` |
| Scenarios.GroupByAliasedText | group_by_test.go:44-49 | an aliased column in GROUP BY renders without its alias |
| Scenarios.AggregateTexts | function_test.go:56-74 | `MAX(created_on)` and `MIN(created_on)` |
| Scenarios.AliasedAggregateText | function_test.go:22-40 | `MAX(created_on) AS max_created_on` |
| Scenarios.ColumnAggregateText | function_test.go:110-128 | Max over a column renders like Max over its definition |
| Scenarios.TrimColumnText | string_functions_test.go:47-66 | the trimmed column's text is the same under both dialects |
| Scenarios.TrimBothTexts | string_functions_test.go:22-29 | `TRIM(...)` in MySQL, `BTRIM(...)` in PostgreSQL |
| Scenarios.TrimLeadingTexts | string_functions_test.go:30-37 | `LTRIM(...)` and `TRIM(LEADING FROM ...)` |
| Scenarios.TrimTrailingTexts | string_functions_test.go:38-45 | `RTRIM(...)` and `TRIM(TRAILING FROM ...)` |
| Scenarios.TableAliasTexts | table_test.go:33-55 | `users` and `users AS u` |
| Scenarios.ColumnLookups | table_test.go:66-117 | two column definitions in order; a known name is found, an unknown one is not |
| QueryScenarios.UsersComposed | select_test.go:34-37 | Select(users) projects the table's columns in order and registers the table |
| QueryScenarios.SelectUsers | select_test.go:34-37 | Select(users) is a fresh query over the users statement |
| QueryScenarios.SimpleFrom | select_test.go:34-37 | the Simple FROM text, with a nil argument slice |
| QueryScenarios.IdIsOneText | select_test.go:130-133 | `users.id = ?` binding 1 |
| QueryScenarios.IdIsOneWhereText | select_test.go:130-133 | ` WHERE users.id = ?` binding 1 |
| QueryScenarios.IdIsOneRenders | select_test.go:130-133 | the statement with that condition |
| QueryScenarios.LiveMutation | select_test.go:117-134 | rendering, adding a condition and rendering again gives the plain text with nil arguments, then the WHERE text with [1] |
| QueryScenarios.JoinWithoutSelection | select_test.go:76-80 | joining an empty Select is invalid with the no-selection error |
| QueryScenarios.StatesComposed | select_test.go:81-85 | Select(article_states) registers only that table |
| QueryScenarios.JoinAgainstUnknownTarget | select_test.go:81-85 | a join whose condition names no selection is invalid with the unknown-target error |
| QueryScenarios.ArticleAuthorsComposed | select_test.go:86-90 | Select(articles.id, users.name AS author) projects both columns and registers both tables |
| QueryScenarios.TwoSelections | query.go:136-142 | the selections taken from that two-entry map are its two values in one order or the other |
| QueryScenarios.JoinMovesUsers | select_test.go:86-90 | whatever the order, the join attaches to articles and removes users from the FROM list |
| QueryScenarios.JoinedQuery | select_test.go:86-90 | the join succeeds and yields the joined statement |
| QueryScenarios.JoinedHead | select_test.go:86-90 | `SELECT articles.id, users.name AS author` |
| QueryScenarios.AuthorIsUserText | select_test.go:86-90 | `articles.author = users.id` |
| QueryScenarios.JoinedUsersText | select_test.go:86-90 | ` JOIN users ON articles.author = users.id` |
| QueryScenarios.JoinedFrom | select_test.go:86-90 | the FROM part with the join |
| QueryScenarios.JoinedStatementRenders | select_test.go:86-90 | the whole inner-join text, no arguments |
| QueryScenarios.JoinedRendering | select_test.go:86-90 | a query holding the joined statement renders that text with no arguments |
| QueryScenarios.InnerJoin | select_test.go:86-90 | the Simple INNER JOIN: no error, the expected text, no arguments |
| QueryScenarios.UsersDerivedColumns | derived.go:85-97 | for the users sub-select, the outer columns are the derived `id` and then the derived `name`, as the comment's example promises |
| QueryScenarios.DerivedComposed | select_test.go:66-75 | Select over a nested query yields one derived table under its alias, or `derived0` when unnamed |
| QueryScenarios.SelectDerived | select_test.go:66-75 | the query built from a nested query holds the derived statement, with nil buffers and no error |
| QueryScenarios.DerivedColumnTexts | derived.go:94-96 | derived columns render as the table name, a period and the column name |
| QueryScenarios.DerivedHead | derived.go:94-96 | the head over a derived table lists each column qualified by the table's name |
| QueryScenarios.DerivedFrom | select_test.go:66-75 | the FROM part is the parenthesised inner statement and its name |
| QueryScenarios.NamedDerivedRenders | select_test.go:67-70 | the named derived-table text |
| QueryScenarios.DefaultDerivedRenders | select_test.go:72-75 | the default-named derived-table text |
| QueryScenarios.NamedDerivedTable | select_test.go:67-70 | Select(Select(users).As("u")) renders the expected text with nil arguments |
| QueryScenarios.DefaultNamedDerivedTable | select_test.go:72-75 | Select(Select(users)) renders the expected text with nil arguments |

## Left out

- Selection order. Go iterates the selection map in an unspecified order
  (query.go:136-142 and select.go:302-308). Compose.SelectionsOf returns the
  selections in some order the model leaves open, and its contract speaks
  only of membership and uniqueness. The scenarios therefore rely on a single
  selection, or are proved for every order (QueryScenarios.JoinMovesUsers).
- Implementation sources that are not part of this model. This covers
  expressions, GROUP BY and ORDER BY lists, sort columns, aggregate and trim
  functions, tables, column definitions, join clauses, the symbol tables and
  the `SelectQuery` join and validation code. Their behaviour is modelled
  from the library's own tests (the files cited above), which pin their
  texts, argument lists and error values.
- Column and ColumnDef, Table and TableDef are each one datatype. A
  definition used as an item is its default column or table (no alias). The
  library's tests treat them alike in rendering.
- Compose.RegisterTables, Compose.ListStep, StatementProtocol.GetAllDerivedColumns, Compose.DerivedProjs:
  because of that merge, `PCol?` is true for a column definition too, while
  Go's `isColumn` (column.go:54-61) is true only for a `*Column`. So a
  `*ColumnDef` element of a List registers its table here but not in Go
  (query.go:113-116), and a `*ColumnDef` inner projection of a derived
  table gets a derived column here where derived.go:34-36 leaves the slot
  nil. For `*Column` values the two agree.
- Sub-select items are modelled from select_test.go:66-75. The selection
  flattening in select.go:227-310 has no Query case. The model follows the
  tests, because `Select(Select(users))` is how derived tables are made.
- Query wraps the `selectStatement` (select_statement.go). query.go's
  `selectClause` type is not among the sources. Its methods (`addWhere`,
  `addGroupBy`, `setLimit`, ...) are the statement's.
- Query errors, `IsValid`, `Error` and `Join` are modelled from
  select_test.go:76-90 and select_test.go:136-155. query.go as given has none
  of them.
- Queries.Where, Queries.GroupBy, Queries.OrderBy, Queries.Limit,
  Queries.LimitWithOffset, Queries.As, Queries.String and Queries.StringArgs
  require a statement. The Go methods dereference a nil `sel` and panic on a
  zero Query.
- Queries.StringArgs, Queries.String: render with the corrected size and
  argument count of the first two Findings rows, not with the phases as
  written. For a statement with no projections (`Select()` with no items)
  the size as written is 2 bytes short, so Go's `copy` would cut the text
  `SELECT ` to `SELEC`; the model returns `SELECT `. The as-written phases
  are modelled and compared in StatementProtocol. They also return the
  argument slice as a value: query.go:32 hands back the query's own
  `q.args`, so a slice a caller kept from one call is overwritten by the
  next call whose argument count is the same. The model does not show that
  aliasing.
- Compose.TableColumns models `Table.projections()`, whose source is not
  part of this model; it follows the use the join case makes of it
  (query.go:85-101).
- Compose.SideColumns requires JoinSideOk: a derived table used as a join
  side must have no projections. `derivedTable.projections()`
  (derived.go:42-52) returns a slice of nil entries. The join case
  (query.go:85-92) calls `projectionId()` on them, which panics. The model
  treats that panic as outside the domain, and so do Compose.ItemOk and every
  member requiring it.
- `interpolationLength` (string_functions_test.go:57) adds a dialect's
  numbered-placeholder width. Trim functions bind no argument, so it is zero
  there. Numbered placeholders (`$1`) are not modelled: every placeholder is
  the dialect's `?` marker.
- Dialect keyword tables are uninterpreted in the general lemmas. The
  concrete texts exist only in the scenario modules, as one shared table
  whose entries match the tests' expectations.
- The two-joins case of select_test.go:91-100 is not replayed as a concrete
  text. Chained joins are covered by Queries.Join, StatementMutators.AddJoin
  (a join goes last) and Statements.RenderJoins. That test compares only the
  number of arguments (select_test.go:112), while the scenarios pin the exact
  arguments.
- Go mechanics are abstracted:
  - byte buffers become strings, and the `copy` truncation into a short
    buffer is not modelled; the model instead proves that size and scan
    agree;
  - `interface{}` arguments become a `Value` datatype (nil, string, integer);
  - pointer identity becomes a `nat` identity;
  - mutation through shared pointers (`colUserName.As("author")` changing the
    column for later uses) is not modelled; `As` returns a new value.
- Integers (limits, offsets, bound values) are unbounded. The library only
  passes them through as arguments.
- sql_types.go (column type names) is not part of this model: nothing in the
  rendering depends on it.
- HAVING has no public entry point among the sources, beyond the
  statement's `addHaving`. StatementMutators.AddHaving models that.

## Findings

| source | as written | input that shows it | evidently intended | confidence | as-written member | corrected member |
|---|---|---|---|---|---|---|
| select_statement.go:54 | size adds the length of `, ` times (number of projections − 1), which is −2 bytes when there are no projections | a statement with no projections: the size phase is 2 bytes short of what scan writes, so the buffer is too small and the text is cut | one separator between each pair of projections, none for zero | not executed | StatementProtocol.SizeAsWrittenShortWithoutProjections | Statements.RenderStatement |
| select_statement.go:27-29 | argCount counts the joins' arguments even when the statement has no selections, but scan (select_statement.go:95-108) writes joins only with selections | a statement with no selections and a join whose condition binds one value: argCount says 1, scan binds 0, leaving a nil slot | count joins only when there is a selection | not executed; the builders always keep a selection next to a join | StatementProtocol.ArgCountAsWrittenOvercountsWithoutSelections | Statements.RenderStatement |
| select.go:95 | every selection and join scans into `args` from slot 0 instead of into `args[ac:]` (also select.go:86) | two joins whose conditions bind v1 and v2: the arguments come out as [v2, nil] instead of [v1, v2] | each element writes after the arguments already written, as the filters do at select.go:105 | not executed | SelectClauses.JoinArgsCollide | SelectClauses.TwoValueJoinsIntended |

=== FILE: clauses.dfy ===
/**
 * The trailing clauses of a SELECT: WHERE and HAVING (conditions joined by
 * AND), GROUP BY (projections with their aliases suppressed), ORDER BY (sort
 * columns) and LIMIT [OFFSET]. Each renders its own leading keyword.
 */
module Clauses {
  import opened Wrappers
  import opened Text
  import opened Dialects
  import opened Schema
  import opened Expressions
  import opened Projections
  import K = Symbols

  // ---------------------------------------------------------------------
  // LIMIT

  /** A limit and an optional offset, both bound as arguments. */
  datatype LimitClause = LimitClause(limit: int, offset: Option<int>)

  /** One argument for the limit, a second one when an offset is set. */
  function LimitArgCount(lc: LimitClause): nat {
    if lc.offset.None? then 1 else 2
  }

  function LimitSize(d: Dialect, lc: LimitClause): nat {
    KwLen(d, K.Limit) + KwLen(d, K.QuestMark)
    + (if lc.offset.Some? then KwLen(d, K.Offset) + KwLen(d, K.QuestMark) else 0)
  }

  /**
   * limitClause.scan: LIMIT and a placeholder, then OFFSET and a placeholder
   * when an offset is set; the limit goes in the first argument slot and the
   * offset in the second.
   */
  function RenderLimit(d: Dialect, lc: LimitClause): (r: Rendered)
    ensures |r.0| == LimitSize(d, lc)
    ensures |r.1| == LimitArgCount(lc)
    ensures r.1[0] == Int(lc.limit)
    ensures lc.offset.Some? ==> r.1[1] == Int(lc.offset.value)
  {
    var head := (Kw(d, K.Limit) + Kw(d, K.QuestMark), [Int(lc.limit)]);
    match lc.offset
    case None => head
    case Some(off) => Cat(head, (Kw(d, K.Offset) + Kw(d, K.QuestMark), [Int(off)]))
  }

  // ---------------------------------------------------------------------
  // WHERE and HAVING

  function ExprsSize(d: Dialect, es: seq<Expr>): nat {
    if |es| == 0 then 0 else ExprSize(d, es[0]) + ExprsSize(d, es[1..])
  }

  function ExprsArgCount(es: seq<Expr>): nat {
    if |es| == 0 then 0 else ExprArgCount(es[0]) + ExprsArgCount(es[1..])
  }

  /** The expressions scanned in order with `sep` between neighbours; arguments concatenated. */
  function RenderExprs(d: Dialect, es: seq<Expr>, sep: string): (r: Rendered)
    ensures |r.0| == ExprsSize(d, es) + Times(Separators(|es|), |sep|)
    ensures |r.1| == ExprsArgCount(es)
  {
    if |es| == 0 then Lit("")
    else if |es| == 1 then RenderExpr(d, es[0])
    else Joined(RenderExpr(d, es[0]), sep, RenderExprs(d, es[1..], sep))
  }

  /** Size of a WHERE or HAVING clause led by `kw`. */
  function ConditionSize(d: Dialect, kw: K.Symbol, es: seq<Expr>): nat {
    KwLen(d, kw) + ExprsSize(d, es) + Times(Separators(|es|), KwLen(d, K.And))
  }

  /** `kw` followed by the conditions joined by AND. */
  function RenderCondition(d: Dialect, kw: K.Symbol, es: seq<Expr>): (r: Rendered)
    ensures |r.0| == ConditionSize(d, kw, es)
    ensures |r.1| == ExprsArgCount(es)
  {
    Cat(Lit(Kw(d, kw)), RenderExprs(d, es, Kw(d, K.And)))
  }

  // ---------------------------------------------------------------------
  // GROUP BY

  function GroupBySize(d: Dialect, cols: seq<Projection>): nat {
    KwLen(d, K.GroupBy) + ProjectionsSize(d, UnaliasedAll(cols)) + Times(Separators(|cols|), KwLen(d, K.CommaSpace))
  }

  /** GROUP BY and the columns joined by commas, each rendered without its alias. */
  function RenderGroupBy(d: Dialect, cols: seq<Projection>): (r: Rendered)
    ensures |r.0| == GroupBySize(d, cols)
    ensures r.1 == []
  {
    Cat(Lit(Kw(d, K.GroupBy)), RenderProjections(d, UnaliasedAll(cols), Kw(d, K.CommaSpace)))
  }

  /**
   * Alias suppression: two GROUP BY lists whose projections agree once their
   * aliases are cleared render identically, so a projection alias never shows
   * up inside GROUP BY.
   */
  lemma GroupByIgnoresAliases(d: Dialect, a: seq<Projection>, b: seq<Projection>)
    requires |a| == |b|
    requires forall i :: 0 <= i < |a| ==> Unaliased(a[i]) == Unaliased(b[i])
    ensures RenderGroupBy(d, a) == RenderGroupBy(d, b)
  {
    assert UnaliasedAll(a) == UnaliasedAll(b);
  }

  /**
   * Giving any column of a GROUP BY list an alias leaves the clause's text
   * unchanged, as group_by_test.go expects for an aliased column.
   */
  lemma GroupByIgnoresColumnAlias(d: Dialect, cols: seq<Projection>, i: nat, alias: string)
    requires i < |cols| && cols[i].PCol?
    ensures RenderGroupBy(d, cols[i := PCol(As(cols[i].c, alias))]) == RenderGroupBy(d, cols)
  {
    var aliased := cols[i := PCol(As(cols[i].c, alias))];
    assert Unaliased(aliased[i]) == Unaliased(cols[i]);
    GroupByIgnoresAliases(d, aliased, cols);
  }

  // ---------------------------------------------------------------------
  // ORDER BY

  function SortColumnSize(d: Dialect, sc: SortColumn): nat {
    ColumnDefSize(d, sc.col.def) + (if sc.desc then KwLen(d, K.Desc) else 0)
  }

  /** The sorted column's definition, then DESC for a descending sort. */
  function RenderSortColumn(d: Dialect, sc: SortColumn): (r: Rendered)
    ensures |r.0| == SortColumnSize(d, sc)
    ensures r.1 == []
  {
    Cat(RenderColumnDef(d, sc.col.def), Lit(if sc.desc then Kw(d, K.Desc) else ""))
  }

  function SortColumnsSize(d: Dialect, scs: seq<SortColumn>): nat {
    if |scs| == 0 then 0 else SortColumnSize(d, scs[0]) + SortColumnsSize(d, scs[1..])
  }

  function RenderSortColumns(d: Dialect, scs: seq<SortColumn>, sep: string): (r: Rendered)
    ensures |r.0| == SortColumnsSize(d, scs) + Times(Separators(|scs|), |sep|)
    ensures r.1 == []
  {
    if |scs| == 0 then Lit("")
    else if |scs| == 1 then RenderSortColumn(d, scs[0])
    else Joined(RenderSortColumn(d, scs[0]), sep, RenderSortColumns(d, scs[1..], sep))
  }

  function OrderBySize(d: Dialect, scs: seq<SortColumn>): nat {
    KwLen(d, K.OrderBy) + SortColumnsSize(d, scs) + Times(Separators(|scs|), KwLen(d, K.CommaSpace))
  }

  /** ORDER BY and the sort columns joined by commas. */
  function RenderOrderBy(d: Dialect, scs: seq<SortColumn>): (r: Rendered)
    ensures |r.0| == OrderBySize(d, scs)
    ensures r.1 == []
  {
    Cat(Lit(Kw(d, K.OrderBy)), RenderSortColumns(d, scs, Kw(d, K.CommaSpace)))
  }
}

=== FILE: compose.dfy ===
/**
 * Select: building a statement from a list of items. Tables, columns, lists,
 * sub-selects and joins are flattened into a projection list, a join list and
 * a map of selections keyed by identity; the map's values become the
 * statement's selections, one per identity, in no particular order.
 */
module Compose {
  import opened Wrappers
  import opened Text
  import opened Dialects
  import opened Schema
  import opened DerivedColumns
  import opened Projections
  import opened Statements
  import opened StatementProtocol
  import opened StatementMutators
  import opened SelectClauses
  import K = Symbols

  /** What Select accepts. A ColumnDef is a ColumnItem and a TableDef a TableItem (see Schema). */
  datatype Item =
    | JoinItem(j: JoinClause)
    | ColumnItem(c: Column)
    | ListItem(elements: seq<Projection>)
    | TableItem(t: Table)
    | SubSelectItem(id: nat, from: Statement, alias: string)

  /**
   * The state Select threads through its loop: the projections and joins so
   * far, the selection map, the identities in the projection map, and how
   * many unnamed sub-selects have been given a default name.
   */
  datatype ComposeState = ComposeState(
    projs: seq<Projection>,
    joins: seq<JoinClause>,
    sels: map<nat, Selection>,
    seen: set<nat>,
    unnamed: nat)

  const Start := ComposeState([], [], map[], {}, 0)

  /** The columns a table selection projects, each belonging to that selection. */
  function TableColumns(t: Table): (r: seq<Column>)
    ensures |r| == |t.def.columns|
    ensures forall i :: 0 <= i < |r| ==> r[i].def == t.def.columns[i] && r[i].tbl == t && r[i].alias == ""
  {
    seq(|t.def.columns|, i requires 0 <= i < |t.def.columns| => Column(t.def.columns[i].id, t.def.columns[i], "", t))
  }

  /**
   * A join side's projections. A derived table's projection slice is never
   * filled in, so only one whose statement projects nothing can be asked.
   */
  predicate JoinSideOk(sel: Selection) {
    sel.DerivedSel? ==> |sel.dt.from.projs| == 0
  }

  function SideColumns(sel: Selection): (r: seq<Column>)
    requires JoinSideOk(sel)
    ensures sel.TableSel? ==> r == TableColumns(sel.t)
    ensures sel.DerivedSel? ==> r == []
  {
    match sel
    case TableSel(t) => TableColumns(t)
    case DerivedSel(_) => []
  }

  /** Items Select can process without asking a derived table for its projections. */
  predicate ItemOk(it: Item) {
    it.JoinItem? ==> JoinSideOk(it.j.left) && JoinSideOk(it.j.right)
  }

  /** The identities of a list of columns. */
  function ColumnIds(cs: seq<Column>): set<nat> {
    set i | 0 <= i < |cs| :: cs[i].id
  }

  lemma ColumnIdsCons(cs: seq<Column>)
    requires |cs| > 0
    ensures ColumnIds(cs) == {cs[0].id} + ColumnIds(cs[1..])
  {
    forall x | x in ColumnIds(cs)
      ensures x in {cs[0].id} + ColumnIds(cs[1..])
    {
      var i :| 0 <= i < |cs| && cs[i].id == x;
      if i > 0 { assert cs[1..][i - 1].id == x; }
    }
    forall x | x in ColumnIds(cs[1..])
      ensures x in ColumnIds(cs)
    {
      var i :| 0 <= i < |cs[1..]| && cs[1..][i].id == x;
      assert cs[i + 1].id == x;
    }
  }

  /**
   * The columns Select appends from a join side: those whose identity is not
   * in the projection map yet, the map growing as columns are appended.
   */
  function Unseen(seen: set<nat>, cs: seq<Column>): (r: seq<Column>)
    ensures forall k :: 0 <= k < |r| ==> r[k] in cs && r[k].id !in seen
    ensures forall a, b :: 0 <= a < b < |r| ==> r[a].id != r[b].id
    ensures ColumnIds(cs) - seen <= ColumnIds(r)
    decreases |cs|
  {
    if |cs| == 0 then []
    else
      ColumnIdsCons(cs);
      if cs[0].id in seen then
        var rest := Unseen(seen, cs[1..]);
        assert forall k :: 0 <= k < |rest| ==> rest[k] in cs[1..];
        rest
      else
        var rest := Unseen(seen + {cs[0].id}, cs[1..]);
        var r := [cs[0]] + rest;
        assert forall k :: 1 <= k < |r| ==> r[k] == rest[k - 1] && rest[k - 1] in cs[1..];
        assert ColumnIds(r) == {cs[0].id} + ColumnIds(rest) by {
          ColumnIdsCons(r);
          assert r[1..] == rest;
        }
        r
  }

  /** Columns as projections, in order. */
  function PCols(cs: seq<Column>): (r: seq<Projection>)
    ensures |r| == |cs| && forall i :: 0 <= i < |cs| ==> r[i] == PCol(cs[i])
  {
    seq(|cs|, i requires 0 <= i < |cs| => PCol(cs[i]))
  }

  /** The projection-map update for a join side: append the unseen columns, record all identities. */
  function AddUnseen(st: ComposeState, cs: seq<Column>): (r: ComposeState)
    ensures r.joins == st.joins && r.sels == st.sels && r.unnamed == st.unnamed
    ensures r.seen == st.seen + ColumnIds(cs)
    ensures r.projs == st.projs + PCols(Unseen(st.seen, cs))
  {
    st.(projs := st.projs + PCols(Unseen(st.seen, cs)), seen := st.seen + ColumnIds(cs))
  }

  /**
   * `r` continues `st`: the projection list only grows at its end, the
   * projection map only grows, every appended projection is a column whose
   * identity was not in the map, and every newly recorded identity belongs
   * to an appended projection.
   */
  ghost predicate Extends(st: ComposeState, r: ComposeState) {
    |st.projs| <= |r.projs| && r.projs[..|st.projs|] == st.projs
    && st.seen <= r.seen
    && (forall k :: |st.projs| <= k < |r.projs| ==> r.projs[k].PCol? && r.projs[k].c.id !in st.seen)
    && (forall x :: x in r.seen && x !in st.seen ==>
          exists k :: |st.projs| <= k < |r.projs| && r.projs[k].PCol? && r.projs[k].c.id == x)
  }

  lemma ExtendsTrans(a: ComposeState, b: ComposeState, c: ComposeState)
    requires Extends(a, b) && Extends(b, c)
    ensures Extends(a, c)
  {
    assert c.projs[..|b.projs|] == b.projs;
    assert c.projs[..|a.projs|] == a.projs by {
      assert c.projs[..|a.projs|] == c.projs[..|b.projs|][..|a.projs|];
    }
    forall k | |a.projs| <= k < |c.projs|
      ensures c.projs[k].PCol? && c.projs[k].c.id !in a.seen
    {
      if k < |b.projs| { assert c.projs[k] == b.projs[k]; }
    }
    forall x | x in c.seen && x !in a.seen
      ensures exists k :: |a.projs| <= k < |c.projs| && c.projs[k].PCol? && c.projs[k].c.id == x
    {
      if x in b.seen {
        var k :| |a.projs| <= k < |b.projs| && b.projs[k].PCol? && b.projs[k].c.id == x;
        assert c.projs[k] == b.projs[k];
      }
    }
  }

  /** AddUnseen extends the state, appending columns of `cs` only. */
  lemma AddUnseenAppends(st: ComposeState, cs: seq<Column>)
    ensures Extends(st, AddUnseen(st, cs))
    ensures forall k :: |st.projs| <= k < |AddUnseen(st, cs).projs| ==> AddUnseen(st, cs).projs[k].c in cs
  {
    var added := Unseen(st.seen, cs);
    var r := AddUnseen(st, cs);
    assert r.projs[..|st.projs|] == st.projs;
    assert forall k :: |st.projs| <= k < |r.projs| ==> r.projs[k] == PCol(added[k - |st.projs|]);
    forall x | x in r.seen && x !in st.seen
      ensures exists k :: |st.projs| <= k < |r.projs| && r.projs[k].PCol? && r.projs[k].c.id == x
    {
      assert x in ColumnIds(added);
      var i :| 0 <= i < |added| && added[i].id == x;
      assert r.projs[|st.projs| + i] == PCol(added[i]);
    }
  }

  /** A name for a sub-select: its own alias, or the next default derivedN. */
  function DerivedName(alias: string, unnamed: nat): (r: (string, nat))
    ensures alias != "" ==> r == (alias, unnamed)
    ensures alias == "" ==> r.0 == "derived" + NatToString(unnamed) && r.1 == unnamed + 1
  {
    if alias != "" then (alias, unnamed) else ("derived" + NatToString(unnamed), unnamed + 1)
  }

  /** The columns of a SELECT list, in order; other projection kinds are skipped. */
  function InnerColumns(ps: seq<Projection>): (r: seq<Column>)
    ensures |r| <= |ps|
    ensures forall k :: 0 <= k < |r| ==> PCol(r[k]) in ps
  {
    if |ps| == 0 then []
    else if ps[0].PCol? then [ps[0].c] + InnerColumns(ps[1..])
    else InnerColumns(ps[1..])
  }

  /** The outer projection standing in for inner column `c` of `dt`, with no outer alias. */
  function Derive(dt: DerivedTable, c: Column): Projection {
    PDerived(DerivedColumn("", c, dt.id, dt.alias))
  }

  /**
   * The derived columns a sub-select projects: exactly one per inner column,
   * in the inner order, each reading that column from the derived table and
   * carrying no outer alias; other inner projection kinds contribute nothing.
   */
  function DerivedProjs(dt: DerivedTable): (r: seq<Projection>)
    ensures |r| == |InnerColumns(dt.from.projs)|
    ensures forall k :: 0 <= k < |r| ==> r[k] == Derive(dt, InnerColumns(dt.from.projs)[k])
    ensures forall k :: 0 <= k < |r| ==> r[k].PDerived? && r[k].dc.dtId == dt.id && r[k].dc.dtAlias == dt.alias
  {
    var all := GetAllDerivedColumns(dt);
    SomeDerivedOfColumns(dt.from.projs, all, dt);
    SomeDerived(all, dt)
  }

  /** The filled slots of a derived-column list, in order, as projections. */
  function SomeDerived(xs: seq<Option<DerivedColumn>>, dt: DerivedTable): (r: seq<Projection>)
    requires forall dc :: Some(dc) in xs ==> dc.dtId == dt.id && dc.dtAlias == dt.alias
    ensures |r| <= |xs|
    ensures forall k :: 0 <= k < |r| ==> r[k].PDerived? && Some(r[k].dc) in xs
    ensures forall k :: 0 <= k < |r| ==> r[k].PDerived? && r[k].dc.dtId == dt.id && r[k].dc.dtAlias == dt.alias
    ensures (forall i :: 0 <= i < |xs| ==> xs[i].None?) <==> r == []
  {
    if |xs| == 0 then []
    else
      assert forall dc :: Some(dc) in xs[1..] ==> Some(dc) in xs;
      var rest := SomeDerived(xs[1..], dt);
      assert forall i :: 1 <= i < |xs| ==> xs[i] == xs[1..][i - 1];
      if xs[0].Some? then [PDerived(xs[0].value)] + rest else rest
  }

  /**
   * A slot list filled exactly at the column positions of `ps` yields one
   * derived column per column of `ps`, in order.
   */
  lemma {:induction false} SomeDerivedOfColumns(ps: seq<Projection>, xs: seq<Option<DerivedColumn>>, dt: DerivedTable)
    requires |xs| == |ps|
    requires forall i :: 0 <= i < |xs| ==>
      xs[i] == if ps[i].PCol? then Some(DerivedColumn("", ps[i].c, dt.id, dt.alias)) else None
    ensures forall dc :: Some(dc) in xs ==> dc.dtId == dt.id && dc.dtAlias == dt.alias
    ensures |SomeDerived(xs, dt)| == |InnerColumns(ps)|
    ensures forall k :: 0 <= k < |InnerColumns(ps)| ==> SomeDerived(xs, dt)[k] == Derive(dt, InnerColumns(ps)[k])
    decreases |ps|
  {
    if |ps| > 0 {
      SomeDerivedOfColumns(ps[1..], xs[1..], dt);
      var rest, cols := SomeDerived(xs[1..], dt), InnerColumns(ps[1..]);
      if ps[0].PCol? {
        assert SomeDerived(xs, dt) == [Derive(dt, ps[0].c)] + rest;
        assert InnerColumns(ps) == [ps[0].c] + cols;
      } else {
        assert SomeDerived(xs, dt) == rest;
        assert InnerColumns(ps) == cols;
      }
    }
  }

  /**
   * Rendered in the outer SELECT list, the k-th derived column reads the
   * derived table's name, a period and the k-th inner column's exposed name.
   */
  lemma DerivedProjsRender(d: Dialect, dt: DerivedTable, k: nat)
    requires k < |DerivedProjs(dt)|
    ensures RenderProjection(d, DerivedProjs(dt)[k])
      == (dt.alias + Kw(d, K.Period) + ExposedName(InnerColumns(dt.from.projs)[k]), [])
  {
    var c := InnerColumns(dt.from.projs)[k];
    var dc := DerivedColumn("", c, dt.id, dt.alias);
    var text := dt.alias + Kw(d, K.Period) + ExposedName(c);
    assert DerivedProjs(dt)[k] == PDerived(dc);
    assert RenderAlias(d, "") == ("", []);
    assert RenderDerivedColumn(d, dc) == Cat(Lit(text), ("", []));
    assert text + "" == text;
  }

  /** Registers each column's table, in order. */
  function RegisterTables(sels: map<nat, Selection>, ps: seq<Projection>): (r: map<nat, Selection>)
    ensures sels.Keys <= r.Keys
    ensures forall k :: k in r && k !in sels ==> exists i :: 0 <= i < |ps| && ps[i].PCol? && ps[i].c.tbl.id == k
    ensures forall i :: 0 <= i < |ps| && ps[i].PCol? ==> ps[i].c.tbl.id in r
    ensures (forall k :: k in sels ==> SelectionId(sels[k]) == k) ==> forall k :: k in r ==> SelectionId(r[k]) == k
    decreases |ps|
  {
    if |ps| == 0 then sels
    else
      var next := if ps[0].PCol? then sels[ps[0].c.tbl.id := TableSel(ps[0].c.tbl)] else sels;
      var r := RegisterTables(next, ps[1..]);
      assert forall i :: 1 <= i < |ps| ==> ps[i] == ps[1..][i - 1];
      r
  }

  /**
   * A new join goes last; its left side, when not yet registered, is
   * registered and its unseen columns appended.
   */
  function AddLeft(st: ComposeState, j: JoinClause): (r: ComposeState)
    requires JoinSideOk(j.left)
    ensures r.joins == st.joins + [j] && r.unnamed == st.unnamed
    ensures r.sels == if SelectionId(j.left) in st.sels then st.sels else st.sels[SelectionId(j.left) := j.left]
  {
    var st1 := st.(joins := st.joins + [j]);
    var lid := SelectionId(j.left);
    if lid in st1.sels then st1 else AddUnseen(st1.(sels := st1.sels[lid := j.left]), SideColumns(j.left))
  }

  /** The join's right side, when not registered, has its unseen columns appended but stays unregistered. */
  function AddRight(st: ComposeState, j: JoinClause): (r: ComposeState)
    requires JoinSideOk(j.right)
    ensures r.joins == st.joins && r.sels == st.sels && r.unnamed == st.unnamed
  {
    if SelectionId(j.right) in st.sels then st else AddUnseen(st, SideColumns(j.right))
  }

  lemma AddLeftExtends(st: ComposeState, j: JoinClause)
    requires JoinSideOk(j.left)
    ensures Extends(st, AddLeft(st, j))
    ensures forall k :: |st.projs| <= k < |AddLeft(st, j).projs| ==> AddLeft(st, j).projs[k].c in SideColumns(j.left)
  {
    var lid := SelectionId(j.left);
    var st1 := st.(joins := st.joins + [j]);
    if lid !in st1.sels {
      AddUnseenAppends(st1.(sels := st1.sels[lid := j.left]), SideColumns(j.left));
    } else {
      assert st.projs[..|st.projs|] == st.projs;
    }
  }

  lemma AddRightExtends(st: ComposeState, j: JoinClause)
    requires JoinSideOk(j.right)
    ensures Extends(st, AddRight(st, j))
    ensures forall k :: |st.projs| <= k < |AddRight(st, j).projs| ==> AddRight(st, j).projs[k].c in SideColumns(j.right)
  {
    if SelectionId(j.right) !in st.sels {
      AddUnseenAppends(st, SideColumns(j.right));
    } else {
      assert st.projs[..|st.projs|] == st.projs;
    }
  }

  /** One iteration of Select's loop. */
  function Step(st: ComposeState, it: Item): (r: ComposeState)
    requires ItemOk(it)
  {
    match it
    case JoinItem(j) =>
      if JoinsContain(st.joins, j.id) then st else AddRight(AddLeft(st, j), j)
    case ColumnItem(c) =>
      st.(projs := st.projs + [PCol(c)], sels := st.sels[c.tbl.id := TableSel(c.tbl)])
    case ListItem(ps) =>
      st.(projs := st.projs + ps, sels := RegisterTables(st.sels, ps))
    case TableItem(t) =>
      var cols := DefColumns(t.def);
      st.(projs := st.projs + PCols(cols), sels := st.sels[t.id := TableSel(t)])
    case SubSelectItem(id, from, alias) =>
      var name := DerivedName(alias, st.unnamed);
      var dt := DerivedTable(id, name.0, from);
      st.(projs := st.projs + DerivedProjs(dt), sels := st.sels[id := DerivedSel(dt)], unnamed := name.1)
  }

  /** Select's loop: the items processed left to right. */
  function Compose(st: ComposeState, items: seq<Item>): (r: ComposeState)
    requires forall i :: 0 <= i < |items| ==> ItemOk(items[i])
    decreases |items|
  {
    if |items| == 0 then st else Compose(Step(st, items[0]), items[1..])
  }

  /**
   * What Select's loop keeps true: every selection is stored under its own
   * identity, no join identity appears twice, every join's left side is
   * registered, and every identity in the projection map is projected.
   */
  ghost predicate Inv(st: ComposeState) {
    (forall k :: k in st.sels ==> SelectionId(st.sels[k]) == k)
    && (forall a, b :: 0 <= a < b < |st.joins| ==> st.joins[a].id != st.joins[b].id)
    && (forall a :: 0 <= a < |st.joins| ==> SelectionId(st.joins[a].left) in st.sels)
    && (forall x :: x in st.seen ==> exists k :: 0 <= k < |st.projs| && st.projs[k].PCol? && st.projs[k].c.id == x)
  }

  /** Every case of Step keeps Inv, keeps the registered identities and only appends projections. */
  lemma StepInv(st: ComposeState, it: Item)
    requires Inv(st) && ItemOk(it)
    ensures Inv(Step(st, it))
    ensures st.sels.Keys <= Step(st, it).sels.Keys
    ensures |st.projs| <= |Step(st, it).projs| && Step(st, it).projs[..|st.projs|] == st.projs
  {
    if it.JoinItem? {
      JoinStepInv(st, it.j);
    } else {
      var r := Step(st, it);
      assert r.joins == st.joins;
      assert r.projs[..|st.projs|] == st.projs;
      SeenStaysProjected(st, r);
    }
  }

  lemma JoinStepInv(st: ComposeState, j: JoinClause)
    requires Inv(st) && JoinSideOk(j.left) && JoinSideOk(j.right)
    ensures Inv(Step(st, JoinItem(j)))
    ensures st.sels.Keys <= Step(st, JoinItem(j)).sels.Keys
    ensures |st.projs| <= |Step(st, JoinItem(j)).projs| && Step(st, JoinItem(j)).projs[..|st.projs|] == st.projs
  {
    var r := Step(st, JoinItem(j));
    if JoinsContain(st.joins, j.id) {
      assert r == st;
    } else {
      var st2 := AddLeft(st, j);
      assert r == AddRight(st2, j);
      AddLeftExtends(st, j);
      AddRightExtends(st2, j);
      ExtendsTrans(st, st2, r);
      SeenStaysProjected(st, r);
    }
  }

  /**
   * An identity already projected stays projected when the projection list
   * only grows at its end, and one newly recorded is projected if the new
   * entries account for it.
   */
  lemma SeenStaysProjected(st: ComposeState, r: ComposeState)
    requires forall x :: x in st.seen ==> exists k :: 0 <= k < |st.projs| && st.projs[k].PCol? && st.projs[k].c.id == x
    requires |st.projs| <= |r.projs| && r.projs[..|st.projs|] == st.projs
    requires forall x :: x in r.seen && x !in st.seen ==>
      exists k :: |st.projs| <= k < |r.projs| && r.projs[k].PCol? && r.projs[k].c.id == x
    ensures forall x :: x in r.seen ==> exists k :: 0 <= k < |r.projs| && r.projs[k].PCol? && r.projs[k].c.id == x
  {
    forall x | x in r.seen
      ensures exists k :: 0 <= k < |r.projs| && r.projs[k].PCol? && r.projs[k].c.id == x
    {
      if x in st.seen {
        var k :| 0 <= k < |st.projs| && st.projs[k].PCol? && st.projs[k].c.id == x;
        assert r.projs[k] == st.projs[k];
      }
    }
  }

  /** Select's loop keeps Inv from start to end. */
  lemma {:induction false} ComposeInv(st: ComposeState, items: seq<Item>)
    requires Inv(st)
    requires forall i :: 0 <= i < |items| ==> ItemOk(items[i])
    ensures Inv(Compose(st, items))
    ensures st.sels.Keys <= Compose(st, items).sels.Keys
    decreases |items|
  {
    if |items| > 0 {
      StepInv(st, items[0]);
      ComposeInv(Step(st, items[0]), items[1..]);
    }
  }

  /** A join already in the list, by identity, is skipped entirely. */
  lemma KnownJoinSkipped(st: ComposeState, j: JoinClause)
    requires JoinSideOk(j.left) && JoinSideOk(j.right)
    requires exists i :: 0 <= i < |st.joins| && st.joins[i].id == j.id
    ensures Step(st, JoinItem(j)) == st
  {
  }

  /**
   * A new join goes last, its left side is registered, its right side is not,
   * and every projection it adds is a side's column whose identity was not in
   * the projection map.
   */
  lemma NewJoinStep(st: ComposeState, j: JoinClause)
    requires JoinSideOk(j.left) && JoinSideOk(j.right)
    requires forall i :: 0 <= i < |st.joins| ==> st.joins[i].id != j.id
    ensures Step(st, JoinItem(j)).joins == st.joins + [j]
    ensures Step(st, JoinItem(j)).sels.Keys == st.sels.Keys + {SelectionId(j.left)}
    ensures SelectionId(j.left) in st.sels || Step(st, JoinItem(j)).sels[SelectionId(j.left)] == j.left
    ensures forall k :: |st.projs| <= k < |Step(st, JoinItem(j)).projs| ==>
      var p := Step(st, JoinItem(j)).projs[k];
      p.PCol? && p.c.id !in st.seen && (p.c in SideColumns(j.left) || p.c in SideColumns(j.right))
  {
    var st2 := AddLeft(st, j);
    var r := Step(st, JoinItem(j));
    AddLeftExtends(st, j);
    AddRightExtends(st2, j);
    ExtendsTrans(st, st2, r);
    forall k | |st.projs| <= k < |r.projs|
      ensures r.projs[k].c in SideColumns(j.left) || r.projs[k].c in SideColumns(j.right)
    {
      if k < |st2.projs| {
        assert r.projs[k] == st2.projs[k];
      }
    }
  }

  /** The right side of a join is never registered by the join itself. */
  lemma JoinRightNotRegistered(st: ComposeState, j: JoinClause)
    requires JoinSideOk(j.left) && JoinSideOk(j.right)
    requires SelectionId(j.right) !in st.sels && SelectionId(j.right) != SelectionId(j.left)
    ensures SelectionId(j.right) !in Step(st, JoinItem(j)).sels
  {
  }

  /** A column is appended even when its identity was projected already: no deduplication. */
  lemma ColumnsNotDeduplicated(c: Column)
    ensures Compose(Start, [ColumnItem(c), ColumnItem(c)]).projs == [PCol(c), PCol(c)]
    ensures Compose(Start, [ColumnItem(c), ColumnItem(c)]).sels == map[c.tbl.id := TableSel(c.tbl)]
  {
    var s1 := Step(Start, ColumnItem(c));
    assert [ColumnItem(c), ColumnItem(c)][1..] == [ColumnItem(c)];
    assert Compose(s1, [ColumnItem(c)]) == Step(s1, ColumnItem(c)) by {
      assert [ColumnItem(c)][1..] == [];
    }
  }

  /** A table contributes all of its definition's columns, in definition order, and registers itself. */
  lemma TableStep(st: ComposeState, t: Table)
    ensures |Step(st, TableItem(t)).projs| == |st.projs| + |t.def.columns|
    ensures forall i :: 0 <= i < |t.def.columns| ==>
      Step(st, TableItem(t)).projs[|st.projs| + i] == PCol(Column(t.def.columns[i].id, t.def.columns[i], "", DefTable(t.def)))
    ensures Step(st, TableItem(t)).sels == st.sels[t.id := TableSel(t)]
    ensures Step(st, TableItem(t)).seen == st.seen
  {
  }

  /** A list is appended whole; exactly the tables of its plain columns are registered. */
  lemma ListStep(st: ComposeState, ps: seq<Projection>)
    ensures Step(st, ListItem(ps)).projs == st.projs + ps
    ensures forall i :: 0 <= i < |ps| && ps[i].PCol? ==> ps[i].c.tbl.id in Step(st, ListItem(ps)).sels
    ensures forall k :: k in Step(st, ListItem(ps)).sels && k !in st.sels ==>
      exists i :: 0 <= i < |ps| && ps[i].PCol? && ps[i].c.tbl.id == k
  {
  }

  // ---------------------------------------------------------------------
  // From the selection map to the statement

  /**
   * The selection map's values as a list, one entry per identity, in
   * whatever order the map is walked.
   */
  method SelectionsOf(m: map<nat, Selection>) returns (sels: seq<Selection>)
    requires forall k :: k in m ==> SelectionId(m[k]) == k
    ensures |sels| == |m|
    ensures forall i :: 0 <= i < |sels| ==> SelectionId(sels[i]) in m && m[SelectionId(sels[i])] == sels[i]
    ensures forall a, b :: 0 <= a < b < |sels| ==> SelectionId(sels[a]) != SelectionId(sels[b])
    ensures forall k :: k in m ==> m[k] in sels
  {
    sels := [];
    var rest := m.Keys;
    while rest != {}
      invariant rest <= m.Keys
      invariant |sels| + |rest| == |m|
      invariant forall i :: 0 <= i < |sels| ==> SelectionId(sels[i]) in m && SelectionId(sels[i]) !in rest && m[SelectionId(sels[i])] == sels[i]
      invariant forall a, b :: 0 <= a < b < |sels| ==> SelectionId(sels[a]) != SelectionId(sels[b])
      invariant forall k :: k in m && k !in rest ==> m[k] in sels
      decreases |rest|
    {
      var k :| k in rest;
      sels := sels + [m[k]];
      rest := rest - {k};
    }
  }

  /** Select: the statement the items compose to. */
  method SelectStatement(items: seq<Item>) returns (s: Statement)
    requires forall i :: 0 <= i < |items| ==> ItemOk(items[i])
    ensures s.projs == Compose(Start, items).projs
    ensures s.joins == Compose(Start, items).joins
    ensures |s.selections| == |Compose(Start, items).sels|
    ensures forall i :: 0 <= i < |s.selections| ==>
      SelectionId(s.selections[i]) in Compose(Start, items).sels && Compose(Start, items).sels[SelectionId(s.selections[i])] == s.selections[i]
    ensures forall a, b :: 0 <= a < b < |s.selections| ==> SelectionId(s.selections[a]) != SelectionId(s.selections[b])
    ensures forall a :: 0 <= a < |s.joins| ==> exists i :: 0 <= i < |s.selections| && SelectionId(s.selections[i]) == SelectionId(s.joins[a].left)
    ensures s.where.None? && s.groupBy.None? && s.having.None? && s.orderBy.None? && s.limit.None?
  {
    var st := Compose(Start, items);
    ComposeInv(Start, items);
    var sels := SelectionsOf(st.sels);
    s := Statement(st.projs, sels, st.joins, None, None, None, None, None);
    forall a | 0 <= a < |s.joins|
      ensures exists i :: 0 <= i < |s.selections| && SelectionId(s.selections[i]) == SelectionId(s.joins[a].left)
    {
      var k := SelectionId(s.joins[a].left);
      assert st.sels[k] in sels;
      var i :| 0 <= i < |sels| && sels[i] == st.sels[k];
    }
  }

  /**
   * Select in its SelectClause flavour: the same composition, with the
   * selections as the clause's FROM list and no alias, filter or clause yet.
   */
  method SelectClauseOf(items: seq<Item>) returns (sc: SelectClause)
    requires forall i :: 0 <= i < |items| ==> ItemOk(items[i])
    ensures sc.projected == Compose(Start, items).projs
    ensures sc.joins == Compose(Start, items).joins
    ensures |sc.selections| == |Compose(Start, items).sels|
    ensures forall i :: 0 <= i < |sc.selections| ==>
      SelectionId(sc.selections[i]) in Compose(Start, items).sels && Compose(Start, items).sels[SelectionId(sc.selections[i])] == sc.selections[i]
    ensures forall a, b :: 0 <= a < b < |sc.selections| ==> SelectionId(sc.selections[a]) != SelectionId(sc.selections[b])
    ensures sc.alias == "" && sc.filters == [] && sc.groupBy.None? && sc.orderBy.None? && sc.limit.None?
  {
    var st := Compose(Start, items);
    ComposeInv(Start, items);
    var sels := SelectionsOf(st.sels);
    sc := SelectClause("", st.projs, sels, st.joins, [], None, None, None);
  }
}

=== FILE: derived_column.dfy ===
/**
 * A derived column is the outer projection standing in for one column of a
 * derived table's inner SELECT. It renders the derived table's alias, a
 * period, the inner column's alias (or its name when unaliased), and then its
 * own outer alias when one is set.
 */
module DerivedColumns {
  import opened Text
  import opened Dialects
  import opened Schema
  import K = Symbols

  /**
   * `alias` is the outermost alias; `dtId` and `dtAlias` identify the derived
   * table the column is read from.
   */
  datatype DerivedColumn = DerivedColumn(alias: string, c: Column, dtId: nat, dtAlias: string)

  /** derivedColumn.from: the selection the column is read from. */
  function From(dc: DerivedColumn): nat {
    dc.dtId
  }

  /** The name an inner column is exposed under: its alias, else its name. */
  function ExposedName(c: Column): (r: string)
    ensures c.alias != "" ==> r == c.alias
    ensures c.alias == "" ==> r == c.def.name
  {
    if c.alias != "" then c.alias else c.def.name
  }

  /**
   * disableAliasScan: the column with its outer alias cleared, and a closure
   * that puts back exactly the alias the column had before.
   */
  function DisableAliasScan(dc: DerivedColumn): (r: (DerivedColumn, DerivedColumn -> DerivedColumn))
    ensures r.0.alias == "" && r.0.c == dc.c && r.0.dtId == dc.dtId && r.0.dtAlias == dc.dtAlias
    ensures forall x :: r.1(x) == x.(alias := dc.alias)
    ensures r.1(r.0) == dc
  {
    var orig := dc.alias;
    (dc.(alias := ""), (x: DerivedColumn) => x.(alias := orig))
  }

  function DerivedColumnSize(d: Dialect, dc: DerivedColumn): nat {
    |dc.dtAlias| + KwLen(d, K.Period) + |ExposedName(dc.c)| + AliasSize(d, dc.alias)
  }

  /** `dtAlias.name` then ` AS alias` when the outer alias is set; no arguments. */
  function RenderDerivedColumn(d: Dialect, dc: DerivedColumn): (r: Rendered)
    ensures |r.0| == DerivedColumnSize(d, dc)
    ensures r.1 == []
    ensures r.0[..|dc.dtAlias| + KwLen(d, K.Period)] == dc.dtAlias + Kw(d, K.Period)
  {
    Cat(Lit(dc.dtAlias + Kw(d, K.Period) + ExposedName(dc.c)), RenderAlias(d, dc.alias))
  }
}

=== FILE: expressions.dfy ===
/**
 * Filter expressions: binary comparisons, IN lists, BETWEEN, IS [NOT] NULL
 * and parenthesised AND/OR composition. A value operand renders as a
 * placeholder and binds one positional argument at its textual position; a
 * column operand renders as its bare `table.column` definition.
 */
module Expressions {
  import opened Text
  import opened Dialects
  import opened Schema
  import K = Symbols

  /** The binary comparison operators. */
  datatype CompareOp = Eq | Ne | Gt | Ge | Lt | Le

  /** One side of a comparison: a literal value or a column. */
  datatype Operand = Val(v: Value) | Col(c: Column)

  datatype Expr =
    | Compare(op: CompareOp, lhs: Operand, rhs: Operand)
    | InList(col: Column, vals: seq<Value>)
    | BetweenValues(col: Column, lo: Value, hi: Value)
    | NullCheck(col: Column, negated: bool)
    | Conj(l: Expr, r: Expr)
    | Disj(l: Expr, r: Expr)

  function OpSymbol(op: CompareOp): K.Symbol {
    match op
    case Eq => K.Equal
    case Ne => K.NotEqual
    case Gt => K.Greater
    case Ge => K.GreaterEqual
    case Lt => K.Less
    case Le => K.LessEqual
  }

  /** The value operands of an expression in left-to-right textual order. */
  function ExprValues(e: Expr): seq<Value> {
    match e
    case Compare(_, lhs, rhs) => OperandValues(lhs) + OperandValues(rhs)
    case InList(_, vals) => vals
    case BetweenValues(_, lo, hi) => [lo, hi]
    case NullCheck(_, _) => []
    case Conj(l, r) => ExprValues(l) + ExprValues(r)
    case Disj(l, r) => ExprValues(l) + ExprValues(r)
  }

  function OperandValues(o: Operand): seq<Value> {
    if o.Val? then [o.v] else []
  }

  // ---------------------------------------------------------------------
  // Phase one: argument count and size

  function OperandArgCount(o: Operand): nat {
    if o.Val? then 1 else 0
  }

  function ExprArgCount(e: Expr): nat {
    match e
    case Compare(_, lhs, rhs) => OperandArgCount(lhs) + OperandArgCount(rhs)
    case InList(_, vals) => |vals|
    case BetweenValues(_, _, _) => 2
    case NullCheck(_, _) => 0
    case Conj(l, r) => ExprArgCount(l) + ExprArgCount(r)
    case Disj(l, r) => ExprArgCount(l) + ExprArgCount(r)
  }

  function OperandSize(d: Dialect, o: Operand): nat {
    match o
    case Val(_) => KwLen(d, K.QuestMark)
    case Col(c) => ColumnDefSize(d, c.def)
  }

  function ExprSize(d: Dialect, e: Expr): nat {
    match e
    case Compare(op, lhs, rhs) =>
      OperandSize(d, lhs) + KwLen(d, OpSymbol(op)) + OperandSize(d, rhs)
    case InList(col, vals) =>
      ColumnDefSize(d, col.def) + KwLen(d, K.In)
      + Times(|vals|, KwLen(d, K.QuestMark)) + Times(Separators(|vals|), KwLen(d, K.CommaSpace))
      + KwLen(d, K.RParen)
    case BetweenValues(col, _, _) =>
      ColumnDefSize(d, col.def) + KwLen(d, K.Between) + KwLen(d, K.QuestMark)
      + KwLen(d, K.And) + KwLen(d, K.QuestMark)
    case NullCheck(col, negated) =>
      ColumnDefSize(d, col.def) + KwLen(d, if negated then K.IsNotNull else K.IsNull)
    case Conj(l, r) =>
      KwLen(d, K.LParen) + ExprSize(d, l) + KwLen(d, K.And) + ExprSize(d, r) + KwLen(d, K.RParen)
    case Disj(l, r) =>
      KwLen(d, K.LParen) + ExprSize(d, l) + KwLen(d, K.Or) + ExprSize(d, r) + KwLen(d, K.RParen)
  }

  // ---------------------------------------------------------------------
  // Phase two: scan

  function Placeholder(d: Dialect, v: Value): Rendered {
    (Kw(d, K.QuestMark), [v])
  }

  function RenderOperand(d: Dialect, o: Operand): (r: Rendered)
    ensures |r.0| == OperandSize(d, o)
    ensures r.1 == OperandValues(o)
  {
    match o
    case Val(v) => Placeholder(d, v)
    case Col(c) => RenderColumnDef(d, c.def)
  }

  /** One placeholder per value, separated by commas, binding the values in order. */
  function RenderPlaceholders(d: Dialect, vals: seq<Value>): (r: Rendered)
    ensures |r.0| == Times(|vals|, KwLen(d, K.QuestMark)) + Times(Separators(|vals|), KwLen(d, K.CommaSpace))
    ensures r.1 == vals
  {
    if |vals| == 0 then Lit("")
    else if |vals| == 1 then Placeholder(d, vals[0])
    else
      var rest := RenderPlaceholders(d, vals[1..]);
      assert vals == [vals[0]] + vals[1..];
      Cat(Cat(Placeholder(d, vals[0]), Lit(Kw(d, K.CommaSpace))), rest)
  }

  /** A non-composite expression's scan. */
  function RenderSimple(d: Dialect, e: Expr): (r: Rendered)
    requires !e.Conj? && !e.Disj?
    ensures |r.0| == ExprSize(d, e)
    ensures r.1 == ExprValues(e)
  {
    match e
    case Compare(op, lhs, rhs) =>
      Cat(Cat(RenderOperand(d, lhs), Lit(Kw(d, OpSymbol(op)))), RenderOperand(d, rhs))
    case InList(col, vals) =>
      Cat(Cat(Cat(RenderColumnDef(d, col.def), Lit(Kw(d, K.In))), RenderPlaceholders(d, vals)),
          Lit(Kw(d, K.RParen)))
    case BetweenValues(col, lo, hi) =>
      Cat(Cat(Cat(Cat(RenderColumnDef(d, col.def), Lit(Kw(d, K.Between))), Placeholder(d, lo)),
              Lit(Kw(d, K.And))), Placeholder(d, hi))
    case NullCheck(col, negated) =>
      Cat(RenderColumnDef(d, col.def), Lit(Kw(d, if negated then K.IsNotNull else K.IsNull)))
  }

  /** `(a <op> b)`: the two operands' text inside parentheses, their arguments left then right. */
  function Parenthesise(d: Dialect, a: Rendered, op: K.Symbol, b: Rendered): (r: Rendered)
    ensures |r.0| == KwLen(d, K.LParen) + |a.0| + KwLen(d, op) + |b.0| + KwLen(d, K.RParen)
    ensures r.1 == a.1 + b.1
  {
    Cat(Cat(Cat(Cat(Lit(Kw(d, K.LParen)), a), Lit(Kw(d, op))), b), Lit(Kw(d, K.RParen)))
  }

  /**
   * Expression scan. Its text is exactly as long as the size phase said, and
   * it binds exactly the value operands, in the order they appear in the text.
   */
  function RenderExpr(d: Dialect, e: Expr): (r: Rendered)
    ensures |r.0| == ExprSize(d, e)
    ensures |r.1| == ExprArgCount(e)
    ensures r.1 == ExprValues(e)
  {
    match e
    case Conj(l, r) => Parenthesise(d, RenderExpr(d, l), K.And, RenderExpr(d, r))
    case Disj(l, r) => Parenthesise(d, RenderExpr(d, l), K.Or, RenderExpr(d, r))
    case _ =>
      ArgCountIsValueCount(e);
      RenderSimple(d, e)
  }

  /** An expression's argument count is the number of its value operands. */
  lemma {:induction false} ArgCountIsValueCount(e: Expr)
    ensures ExprArgCount(e) == |ExprValues(e)|
  {
    match e
    case Conj(l, r) => ArgCountIsValueCount(l); ArgCountIsValueCount(r);
    case Disj(l, r) => ArgCountIsValueCount(l); ArgCountIsValueCount(r);
    case _ =>
  }

  /** The ids of the tables an expression's column operands belong to, in textual order. */
  function ExprTableIds(e: Expr): seq<nat> {
    match e
    case Compare(_, lhs, rhs) => OperandTableIds(lhs) + OperandTableIds(rhs)
    case InList(col, _) => [col.tbl.id]
    case BetweenValues(col, _, _) => [col.tbl.id]
    case NullCheck(col, _) => [col.tbl.id]
    case Conj(l, r) => ExprTableIds(l) + ExprTableIds(r)
    case Disj(l, r) => ExprTableIds(l) + ExprTableIds(r)
  }

  function OperandTableIds(o: Operand): seq<nat> {
    if o.Col? then [o.c.tbl.id] else []
  }
}

=== FILE: functions.dfy ===
/**
 * SQL function calls usable as projections: the aggregates MAX/MIN/SUM/AVG
 * over a bare column name with an optional alias, and the trim family, whose
 * keyword depends on the dialect the call is rendered under.
 */
module Functions {
  import opened Text
  import opened Dialects
  import opened Schema
  import K = Symbols

  datatype AggKind = Max | Min | Sum | Avg

  /** An aggregate over a column definition, with an optional alias. */
  datatype AggFunc = AggFunc(kind: AggKind, def: ColumnDef, alias: string)

  /** Which side(s) a trim call strips. */
  datatype TrimLocation = Both | Leading | Trailing

  datatype TrimFunc = TrimFunc(loc: TrimLocation, col: Column)

  /** Max(cd), Min(cd), Sum(cd), Avg(cd) and the same methods on a ColumnDef. */
  function Aggregate(kind: AggKind, cd: ColumnDef): (f: AggFunc)
    ensures f.kind == kind && f.def == cd && f.alias == ""
  {
    AggFunc(kind, cd, "")
  }

  /** Column.Max() and friends: the aggregate over the column's definition. */
  function ColumnAggregate(kind: AggKind, c: Column): (f: AggFunc)
    ensures f == Aggregate(kind, c.def)
  {
    AggFunc(kind, c.def, "")
  }

  /** The aggregate's As(alias). */
  function AggAs(f: AggFunc, alias: string): (r: AggFunc)
    ensures r.kind == f.kind && r.def == f.def && r.alias == alias
  {
    f.(alias := alias)
  }

  function AggSymbol(kind: AggKind): K.Symbol {
    match kind
    case Max => K.Max
    case Min => K.Min
    case Sum => K.Sum
    case Avg => K.Avg
  }

  function AggSize(d: Dialect, f: AggFunc): nat {
    KwLen(d, AggSymbol(f.kind)) + |f.def.name| + KwLen(d, K.RParen) + AliasSize(d, f.alias)
  }

  /** `NAME(column)` with the bare column name, then ` AS alias` when aliased; no arguments. */
  function RenderAgg(d: Dialect, f: AggFunc): (r: Rendered)
    ensures |r.0| == AggSize(d, f)
    ensures r.1 == []
  {
    Cat(Lit(Kw(d, AggSymbol(f.kind)) + f.def.name + Kw(d, K.RParen)), RenderAlias(d, f.alias))
  }

  /** The opening keyword of a trim call under a dialect. */
  function TrimSymbol(kind: DialectKind, loc: TrimLocation): K.Symbol {
    match (kind, loc)
    case (MySQL, Both) => K.Trim
    case (MySQL, Leading) => K.LTrim
    case (MySQL, Trailing) => K.RTrim
    case (PostgreSQL, Both) => K.BTrim
    case (PostgreSQL, Leading) => K.TrimLeadingFrom
    case (PostgreSQL, Trailing) => K.TrimTrailingFrom
  }

  function TrimSize(d: Dialect, t: TrimFunc): nat {
    KwLen(d, TrimSymbol(d.kind, t.loc)) + ColumnDefSize(d, t.col.def) + KwLen(d, K.RParen)
  }

  /** The dialect's trim keyword, the qualified column, then `)`; no arguments. */
  function RenderTrim(d: Dialect, t: TrimFunc): (r: Rendered)
    ensures |r.0| == TrimSize(d, t)
    ensures r.1 == []
  {
    Cat(Cat(Lit(Kw(d, TrimSymbol(d.kind, t.loc))), RenderColumnDef(d, t.col.def)), Lit(Kw(d, K.RParen)))
  }

  /**
   * The same trim element under two dialects that share a symbol table
   * differs only in its opening keyword: the column text and the closing
   * parenthesis are identical.
   */
  lemma TrimDialectSwitch(d1: Dialect, d2: Dialect, t: TrimFunc)
    requires d1.sym == d2.sym
    ensures var k1 := KwLen(d1, TrimSymbol(d1.kind, t.loc));
            var k2 := KwLen(d2, TrimSymbol(d2.kind, t.loc));
            RenderTrim(d1, t).0[k1..] == RenderTrim(d2, t).0[k2..]
    ensures RenderTrim(d1, t).1 == RenderTrim(d2, t).1 == []
  {
    var k1 := KwLen(d1, TrimSymbol(d1.kind, t.loc));
    var k2 := KwLen(d2, TrimSymbol(d2.kind, t.loc));
    var tail := RenderColumnDef(d1, t.col.def).0 + Kw(d1, K.RParen);
    assert RenderTrim(d1, t).0 == Kw(d1, TrimSymbol(d1.kind, t.loc)) + tail;
    assert RenderTrim(d2, t).0 == Kw(d2, TrimSymbol(d2.kind, t.loc)) + tail;
  }
}

=== FILE: mutators.dfy ===
// Clause mutators of a select statement: append-or-create updates on the
// statement record, limit replacement, join lookup and selection removal.
module StatementMutators {
  import opened Wrappers
  import opened Text
  import opened Dialects
  import opened Schema
  import opened Expressions
  import opened Projections
  import opened Clauses
  import opened Statements
  import K = Symbols

  /** The list an optional clause holds, empty when the clause is absent. */
  function Existing<T>(o: Option<seq<T>>): seq<T> {
    if o.Some? then o.value else []
  }

  /**
   * Create-or-append: the clause is created on first use and appended to
   * afterwards, so the earlier entries stay in front, in order.
   */
  function AppendOrCreate<T>(o: Option<seq<T>>, xs: seq<T>): (r: Option<seq<T>>)
    ensures r.Some?
    ensures |r.value| == |Existing(o)| + |xs|
    ensures r.value[..|Existing(o)|] == Existing(o)
    ensures r.value[|Existing(o)|..] == xs
  {
    Some(Existing(o) + xs)
  }

  /** addJoin: the join goes last; nothing else changes. */
  function AddJoin(s: Statement, jc: JoinClause): (r: Statement)
    ensures |r.joins| == |s.joins| + 1
    ensures r.joins[..|s.joins|] == s.joins && r.joins[|s.joins|] == jc
    ensures r.(joins := s.joins) == s
  {
    s.(joins := s.joins + [jc])
  }

  /** addWhere: creates the WHERE clause on first use, otherwise appends the condition. */
  function AddWhere(s: Statement, e: Expr): (r: Statement)
    ensures r.where.Some?
    ensures |r.where.value| == |Existing(s.where)| + 1
    ensures r.where.value[..|Existing(s.where)|] == Existing(s.where)
    ensures r.where.value[|Existing(s.where)|] == e
    ensures r.(where := s.where) == s
  {
    s.(where := AppendOrCreate(s.where, [e]))
  }

  /** addHaving: creates the HAVING clause on first use, otherwise appends the condition. */
  function AddHaving(s: Statement, e: Expr): (r: Statement)
    ensures r.having.Some?
    ensures |r.having.value| == |Existing(s.having)| + 1
    ensures r.having.value[..|Existing(s.having)|] == Existing(s.having)
    ensures r.having.value[|Existing(s.having)|] == e
    ensures r.(having := s.having) == s
  {
    s.(having := AppendOrCreate(s.having, [e]))
  }

  /**
   * addGroupBy: no columns leaves the statement untouched; otherwise the first
   * call creates the list and later calls append in argument order.
   */
  function AddGroupBy(s: Statement, cols: seq<Projection>): (r: Statement)
    ensures |cols| == 0 ==> r == s
    ensures |cols| > 0 ==> r.groupBy.Some? && |r.groupBy.value| == |Existing(s.groupBy)| + |cols|
    ensures |cols| > 0 ==> r.groupBy.Some? && r.groupBy.value[..|Existing(s.groupBy)|] == Existing(s.groupBy)
    ensures |cols| > 0 ==> r.groupBy.Some? && r.groupBy.value[|Existing(s.groupBy)|..] == cols
    ensures r.(groupBy := s.groupBy) == s
  {
    if |cols| == 0 then s else s.(groupBy := AppendOrCreate(s.groupBy, cols))
  }

  /**
   * addOrderBy: no sort columns leaves the statement untouched; otherwise the
   * first call creates the list and later calls append in argument order.
   */
  function AddOrderBy(s: Statement, scs: seq<SortColumn>): (r: Statement)
    ensures |scs| == 0 ==> r == s
    ensures |scs| > 0 ==> r.orderBy.Some? && |r.orderBy.value| == |Existing(s.orderBy)| + |scs|
    ensures |scs| > 0 ==> r.orderBy.Some? && r.orderBy.value[..|Existing(s.orderBy)|] == Existing(s.orderBy)
    ensures |scs| > 0 ==> r.orderBy.Some? && r.orderBy.value[|Existing(s.orderBy)|..] == scs
    ensures r.(orderBy := s.orderBy) == s
  {
    if |scs| == 0 then s else s.(orderBy := AppendOrCreate(s.orderBy, scs))
  }

  /** setLimit: any previous limit clause is replaced by one without an offset. */
  function SetLimit(s: Statement, limit: int): (r: Statement)
    ensures r.limit.Some? && r.limit.value.limit == limit && r.limit.value.offset.None?
    ensures r.(limit := s.limit) == s
  {
    s.(limit := Some(LimitClause(limit, None)))
  }

  /** setLimitWithOffset: any previous limit clause is replaced by one carrying both values. */
  function SetLimitWithOffset(s: Statement, limit: int, offset: int): (r: Statement)
    ensures r.limit.Some? && r.limit.value.limit == limit && r.limit.value.offset == Some(offset)
    ensures r.(limit := s.limit) == s
  {
    s.(limit := Some(LimitClause(limit, Some(offset))))
  }

  /** The linear scan containsJoin performs over the join list. */
  function JoinsContain(js: seq<JoinClause>, id: nat): (r: bool)
    ensures r <==> exists i :: 0 <= i < |js| && js[i].id == id
  {
    if |js| == 0 then false
    else if js[0].id == id then true
    else
      var rest := JoinsContain(js[1..], id);
      assert forall i :: 1 <= i < |js| ==> js[i] == js[1..][i - 1];
      rest
  }

  /** containsJoin: whether a join with this identity is already attached. */
  function ContainsJoin(s: Statement, id: nat): (r: bool)
    ensures r <==> exists i :: 0 <= i < |s.joins| && s.joins[i].id == id
  {
    JoinsContain(s.joins, id)
  }

  /** addToProjections: the projection goes last; nothing else changes. */
  function AddToProjections(s: Statement, p: Projection): (r: Statement)
    ensures |r.projs| == |s.projs| + 1
    ensures r.projs[..|s.projs|] == s.projs && r.projs[|s.projs|] == p
    ensures r.(projs := s.projs) == s
  {
    s.(projs := s.projs + [p])
  }

  /** The position of the first selection carrying identity `id`, if any. */
  function FirstIndexOf(sels: seq<Selection>, id: nat): (r: Option<nat>)
    ensures r.None? <==> forall k :: 0 <= k < |sels| ==> SelectionId(sels[k]) != id
    ensures r.Some? ==> r.value < |sels| && SelectionId(sels[r.value]) == id
    ensures r.Some? ==> forall k :: 0 <= k < r.value ==> SelectionId(sels[k]) != id
  {
    if |sels| == 0 then None
    else if SelectionId(sels[0]) == id then Some(0)
    else
      var rest := FirstIndexOf(sels[1..], id);
      assert forall k :: 1 <= k < |sels| ==> sels[k] == sels[1..][k - 1];
      if rest.Some? then Some(rest.value + 1) else None
  }

  /**
   * removeSelection: drops the first selection with identity `id`, keeping the
   * rest in their order; no such selection leaves the statement untouched.
   */
  function RemoveSelection(s: Statement, id: nat): (r: Statement)
    ensures (forall k :: 0 <= k < |s.selections| ==> SelectionId(s.selections[k]) != id) ==> r == s
    ensures (exists k :: 0 <= k < |s.selections| && SelectionId(s.selections[k]) == id) ==>
      exists i :: 0 <= i < |s.selections| && SelectionId(s.selections[i]) == id
        && (forall k :: 0 <= k < i ==> SelectionId(s.selections[k]) != id)
        && r.selections == s.selections[..i] + s.selections[i + 1..]
    ensures r.(selections := s.selections) == s
  {
    match FirstIndexOf(s.selections, id)
    case None => s
    case Some(i) => s.(selections := s.selections[..i] + s.selections[i + 1..])
  }

  // ---------------------------------------------------------------------
  // What the mutators do to the count phase

  lemma {:induction false} ExprsArgCountAppend(es: seq<Expr>, xs: seq<Expr>)
    ensures ExprsArgCount(es + xs) == ExprsArgCount(es) + ExprsArgCount(xs)
    decreases |es|
  {
    if |es| > 0 {
      assert (es + xs)[1..] == es[1..] + xs;
      ExprsArgCountAppend(es[1..], xs);
    } else {
      assert es + xs == xs;
    }
  }

  lemma {:induction false} JoinsArgCountAppend(js: seq<JoinClause>, xs: seq<JoinClause>)
    ensures JoinsArgCount(js + xs) == JoinsArgCount(js) + JoinsArgCount(xs)
    decreases |js|
  {
    if |js| > 0 {
      assert (js + xs)[1..] == js[1..] + xs;
      JoinsArgCountAppend(js[1..], xs);
    } else {
      assert js + xs == xs;
    }
  }

  /** A new WHERE condition adds exactly its own value operands to the statement's count. */
  lemma AddWhereArgCount(s: Statement, e: Expr)
    ensures StatementArgCount(AddWhere(s, e)) == StatementArgCount(s) + ExprArgCount(e)
  {
    ExprsArgCountAppend(Existing(s.where), [e]);
    assert ExprsArgCount([e]) == ExprArgCount(e);
  }

  /** A new HAVING condition adds exactly its own value operands to the statement's count. */
  lemma AddHavingArgCount(s: Statement, e: Expr)
    ensures StatementArgCount(AddHaving(s, e)) == StatementArgCount(s) + ExprArgCount(e)
  {
    ExprsArgCountAppend(Existing(s.having), [e]);
    assert ExprsArgCount([e]) == ExprArgCount(e);
  }

  /**
   * A new join adds its arguments to the statement's count when there is a
   * selection, and nothing otherwise.
   */
  lemma AddJoinArgCount(s: Statement, jc: JoinClause)
    ensures StatementArgCount(AddJoin(s, jc))
      == StatementArgCount(s) + (if |s.selections| > 0 then JoinArgCount(jc) else 0)
  {
    JoinsArgCountAppend(s.joins, [jc]);
    assert JoinsArgCount([jc]) == JoinArgCount(jc);
  }

  /** GROUP BY, ORDER BY and new projections never change the count. */
  lemma ArgFreeMutators(s: Statement, cols: seq<Projection>, scs: seq<SortColumn>, p: Projection)
    ensures StatementArgCount(AddGroupBy(s, cols)) == StatementArgCount(s)
    ensures StatementArgCount(AddOrderBy(s, scs)) == StatementArgCount(s)
    ensures StatementArgCount(AddToProjections(s, p)) == StatementArgCount(s)
  {
  }

  /** The limit clause's arguments replace the previous clause's, one or two of them. */
  lemma SetLimitArgCount(s: Statement, limit: int, offset: int)
    ensures StatementArgCount(SetLimit(s, limit)) == StatementArgCount(s.(limit := None)) + 1
    ensures StatementArgCount(SetLimitWithOffset(s, limit, offset)) == StatementArgCount(s.(limit := None)) + 2
  {
  }

  /** A later limit call wins outright: nothing of the earlier limit clause survives. */
  lemma LimitReplaces(s: Statement, a: int, b: int, n: int)
    ensures SetLimit(SetLimitWithOffset(s, a, b), n) == SetLimit(s, n)
    ensures SetLimitWithOffset(SetLimit(s, a), n, b) == SetLimitWithOffset(s, n, b)
  {
  }

  /** Two appends in a row give the same clause as one append of both lists. */
  lemma GroupByAppendsCompose(s: Statement, a: seq<Projection>, b: seq<Projection>)
    ensures AddGroupBy(AddGroupBy(s, a), b) == AddGroupBy(s, a + b)
  {
    if |a| == 0 {
      assert a + b == b;
    } else if |b| == 0 {
      assert a + b == a;
    } else {
      assert Existing(s.groupBy) + a + b == Existing(s.groupBy) + (a + b);
    }
  }

  /** Two appends in a row give the same clause as one append of both lists. */
  lemma OrderByAppendsCompose(s: Statement, a: seq<SortColumn>, b: seq<SortColumn>)
    ensures AddOrderBy(AddOrderBy(s, a), b) == AddOrderBy(s, a + b)
  {
    if |a| == 0 {
      assert a + b == b;
    } else if |b| == 0 {
      assert a + b == a;
    } else {
      assert Existing(s.orderBy) + a + b == Existing(s.orderBy) + (a + b);
    }
  }

  /** After addJoin the join is found by containsJoin; other identities keep their answer. */
  lemma AddJoinThenContains(s: Statement, jc: JoinClause, other: nat)
    ensures ContainsJoin(AddJoin(s, jc), jc.id)
    ensures other != jc.id ==> ContainsJoin(AddJoin(s, jc), other) == ContainsJoin(s, other)
  {
    var r := AddJoin(s, jc);
    assert r.joins[|s.joins|].id == jc.id;
    if other != jc.id {
      if ContainsJoin(r, other) {
        var i :| 0 <= i < |r.joins| && r.joins[i].id == other;
        assert i < |s.joins| && s.joins[i] == r.joins[i];
      }
      if ContainsJoin(s, other) {
        var i :| 0 <= i < |s.joins| && s.joins[i].id == other;
        assert r.joins[i] == s.joins[i];
      }
    }
  }

  /** Removing a selection shortens the list by one exactly when the identity was present. */
  lemma RemoveSelectionLength(s: Statement, id: nat)
    ensures |RemoveSelection(s, id).selections|
      == |s.selections| - (if FirstIndexOf(s.selections, id).Some? then 1 else 0)
  {
  }

  /** Projections without arguments leave the scan's argument order untouched. */
  lemma AddToProjectionsKeepsArgs(d: Dialect, s: Statement, p: Projection)
    ensures RenderStatement(d, AddToProjections(s, p)).1 == RenderStatement(d, s).1
  {
  }
}

=== FILE: nodes.dfy ===
/**
 * The rendering protocol over one closed family of nodes. Every node answers
 * the two questions asked before rendering (how many bytes, how many
 * arguments) and is then rendered; the protocol's central promise is that the
 * answers describe the rendering exactly, for every symbol table.
 */
module Nodes {
  import opened Text
  import opened Dialects
  import opened Schema
  import opened Expressions
  import opened Functions
  import opened DerivedColumns
  import opened Projections
  import opened Clauses
  import opened Statements

  datatype Node =
    | ColumnDefNode(cd: ColumnDef)
    | ColumnNode(c: Column)
    | TableNode(t: Table)
    | ExprNode(e: Expr)
    | AggNode(f: AggFunc)
    | TrimNode(tf: TrimFunc)
    | DerivedColumnNode(dc: DerivedColumn)
    | SortColumnNode(sc: SortColumn)
    | GroupByNode(cols: seq<Projection>)
    | OrderByNode(scs: seq<SortColumn>)
    | LimitNode(lc: LimitClause)
    | JoinNode(j: JoinClause)
    | DerivedTableNode(dt: DerivedTable)
    | StatementNode(s: Statement)

  /** The size phase: bytes the node will write. */
  function Size(d: Dialect, n: Node): nat {
    match n
    case ColumnDefNode(cd) => ColumnDefSize(d, cd)
    case ColumnNode(c) => ColumnSize(d, c)
    case TableNode(t) => TableSize(d, t)
    case ExprNode(e) => ExprSize(d, e)
    case AggNode(f) => AggSize(d, f)
    case TrimNode(tf) => TrimSize(d, tf)
    case DerivedColumnNode(dc) => DerivedColumnSize(d, dc)
    case SortColumnNode(sc) => SortColumnSize(d, sc)
    case GroupByNode(cols) => GroupBySize(d, cols)
    case OrderByNode(scs) => OrderBySize(d, scs)
    case LimitNode(lc) => LimitSize(d, lc)
    case JoinNode(j) => JoinSize(d, j)
    case DerivedTableNode(dt) => DerivedTableSize(d, dt)
    case StatementNode(s) => StatementSize(d, s)
  }

  /** The count phase: arguments the node will bind; it never depends on the dialect. */
  function ArgCount(n: Node): nat {
    match n
    case ExprNode(e) => ExprArgCount(e)
    case LimitNode(lc) => LimitArgCount(lc)
    case JoinNode(j) => JoinArgCount(j)
    case DerivedTableNode(dt) => DerivedTableArgCount(dt)
    case StatementNode(s) => StatementArgCount(s)
    case _ => 0
  }

  /** Whether the node kind can bind arguments at all. */
  predicate Binds(n: Node) {
    n.ExprNode? || n.LimitNode? || n.JoinNode? || n.DerivedTableNode? || n.StatementNode?
  }

  /**
   * The scan phase: the text and the arguments in emission order. Its length
   * and argument count are exactly what the two earlier phases announced.
   */
  function Render(d: Dialect, n: Node): (r: Rendered)
    ensures |r.0| == Size(d, n)
    ensures |r.1| == ArgCount(n)
    ensures !Binds(n) ==> r.1 == []
  {
    if Binds(n) then RenderBinding(d, n) else RenderPlain(d, n)
  }

  /** The node kinds that bind no arguments. */
  function RenderPlain(d: Dialect, n: Node): (r: Rendered)
    requires !Binds(n)
    ensures |r.0| == Size(d, n)
    ensures r.1 == []
  {
    match n
    case ColumnDefNode(cd) => RenderColumnDef(d, cd)
    case ColumnNode(c) => RenderColumn(d, c)
    case TableNode(t) => RenderTable(d, t)
    case AggNode(f) => RenderAgg(d, f)
    case TrimNode(tf) => RenderTrim(d, tf)
    case DerivedColumnNode(dc) => RenderDerivedColumn(d, dc)
    case SortColumnNode(sc) => RenderSortColumn(d, sc)
    case GroupByNode(cols) => RenderGroupBy(d, cols)
    case OrderByNode(scs) => RenderOrderBy(d, scs)
  }

  /** The node kinds that can bind arguments. */
  function RenderBinding(d: Dialect, n: Node): (r: Rendered)
    requires Binds(n)
    ensures |r.0| == Size(d, n)
    ensures |r.1| == ArgCount(n)
  {
    if n.ExprNode? || n.LimitNode? then RenderValueNode(d, n)
    else if n.JoinNode? then RenderJoinNode(d, n)
    else if n.DerivedTableNode? then RenderDerivedTableNode(d, n)
    else RenderStatementNode(d, n)
  }

  /** Conditions and the limit clause: placeholders for values. */
  function RenderValueNode(d: Dialect, n: Node): (r: Rendered)
    requires n.ExprNode? || n.LimitNode?
    ensures |r.0| == Size(d, n)
    ensures |r.1| == ArgCount(n)
  {
    if n.ExprNode? then RenderExpr(d, n.e) else RenderLimit(d, n.lc)
  }

  function RenderJoinNode(d: Dialect, n: Node): (r: Rendered)
    requires n.JoinNode?
    ensures |r.0| == Size(d, n)
    ensures |r.1| == ArgCount(n)
  {
    var x := n.j;
    assert Size(d, n) == JoinSize(d, x) && ArgCount(n) == JoinArgCount(x);
    RenderJoin(d, x)
  }

  function RenderDerivedTableNode(d: Dialect, n: Node): (r: Rendered)
    requires n.DerivedTableNode?
    ensures |r.0| == Size(d, n)
    ensures |r.1| == ArgCount(n)
  {
    var x := n.dt;
    assert Size(d, n) == DerivedTableSize(d, x) && ArgCount(n) == DerivedTableArgCount(x);
    RenderDerivedTable(d, x)
  }

  function RenderStatementNode(d: Dialect, n: Node): (r: Rendered)
    requires n.StatementNode?
    ensures |r.0| == Size(d, n)
    ensures |r.1| == ArgCount(n)
  {
    var x := n.s;
    assert Size(d, n) == StatementSize(d, x) && ArgCount(n) == StatementArgCount(x);
    RenderStatement(d, x)
  }
}

=== FILE: projections.dfy ===
/**
 * Projections: the renderable units a SELECT list holds. A column's kind is
 * tested with the constructor test `PCol?` (the builder's isColumn).
 */
module Projections {
  import opened Text
  import opened Dialects
  import opened Schema
  import opened Functions
  import opened DerivedColumns

  datatype Projection =
    | PCol(c: Column)
    | PDerived(dc: DerivedColumn)
    | PAgg(f: AggFunc)
    | PTrim(t: TrimFunc)

  /** The projection with any alias it carries cleared (trim calls carry none). */
  function Unaliased(p: Projection): (r: Projection)
    ensures r.PCol? <==> p.PCol?
    ensures p.PCol? ==> r.PCol? && r.c.alias == "" && r.c.(alias := p.c.alias) == p.c
    ensures p.PDerived? ==> r.PDerived? && r.dc.alias == "" && r.dc.(alias := p.dc.alias) == p.dc
    ensures p.PAgg? ==> r.PAgg? && r.f.alias == "" && r.f.(alias := p.f.alias) == p.f
    ensures p.PTrim? ==> r == p
  {
    match p
    case PCol(c) => PCol(c.(alias := ""))
    case PDerived(dc) => PDerived(DisableAliasScan(dc).0)
    case PAgg(f) => PAgg(f.(alias := ""))
    case PTrim(t) => PTrim(t)
  }

  /** Clearing aliases twice is the same as clearing them once. */
  lemma UnaliasedIdempotent(p: Projection)
    ensures Unaliased(Unaliased(p)) == Unaliased(p)
  {
  }

  function ProjectionSize(d: Dialect, p: Projection): nat {
    match p
    case PCol(c) => ColumnSize(d, c)
    case PDerived(dc) => DerivedColumnSize(d, dc)
    case PAgg(f) => AggSize(d, f)
    case PTrim(t) => TrimSize(d, t)
  }

  /** A projection's scan; no projection kind binds arguments. */
  function RenderProjection(d: Dialect, p: Projection): (r: Rendered)
    ensures |r.0| == ProjectionSize(d, p)
    ensures r.1 == []
  {
    match p
    case PCol(c) => RenderColumn(d, c)
    case PDerived(dc) => RenderDerivedColumn(d, dc)
    case PAgg(f) => RenderAgg(d, f)
    case PTrim(t) => RenderTrim(d, t)
  }

  /** Sum of the projections' sizes. */
  function ProjectionsSize(d: Dialect, ps: seq<Projection>): nat {
    if |ps| == 0 then 0 else ProjectionSize(d, ps[0]) + ProjectionsSize(d, ps[1..])
  }

  /** The projections scanned in order with `sep` written between neighbours. */
  function RenderProjections(d: Dialect, ps: seq<Projection>, sep: string): (r: Rendered)
    ensures |r.0| == ProjectionsSize(d, ps) + Times(Separators(|ps|), |sep|)
    ensures r.1 == []
  {
    if |ps| == 0 then Lit("")
    else if |ps| == 1 then RenderProjection(d, ps[0])
    else Joined(RenderProjection(d, ps[0]), sep, RenderProjections(d, ps[1..], sep))
  }

  /** Every projection of a list with its alias cleared. */
  function UnaliasedAll(ps: seq<Projection>): (r: seq<Projection>)
    ensures |r| == |ps|
    ensures forall i :: 0 <= i < |ps| ==> r[i] == Unaliased(ps[i])
  {
    seq(|ps|, i requires 0 <= i < |ps| => Unaliased(ps[i]))
  }
}

=== FILE: queries.dfy ===
/**
 * The query object handed to callers: a SELECT statement plus an alias (used
 * when the query is nested as a derived table), an error slot set by a failed
 * join, and the byte and argument buffers the last rendering used. Rendering
 * recomputes both phases on every call and reuses a buffer only while its
 * length still fits; the mutators delegate to the statement.
 */
module Queries {
  import opened Wrappers
  import opened Text
  import opened Dialects
  import opened Schema
  import opened Expressions
  import opened Projections
  import opened Clauses
  import opened Statements
  import opened StatementProtocol
  import opened StatementMutators
  import opened Compose
  import K = Symbols

  /** Why a join was refused. */
  datatype QueryError =
    | JoinNoSelect        // the statement has no selection to join against
    | JoinUnknownTarget   // the condition names no selection of the statement

  /**
   * `allocs` counts the buffers allocated over the query's lifetime; it is
   * what makes buffer reuse observable.
   */
  datatype Query = Query(
    sel: Option<Statement>,
    alias: string,
    err: Option<QueryError>,
    b: Slice<char>,
    args: Slice<Value>,
    allocs: nat)

  /** The zero value of a query: no statement, no error, no buffers. */
  const ZeroQuery: Query := Query(None, "", None, NilSlice, NilSlice, 0)

  /** A query can be rendered once it has a statement and no join has failed. */
  predicate IsValid(q: Query) {
    q.sel.Some? && q.err.None?
  }

  // ---------------------------------------------------------------------
  // Rendering with buffer reuse

  /** A buffer of the wrong length is replaced by a fresh one of `n` zero slots; one of the right length is kept. */
  function Resize<T>(buf: Slice<T>, n: nat, zero: T): (r: Slice<T>)
    ensures r.Len() == n
    ensures buf.Len() == n ==> r == buf
    ensures buf.Len() != n ==> r.Made? && forall i :: 0 <= i < n ==> r.items[i] == zero
  {
    if buf.Len() != n then Made(seq(n, _ => zero)) else buf
  }

  /**
   * StringArgs: size and count the statement afresh, fit both buffers, scan
   * into them from slot zero and return the text and the args slice.
   */
  function StringArgs(d: Dialect, q: Query): (r: (Query, string, Slice<Value>))
    requires q.sel.Some?
    ensures r.1 == RenderStatement(d, q.sel.value).0
    ensures r.2.Elements() == RenderStatement(d, q.sel.value).1
    ensures |r.1| == StatementSize(d, q.sel.value) && r.2.Len() == StatementArgCount(q.sel.value)
    ensures r.2.NilSlice? <==> q.args.NilSlice? && StatementArgCount(q.sel.value) == 0
    ensures r.0.b.NilSlice? <==> q.b.NilSlice? && StatementSize(d, q.sel.value) == 0
    ensures r.0.args == r.2 && r.0.b.Elements() == r.1
    ensures r.0.allocs == q.allocs <==> q.b.Len() == |r.1| && q.args.Len() == r.2.Len()
    ensures q.allocs <= r.0.allocs <= q.allocs + 2
    ensures r.0.(b := q.b, args := q.args, allocs := q.allocs) == q
  {
    var s := q.sel.value;
    var size := StatementSize(d, s);
    var argc := StatementArgCount(s);
    var args := Resize(q.args, argc, Nil);
    var b := Resize(q.b, size, '\0');
    var scanned := ScanStatement(d, s, args.Elements(), 0);
    assert scanned.1 == scanned.1[0..scanned.2];
    var args' := if args.NilSlice? then NilSlice else Made(scanned.1);
    var b' := if b.NilSlice? then NilSlice else Made(scanned.0);
    var allocs := q.allocs + (if q.args.Len() != argc then 1 else 0) + (if q.b.Len() != size then 1 else 0);
    (q.(b := b', args := args', allocs := allocs), b'.Elements(), args')
  }

  /** String: the same rendering, returning only the text. */
  function String(d: Dialect, q: Query): (r: (Query, string))
    requires q.sel.Some?
    ensures r.1 == RenderStatement(d, q.sel.value).0
    ensures r.0.args.Elements() == RenderStatement(d, q.sel.value).1
    ensures r.0.(b := q.b, args := q.args, allocs := q.allocs) == q
  {
    var out := StringArgs(d, q);
    (out.0, out.1)
  }

  /**
   * Rendering twice in a row allocates nothing the second time and yields
   * the same text, the same args slice and the same query state.
   */
  lemma StringArgsIdempotent(d: Dialect, q: Query)
    requires q.sel.Some?
    ensures StringArgs(d, StringArgs(d, q).0) == StringArgs(d, q)
  {
    var first := StringArgs(d, q);
    var second := StringArgs(d, first.0);
    assert second.0.allocs == first.0.allocs;
    assert second.0.b == first.0.b;
  }

  /** The text and the arguments are the statement's, whatever the buffers held before. */
  lemma NothingCached(d: Dialect, q1: Query, q2: Query)
    requires q1.sel.Some? && q1.sel == q2.sel
    ensures StringArgs(d, q1).1 == StringArgs(d, q2).1
    ensures StringArgs(d, q1).2.Elements() == StringArgs(d, q2).2.Elements()
  {
  }

  // ---------------------------------------------------------------------
  // Delegating mutators (each returns the same query, changed in its statement)

  function Where(q: Query, e: Expr): (r: Query)
    requires q.sel.Some?
    ensures r.sel.Some? && r.sel.value == AddWhere(q.sel.value, e)
    ensures r.(sel := q.sel) == q
  {
    q.(sel := Some(AddWhere(q.sel.value, e)))
  }

  function GroupBy(q: Query, cols: seq<Projection>): (r: Query)
    requires q.sel.Some?
    ensures r.sel.Some? && r.sel.value == AddGroupBy(q.sel.value, cols)
    ensures r.(sel := q.sel) == q
  {
    q.(sel := Some(AddGroupBy(q.sel.value, cols)))
  }

  function OrderBy(q: Query, scs: seq<SortColumn>): (r: Query)
    requires q.sel.Some?
    ensures r.sel.Some? && r.sel.value == AddOrderBy(q.sel.value, scs)
    ensures r.(sel := q.sel) == q
  {
    q.(sel := Some(AddOrderBy(q.sel.value, scs)))
  }

  function Limit(q: Query, limit: int): (r: Query)
    requires q.sel.Some?
    ensures r.sel.Some? && r.sel.value == SetLimit(q.sel.value, limit)
    ensures r.(sel := q.sel) == q
  {
    q.(sel := Some(SetLimit(q.sel.value, limit)))
  }

  function LimitWithOffset(q: Query, limit: int, offset: int): (r: Query)
    requires q.sel.Some?
    ensures r.sel.Some? && r.sel.value == SetLimitWithOffset(q.sel.value, limit, offset)
    ensures r.(sel := q.sel) == q
  {
    q.(sel := Some(SetLimitWithOffset(q.sel.value, limit, offset)))
  }

  /** As: the alias the query takes when it is nested as a derived table. */
  function As(q: Query, alias: string): (r: Query)
    requires q.sel.Some?
    ensures r.alias == alias && r.(alias := q.alias) == q
  {
    q.(alias := alias)
  }

  /** The query nested in another Select, as a derived-table item with identity `id`. */
  function AsItem(q: Query, id: nat): (r: Item)
    requires q.sel.Some?
    ensures r.SubSelectItem? && r.from == q.sel.value && r.alias == q.alias
  {
    SubSelectItem(id, q.sel.value, q.alias)
  }

  // ---------------------------------------------------------------------
  // Rendering after a mutation

  /** The value operands of a condition list, in order. */
  function ExprsValues(es: seq<Expr>): seq<Value> {
    if |es| == 0 then [] else ExprValues(es[0]) + ExprsValues(es[1..])
  }

  lemma {:induction false} ExprsValuesAppend(es: seq<Expr>, e: Expr)
    ensures ExprsValues(es + [e]) == ExprsValues(es) + ExprValues(e)
    decreases |es|
  {
    if |es| == 0 {
      assert es + [e] == [e];
      assert ExprsValues([e]) == ExprValues(e) + ExprsValues([]);
    } else {
      assert (es + [e])[1..] == es[1..] + [e];
      ExprsValuesAppend(es[1..], e);
    }
  }

  /** The conditions bind their value operands in textual order, whatever separates them. */
  lemma {:induction false} RenderExprsValues(d: Dialect, es: seq<Expr>, sep: string)
    ensures RenderExprs(d, es, sep).1 == ExprsValues(es)
    decreases |es|
  {
    if |es| == 1 {
      assert ExprsValues(es) == ExprValues(es[0]) + ExprsValues([]);
    } else if |es| > 1 {
      RenderExprsValues(d, es[1..], sep);
    }
  }

  /** Only the WHERE clause differs between a statement and the same statement with one more condition. */
  lemma AddWhereKeepsHeadAndFrom(d: Dialect, s: Statement, e: Expr)
    ensures RenderHead(d, AddWhere(s, e).projs) == RenderHead(d, s.projs)
    ensures RenderFrom(d, AddWhere(s, e)) == RenderFrom(d, s)
  {
    assert AddWhere(s, e).selections == s.selections && AddWhere(s, e).joins == s.joins;
  }

  /** The values a LIMIT clause binds: the limit, then the offset when one is set. */
  function LimitValues(l: Option<LimitClause>): seq<Value> {
    match l
    case None => []
    case Some(LimitClause(limit, None)) => [Int(limit)]
    case Some(LimitClause(limit, Some(offset))) => [Int(limit), Int(offset)]
  }

  /**
   * The trailing clauses bind, left to right, the WHERE conditions' values,
   * then the HAVING conditions', then the limit and the offset; GROUP BY
   * and ORDER BY bind nothing.
   */
  lemma ClausesBindInOrder(d: Dialect, s: Statement)
    ensures RenderClauses(d, s).1
      == ExprsValues(Existing(s.where)) + ExprsValues(Existing(s.having)) + LimitValues(s.limit)
  {
    var w := RenderOptCondition(d, K.Where, s.where);
    var g := if s.groupBy.Some? then RenderGroupBy(d, s.groupBy.value) else Lit("");
    var h := RenderOptCondition(d, K.Having, s.having);
    var o := if s.orderBy.Some? then RenderOrderBy(d, s.orderBy.value) else Lit("");
    var l := if s.limit.Some? then RenderLimit(d, s.limit.value) else Lit("");
    assert RenderClauses(d, s).1 == (w.1 + g.1) + (h.1 + (o.1 + l.1));
    OptConditionValues(d, K.Where, s.where);
    OptConditionValues(d, K.Having, s.having);
    LimitBindsValues(d, s.limit);
    var wv, hv, lv := ExprsValues(Existing(s.where)), ExprsValues(Existing(s.having)), LimitValues(s.limit);
    assert w.1 == wv && g.1 == [] && h.1 == hv && o.1 == [] && l.1 == lv;
    DropEmpties(wv, hv, lv);
  }

  lemma DropEmpties(a: seq<Value>, b: seq<Value>, c: seq<Value>)
    ensures (a + []) + (b + ([] + c)) == a + b + c
  {
  }

  /** A present WHERE or HAVING clause binds its conditions' values; an absent one binds nothing. */
  lemma OptConditionValues(d: Dialect, kw: K.Symbol, o: Option<seq<Expr>>)
    ensures RenderOptCondition(d, kw, o).1 == ExprsValues(Existing(o))
  {
    if o.Some? {
      RenderExprsValues(d, o.value, Kw(d, K.And));
      assert RenderCondition(d, kw, o.value).1 == [] + RenderExprs(d, o.value, Kw(d, K.And)).1;
    }
  }

  /** A present LIMIT clause binds the limit and then the offset; an absent one binds nothing. */
  lemma LimitBindsValues(d: Dialect, l: Option<LimitClause>)
    ensures (if l.Some? then RenderLimit(d, l.value) else Lit("")).1 == LimitValues(l)
  {
  }

  /** Without HAVING or LIMIT, the trailing clauses bind exactly the WHERE conditions' values. */
  lemma ClausesBindWhereValues(d: Dialect, s: Statement)
    requires s.having.None? && s.limit.None?
    ensures RenderClauses(d, s).1 == ExprsValues(Existing(s.where))
  {
    ClausesBindInOrder(d, s);
  }

  /**
   * A whole statement binds its FROM part's values (derived tables' inner
   * values, then the joins'), then WHERE's, HAVING's and LIMIT's.
   */
  lemma StatementBindsInOrder(d: Dialect, s: Statement)
    ensures RenderStatement(d, s).1
      == RenderFrom(d, s).1 + ExprsValues(Existing(s.where)) + ExprsValues(Existing(s.having)) + LimitValues(s.limit)
  {
    StatementArgsSplit(d, s);
    ClausesBindInOrder(d, s);
    ArgsChain(RenderStatement(d, s).1, RenderFrom(d, s).1, RenderClauses(d, s).1,
      ExprsValues(Existing(s.where)), ExprsValues(Existing(s.having)), LimitValues(s.limit));
  }

  lemma ArgsChain(x: seq<Value>, f: seq<Value>, c: seq<Value>, w: seq<Value>, h: seq<Value>, l: seq<Value>)
    requires x == f + c && c == w + h + l
    ensures x == f + w + h + l
  {
  }

  /** A statement binds its FROM part's arguments, then its trailing clauses'. */
  lemma StatementArgsSplit(d: Dialect, s: Statement)
    ensures RenderStatement(d, s).1 == RenderFrom(d, s).1 + RenderClauses(d, s).1
  {
    var h, f, c := RenderHead(d, s.projs), RenderFrom(d, s), RenderClauses(d, s);
    assert RenderStatement(d, s) == Cat(Cat(h, f), c);
    assert h.1 + f.1 == f.1;
  }

  /**
   * One more WHERE condition binds its values after the earlier WHERE
   * values and before the HAVING and LIMIT values.
   */
  lemma AddWhereClauseArgs(d: Dialect, s: Statement, e: Expr)
    ensures RenderClauses(d, AddWhere(s, e)).1
      == ExprsValues(Existing(s.where)) + ExprValues(e) + ExprsValues(Existing(s.having)) + LimitValues(s.limit)
  {
    var w := Existing(s.where) + [e];
    var s' := s.(where := Some(w));
    assert AddWhere(s, e) == s';
    ClausesBindInOrder(d, s');
    ExprsValuesAppend(Existing(s.where), e);
  }

  /**
   * A statement without HAVING or LIMIT binds, after one more WHERE
   * condition, its old arguments followed by the new condition's values.
   */
  lemma AddWhereAppendsArgs(d: Dialect, s: Statement, e: Expr)
    requires s.having.None? && s.limit.None?
    ensures RenderStatement(d, AddWhere(s, e)).1 == RenderStatement(d, s).1 + ExprValues(e)
  {
    var s' := AddWhere(s, e);
    var from := RenderFrom(d, s).1;
    var before := ExprsValues(Existing(s.where));
    AddWhereKeepsHeadAndFrom(d, s, e);
    StatementArgsSplit(d, s);
    StatementArgsSplit(d, s');
    ClausesBindWhereValues(d, s);
    AddWhereClauseArgs(d, s, e);
    assert ExprsValues(Existing(s.having)) == [] && LimitValues(s.limit) == [];
    AppendChain(RenderStatement(d, s).1, RenderStatement(d, s').1, from,
      RenderClauses(d, s).1, RenderClauses(d, s').1, before, ExprValues(e));
  }

  lemma AppendChain(x: seq<Value>, x': seq<Value>, f: seq<Value>, c: seq<Value>, c': seq<Value>, b: seq<Value>, v: seq<Value>)
    requires x == f + c && x' == f + c' && c == b && c' == b + v + [] + []
    ensures x' == x + v
  {
  }

  /**
   * Live mutation: rendering again after Where reflects the new condition,
   * its values bound after the earlier arguments.
   */
  lemma WhereIsRendered(d: Dialect, q: Query, e: Expr)
    requires q.sel.Some? && q.sel.value.having.None? && q.sel.value.limit.None?
    ensures StringArgs(d, Where(q, e)).1 == RenderStatement(d, AddWhere(q.sel.value, e)).0
    ensures StringArgs(d, Where(q, e)).2.Elements() == StringArgs(d, q).2.Elements() + ExprValues(e)
  {
    AddWhereAppendsArgs(d, q.sel.value, e);
  }

  // ---------------------------------------------------------------------
  // Join validation

  /**
   * The selection a join condition attaches to: the first table the
   * condition names, in textual order, that is a selection of the statement
   * and is not the join target.
   */
  function JoinLeft(sels: seq<Selection>, tids: seq<nat>, target: nat): (r: Option<Selection>)
    ensures r.None? <==> forall i :: 0 <= i < |tids| ==> tids[i] == target || FirstIndexOf(sels, tids[i]).None?
    ensures r.Some? ==> r.value in sels && SelectionId(r.value) != target
    ensures r.Some? ==> exists i :: 0 <= i < |tids| && tids[i] == SelectionId(r.value)
                           && (forall j :: 0 <= j < i ==> tids[j] == target || FirstIndexOf(sels, tids[j]).None?)
    decreases |tids|
  {
    if |tids| == 0 then None
    else
      var at := FirstIndexOf(sels, tids[0]);
      if tids[0] != target && at.Some? then Some(sels[at.value])
      else
        var rest := JoinLeft(sels, tids[1..], target);
        assert forall i :: 1 <= i < |tids| ==> tids[i] == tids[1..][i - 1];
        if rest.Some? then
          ghost var i :| 0 <= i < |tids[1..]| && tids[1..][i] == SelectionId(rest.value)
            && forall j :: 0 <= j < i ==> tids[1..][j] == target || FirstIndexOf(sels, tids[1..][j]).None?;
          assert tids[i + 1] == SelectionId(rest.value);
          rest
        else rest
  }

  /**
   * Join: joins `t` onto the statement. A query already in error is left
   * alone; without selections the join fails with JoinNoSelect; when the
   * condition names no other selection it fails with JoinUnknownTarget;
   * otherwise the target stops being a selection and becomes the joined side.
   */
  function Join(q: Query, id: nat, t: Table, on: Expr): (r: Query)
    requires q.sel.Some?
    ensures q.err.Some? ==> r == q
    ensures q.err.None? && |q.sel.value.selections| == 0 ==> r == q.(err := Some(JoinNoSelect))
    ensures (q.err.None? && |q.sel.value.selections| > 0
             && JoinLeft(q.sel.value.selections, ExprTableIds(on), t.id).None?) ==> r == q.(err := Some(JoinUnknownTarget))
    ensures (q.err.None? && |q.sel.value.selections| > 0
             && JoinLeft(q.sel.value.selections, ExprTableIds(on), t.id).Some?) ==>
      r == q.(sel := Some(AddJoin(RemoveSelection(q.sel.value, t.id),
        JoinClause(id, JoinLeft(q.sel.value.selections, ExprTableIds(on), t.id).value, TableSel(t), on))))
    ensures r.err.None? ==> q.err.None? && |q.sel.value.selections| > 0
                            && JoinLeft(q.sel.value.selections, ExprTableIds(on), t.id).Some?
  {
    if q.err.Some? then q
    else
      var s := q.sel.value;
      if |s.selections| == 0 then q.(err := Some(JoinNoSelect))
      else match JoinLeft(s.selections, ExprTableIds(on), t.id)
        case None => q.(err := Some(JoinUnknownTarget))
        case Some(left) =>
          q.(sel := Some(AddJoin(RemoveSelection(s, t.id), JoinClause(id, left, TableSel(t), on))))
  }

  /** A join leaves the query valid exactly when it did not fail. */
  lemma JoinValidity(q: Query, id: nat, t: Table, on: Expr)
    requires IsValid(q)
    ensures IsValid(Join(q, id, t, on)) <==>
      |q.sel.value.selections| > 0 && JoinLeft(q.sel.value.selections, ExprTableIds(on), t.id).Some?
  {
  }

  /** Once set, an error sticks: later joins leave the query unchanged and invalid. */
  lemma ErrorSticks(q: Query, id: nat, t: Table, on: Expr)
    requires q.sel.Some? && q.err.Some?
    ensures Join(q, id, t, on) == q && !IsValid(Join(q, id, t, on))
  {
  }

  // ---------------------------------------------------------------------
  // The Select wrapper

  /** Select: compose the items into a statement and wrap it in a fresh query with no buffers. */
  method Select(items: seq<Item>) returns (q: Query)
    requires forall i :: 0 <= i < |items| ==> ItemOk(items[i])
    ensures IsValid(q)
    ensures q.sel.value.projs == Compose.Compose(Start, items).projs
    ensures q.sel.value.joins == Compose.Compose(Start, items).joins
    ensures |q.sel.value.selections| == |Compose.Compose(Start, items).sels|
    ensures forall i :: 0 <= i < |q.sel.value.selections| ==>
      SelectionId(q.sel.value.selections[i]) in Compose.Compose(Start, items).sels && Compose.Compose(Start, items).sels[SelectionId(q.sel.value.selections[i])] == q.sel.value.selections[i]
    ensures forall a, b :: 0 <= a < b < |q.sel.value.selections| ==> SelectionId(q.sel.value.selections[a]) != SelectionId(q.sel.value.selections[b])
    ensures var s := q.sel.value; s.where.None? && s.groupBy.None? && s.having.None? && s.orderBy.None? && s.limit.None?
    ensures q.alias == "" && q.b.NilSlice? && q.args.NilSlice? && q.allocs == 0
  {
    var s := SelectStatement(items);
    q := Query(Some(s), "", None, NilSlice, NilSlice, 0);
  }

  /** The zero query is not valid but carries no error; a query with an error is never valid. */
  lemma ValidityStates(q: Query, e: QueryError)
    ensures !IsValid(ZeroQuery) && ZeroQuery.err.None?
    ensures !IsValid(q.(err := Some(e)))
  {
  }
}

=== FILE: query_scenarios.dfy ===
/**
 * The query-level behavioural tests replayed on the model: Select over the
 * fixture schema, rendering into fresh buffers, a condition added after a
 * first rendering, the two join refusals, default and explicit names of a
 * nested query, and a join that moves its target out of the FROM list.
 */
module QueryScenarios {
  import opened Wrappers
  import opened Text
  import opened Dialects
  import opened Schema
  import opened Expressions
  import opened DerivedColumns
  import opened Projections
  import opened Clauses
  import opened Statements
  import opened StatementProtocol
  import opened StatementMutators
  import opened Compose
  import opened Queries
  import opened Scenarios
  import opened SqlTexts
  import K = Symbols

  // ---------------------------------------------------------------------
  // Select(users)

  /** Select(users): the table's columns in definition order, the table registered under its identity. */
  lemma UsersComposed()
    ensures Compose.Compose(Start, [TableItem(Users)]) == ComposeState(UsersProjs, [], map[1 := TableSel(Users)], {}, 0)
  {
    assert [TableItem(Users)][1..] == [];
    TableStep(Start, Users);
    assert DefTable(UsersDef) == Users;
    assert Step(Start, TableItem(Users)).projs == UsersProjs;
  }

  /** Select(users) is a fresh query over the plain users statement. */
  method SelectUsers() returns (q: Query)
    ensures q == Query(Some(UsersStatement), "", None, NilSlice, NilSlice, 0)
  {
    q := Queries.Select([TableItem(Users)]);
    UsersComposed();
    var s := q.sel.value;
    assert |s.selections| == 1 && SelectionId(s.selections[0]) == 1;
    assert s.selections == [TableSel(Users)];
    assert s == UsersStatement;
  }

  /** Simple FROM: the text, and a nil argument slice since nothing binds. */
  method SimpleFrom() returns (text: string, args: Slice<Value>)
    ensures text == "SELECT users.id, users.name FROM users"
    ensures args.NilSlice?
  {
    var q := SelectUsers();
    UsersStatementRenders();
    var out := StringArgs(MySql, q);
    text, args := out.1, out.2;
  }

  // ---------------------------------------------------------------------
  // A condition added after a first rendering

  /** users.id = ? binding 1 */
  const IdIsOne: Expr := Compare(Eq, Col(UserId), Val(Int(1)))

  lemma IdIsOneText()
    ensures RenderExpr(MySql, IdIsOne) == ("users.id = ?", [Int(1)])
  {
    ColumnDefTexts();
    LiveWhereText();
    assert UserId.def == UserIdDef;
    assert Kw(MySql, K.QuestMark) == "?" && Kw(MySql, OpSymbol(Eq)) == " = ";
    var none: seq<Value> := [];
    assert none + none + [Int(1)] == [Int(1)];
    assert RenderSimple(MySql, IdIsOne) == ("users.id = ?", [Int(1)]);
  }

  lemma IdIsOneWhereText()
    ensures RenderCondition(MySql, K.Where, [IdIsOne]) == (" WHERE users.id = ?", [Int(1)])
  {
    IdIsOneText();
    LiveWhereText();
    assert RenderExprs(MySql, [IdIsOne], " AND ") == RenderExpr(MySql, IdIsOne);
    assert Kw(MySql, K.Where) == " WHERE " && Kw(MySql, K.And) == " AND ";
  }

  lemma IdIsOneRenders()
    ensures RenderStatement(MySql, AddWhere(UsersStatement, IdIsOne))
         == ("SELECT users.id, users.name FROM users WHERE users.id = ?", [Int(1)])
  {
    var s := AddWhere(UsersStatement, IdIsOne);
    assert s == UsersStatement.(where := Some([IdIsOne]));
    OnlyWhere(MySql, s);
    IdIsOneWhereText();
    UsersWithClauses(s);
    LiveWhereStatementText();
  }

  /**
   * Render, add a condition to the same query, render again: the second
   * text and arguments reflect the condition, nothing is served from the
   * first rendering.
   */
  method LiveMutation() returns (before: string, beforeArgs: Slice<Value>, after: string, afterArgs: seq<Value>)
    ensures before == "SELECT users.id, users.name FROM users" && beforeArgs.NilSlice?
    ensures after == "SELECT users.id, users.name FROM users WHERE users.id = ?"
    ensures afterArgs == [Int(1)]
  {
    var q := SelectUsers();
    UsersStatementRenders();
    var first := StringArgs(MySql, q);
    before, beforeArgs := first.1, first.2;
    var q2 := Where(first.0, IdIsOne);
    IdIsOneRenders();
    var second := StringArgs(MySql, q2);
    after, afterArgs := second.1, second.2.Elements();
  }

  // ---------------------------------------------------------------------
  // Join refusals

  /** articles.author = users.id */
  const AuthorIsUser: Expr := Compare(Eq, Col(ArticleAuthor), Col(UserId))

  /** Select() has no selection to join against. */
  method JoinWithoutSelection() returns (valid: bool, err: Option<QueryError>)
    ensures !valid && err == Some(JoinNoSelect)
  {
    var q := Queries.Select([]);
    assert Compose.Compose(Start, []) == Start;
    var j := Join(q, 100, Users, AuthorIsUser);
    valid, err := IsValid(j), j.err;
  }

  lemma StatesComposed()
    ensures Compose.Compose(Start, [TableItem(ArticleStates)]).sels == map[3 := TableSel(ArticleStates)]
  {
    assert [TableItem(ArticleStates)][1..] == [];
    TableStep(Start, ArticleStates);
  }

  /** Select(article_states) joined with users on a condition naming articles and users only. */
  method JoinAgainstUnknownTarget() returns (valid: bool, err: Option<QueryError>)
    ensures !valid && err == Some(JoinUnknownTarget)
  {
    var q := Queries.Select([TableItem(ArticleStates)]);
    StatesComposed();
    var s := q.sel.value;
    assert |s.selections| == 1 && SelectionId(s.selections[0]) == 3;
    assert ExprTableIds(AuthorIsUser) == [2, 1];
    assert FirstIndexOf(s.selections, 2).None?;
    assert JoinLeft(s.selections, [2, 1], 1).None?;
    var j := Join(q, 100, Users, AuthorIsUser);
    valid, err := IsValid(j), j.err;
  }

  // ---------------------------------------------------------------------
  // A join that moves its target out of the FROM list

  const AuthorName: Column := Schema.As(UserName, "author")
  const JoinedUsers: JoinClause := JoinClause(100, TableSel(Articles), TableSel(Users), AuthorIsUser)
  const JoinedStatement: Statement :=
    Statement([PCol(ArticleId), PCol(AuthorName)], [TableSel(Articles)], [JoinedUsers], None, None, None, None, None)

  lemma ArticleAuthorsComposed()
    ensures Compose.Compose(Start, [ColumnItem(ArticleId), ColumnItem(AuthorName)]).projs == [PCol(ArticleId), PCol(AuthorName)]
    ensures Compose.Compose(Start, [ColumnItem(ArticleId), ColumnItem(AuthorName)]).sels
         == map[2 := TableSel(Articles), 1 := TableSel(Users)]
    ensures Compose.Compose(Start, [ColumnItem(ArticleId), ColumnItem(AuthorName)]).joins == []
  {
    var items := [ColumnItem(ArticleId), ColumnItem(AuthorName)];
    assert ArticleId.tbl == Articles && AuthorName.tbl == Users;
    var s1 := Step(Start, ColumnItem(ArticleId));
    var s2 := Step(s1, ColumnItem(AuthorName));
    assert s1 == ComposeState([PCol(ArticleId)], [], map[2 := TableSel(Articles)], {}, 0);
    assert s2 == ComposeState([PCol(ArticleId), PCol(AuthorName)], [], map[2 := TableSel(Articles), 1 := TableSel(Users)], {}, 0);
    assert items[1..] == [ColumnItem(AuthorName)] && items[1..][1..] == [];
    assert Compose.Compose(s2, []) == s2;
    assert Compose.Compose(s1, [ColumnItem(AuthorName)]) == s2;
  }

  /** Two selections with distinct identities taken from a two-entry map are its two values in some order. */
  lemma TwoSelections(sels: seq<Selection>)
    requires |sels| == 2 && SelectionId(sels[0]) != SelectionId(sels[1])
    requires forall i :: 0 <= i < 2 ==>
      SelectionId(sels[i]) in map[2 := TableSel(Articles), 1 := TableSel(Users)]
      && map[2 := TableSel(Articles), 1 := TableSel(Users)][SelectionId(sels[i])] == sels[i]
    ensures sels == [TableSel(Articles), TableSel(Users)] || sels == [TableSel(Users), TableSel(Articles)]
  {
    var m := map[2 := TableSel(Articles), 1 := TableSel(Users)];
    assert SelectionId(sels[0]) in m && SelectionId(sels[1]) in m;
    if SelectionId(sels[0]) == 2 {
      assert sels[0] == TableSel(Articles) && sels[1] == TableSel(Users);
    } else {
      assert sels[0] == TableSel(Users) && sels[1] == TableSel(Articles);
    }
  }

  /** Whatever order the selections came in, the join attaches to articles and removes users. */
  lemma JoinMovesUsers(q: Query)
    requires q.sel.Some? && q.err.None?
    requires q.sel.value.selections == [TableSel(Articles), TableSel(Users)]
          || q.sel.value.selections == [TableSel(Users), TableSel(Articles)]
    ensures Join(q, 100, Users, AuthorIsUser).err.None?
    ensures Join(q, 100, Users, AuthorIsUser).sel
         == Some(AddJoin(q.sel.value.(selections := [TableSel(Articles)]), JoinedUsers))
  {
    var s := q.sel.value;
    assert ExprTableIds(AuthorIsUser) == [2, 1];
    var at := FirstIndexOf(s.selections, 2);
    assert at.Some? && s.selections[at.value] == TableSel(Articles);
    assert JoinLeft(s.selections, [2, 1], 1) == Some(TableSel(Articles));
    if s.selections[0] == TableSel(Articles) {
      assert FirstIndexOf(s.selections, 1) == Some(1);
      assert s.selections[..1] + s.selections[2..] == [TableSel(Articles)];
    } else {
      assert FirstIndexOf(s.selections, 1) == Some(0);
      assert s.selections[..0] + s.selections[1..] == [TableSel(Articles)];
    }
    assert RemoveSelection(s, 1) == s.(selections := [TableSel(Articles)]);
  }

  /** The query Select(articles.id, users.name AS author) holds, joined with users. */
  lemma JoinedQuery(q: Query)
    requires q.sel.Some? && q.err.None?
    requires q.sel.value.selections == [TableSel(Articles), TableSel(Users)]
          || q.sel.value.selections == [TableSel(Users), TableSel(Articles)]
    requires q.sel.value.projs == [PCol(ArticleId), PCol(AuthorName)] && q.sel.value.joins == []
    requires var s := q.sel.value; s.where.None? && s.groupBy.None? && s.having.None? && s.orderBy.None? && s.limit.None?
    ensures Join(q, 100, Users, AuthorIsUser).err.None?
    ensures Join(q, 100, Users, AuthorIsUser).sel == Some(JoinedStatement)
  {
    JoinMovesUsers(q);
  }

  lemma JoinedHead()
    ensures RenderHead(MySql, JoinedStatement.projs) == ("SELECT articles.id, users.name AS author", [])
  {
    ColumnDefTexts();
    JoinColumnTexts();
    JoinListText();
    JoinSelectText();
    assert ArticleId.def == ArticleIdDef && ArticleId.alias == "";
    assert AuthorName.def == UserNameDef && AuthorName.alias == "author";
    assert Kw(MySql, K.Period) == "." && Kw(MySql, K.As) == " AS ";
    assert RenderColumn(MySql, ArticleId) == ("articles.id", []);
    assert RenderAlias(MySql, "author") == (" AS author", []);
    assert RenderColumn(MySql, AuthorName) == ("users.name AS author", []);
    var ps := JoinedStatement.projs;
    assert ps[1..] == [PCol(AuthorName)];
    assert RenderProjections(MySql, [PCol(AuthorName)], ", ") == ("users.name AS author", []);
    assert RenderProjections(MySql, ps, ", ") == ("articles.id, users.name AS author", []);
    assert Kw(MySql, K.Select) == "SELECT " && Kw(MySql, K.CommaSpace) == ", ";
  }

  lemma AuthorIsUserText()
    ensures RenderExpr(MySql, AuthorIsUser) == ("articles.author = users.id", [])
  {
    ColumnDefTexts();
    ExpressionTexts();
    JoinConditionText();
    assert ArticleAuthor.def == ArticleAuthorDef && UserId.def == UserIdDef;
    assert Kw(MySql, K.Period) == "." && Kw(MySql, OpSymbol(Eq)) == " = ";
    assert RenderColumnDef(MySql, ArticleAuthorDef) == ("articles.author", []);
    assert RenderSimple(MySql, AuthorIsUser) == ("articles.author = users.id", []);
  }

  lemma JoinedUsersText()
    ensures RenderJoins(MySql, [JoinedUsers]) == ((" JOIN users" + " ON ") + "articles.author = users.id", [])
  {
    AuthorIsUserText();
    JoinConditionText();
    UsersTable();
    assert Kw(MySql, K.Join) == " JOIN " && Kw(MySql, K.On) == " ON ";
    var j := RenderJoin(MySql, JoinedUsers);
    assert j == ((" JOIN users" + " ON ") + "articles.author = users.id", []);
    assert [JoinedUsers][1..] == [];
    CatEmpty(j);
  }

  lemma JoinedFrom()
    ensures RenderFrom(MySql, JoinedStatement)
         == ((" FROM " + "articles") + ((" JOIN users" + " ON ") + "articles.author = users.id"), [])
  {
    JoinedUsersText();
    FromKeywordText();
    assert Articles.alias == "" && Articles.def.name == "articles";
    assert RenderSelection(MySql, TableSel(Articles)) == ("articles", []);
    assert RenderSelections(MySql, [TableSel(Articles)], ", ") == ("articles", []);
    assert Kw(MySql, K.From) == "FROM " && MySql.clauseSep == " ";
  }

  lemma JoinedStatementRenders()
    ensures RenderStatement(MySql, JoinedStatement)
         == (JoinText, [])
  {
    StatementParts(MySql, JoinedStatement);
    JoinedHead();
    JoinedFrom();
    JoinTextAssembled();
    NoClauses(MySql, JoinedStatement);
    CatEmpty(Cat(RenderHead(MySql, JoinedStatement.projs), RenderFrom(MySql, JoinedStatement)));
  }

  lemma JoinedRendering(j: Query)
    requires j.sel == Some(JoinedStatement)
    ensures StringArgs(MySql, j).1
         == JoinText
    ensures StringArgs(MySql, j).2.Elements() == []
  {
    JoinedStatementRenders();
  }

  /**
   * Select(articles.id, users.name AS author) joined with users: users leaves
   * the FROM list and is rendered as the JOIN's target instead.
   */
  method InnerJoin() returns (err: Option<QueryError>, text: string, args: seq<Value>)
    ensures err.None?
    ensures text == JoinText
    ensures args == []
  {
    var q := Queries.Select([ColumnItem(ArticleId), ColumnItem(AuthorName)]);
    ArticleAuthorsComposed();
    TwoSelections(q.sel.value.selections);
    JoinedQuery(q);
    var j := Join(q, 100, Users, AuthorIsUser);
    JoinedRendering(j);
    var out := StringArgs(MySql, j);
    err, text, args := j.err, out.1, out.2.Elements();
  }

  // ---------------------------------------------------------------------
  // Derived tables

  /** Select(users) nested as a derived table named `name`, with identity 5. */
  function UsersDerived(name: string): DerivedTable {
    DerivedTable(5, name, UsersStatement)
  }

  /** The outer columns over a users derived table: each inner column read through the table's name. */
  function UsersDerivedProjs(name: string): seq<Projection> {
    [PDerived(DerivedColumn("", UserId, 5, name)), PDerived(DerivedColumn("", UserName, 5, name))]
  }

  /** The outer statement selecting everything from a users derived table. */
  function DerivedStatement(name: string): Statement {
    Statement(UsersDerivedProjs(name), [DerivedSel(UsersDerived(name))], [], None, None, None, None, None)
  }

  /** A derived table projects one outer column per inner column, in the inner order. */
  lemma UsersDerivedColumns(name: string)
    ensures DerivedProjs(UsersDerived(name)) == UsersDerivedProjs(name)
  {
    var dt := UsersDerived(name);
    var all := GetAllDerivedColumns(dt);
    assert dt.from.projs == [PCol(UserId), PCol(UserName)];
    assert all == [Some(DerivedColumn("", UserId, 5, name)), Some(DerivedColumn("", UserName, 5, name))];
    assert all[1..][1..] == [];
    assert SomeDerived(all[1..], dt) == [PDerived(DerivedColumn("", UserName, 5, name))] + SomeDerived(all[1..][1..], dt);
    assert SomeDerived(all, dt) == [PDerived(DerivedColumn("", UserId, 5, name))] + SomeDerived(all[1..], dt);
  }

  /**
   * Selecting from Select(users) names the derived table by its alias, or
   * "derived0" when it has none, and only the unnamed case uses up a number.
   */
  lemma DerivedComposed(alias: string)
    ensures var name := if alias == "" then "derived0" else alias;
      Compose.Compose(Start, [SubSelectItem(5, UsersStatement, alias)])
        == ComposeState(UsersDerivedProjs(name), [], map[5 := DerivedSel(UsersDerived(name))], {}, if alias == "" then 1 else 0)
  {
    assert [SubSelectItem(5, UsersStatement, alias)][1..] == [];
    assert NatToString(0) == "0";
    DerivedNameText();
    var name := if alias == "" then "derived0" else alias;
    assert DerivedName(alias, 0).0 == name;
    UsersDerivedColumns(name);
  }

  /** Selecting the nested query yields the derived statement and nothing else. */
  method SelectDerived(alias: string) returns (q: Query)
    ensures q.sel == Some(DerivedStatement(if alias == "" then "derived0" else alias))
    ensures q.b.NilSlice? && q.args.NilSlice? && q.err.None?
  {
    var inner := SelectUsers();
    var item := AsItem(Queries.As(inner, alias), 5);
    q := Queries.Select([item]);
    DerivedComposed(alias);
    var s := q.sel.value;
    assert |s.selections| == 1 && SelectionId(s.selections[0]) == 5;
    assert s.selections == [DerivedSel(UsersDerived(if alias == "" then "derived0" else alias))];
  }

  lemma DerivedColumnTexts(name: string)
    ensures RenderProjection(MySql, PDerived(DerivedColumn("", UserId, 5, name))) == (name + "." + "id", [])
    ensures RenderProjection(MySql, PDerived(DerivedColumn("", UserName, 5, name))) == (name + "." + "name", [])
  {
    assert UserId.def == UserIdDef && UserId.alias == "";
    assert UserName.def == UserNameDef && UserName.alias == "";
    assert Kw(MySql, K.Period) == ".";
    CatEmpty((name + "." + "id", []));
    CatEmpty((name + "." + "name", []));
  }

  /** The head over a derived table lists each column qualified by the table's name. */
  lemma DerivedHead(name: string)
    ensures RenderHead(MySql, UsersDerivedProjs(name)) == ("SELECT " + ((name + "." + "id") + ", " + (name + "." + "name")), [])
  {
    DerivedColumnTexts(name);
    var ps := UsersDerivedProjs(name);
    assert ps[1..] == [ps[1]];
    assert Kw(MySql, K.Select) == "SELECT " && Kw(MySql, K.CommaSpace) == ", ";
    var none: seq<Value> := [];
    assert none + none == none;
    var rest := RenderProjections(MySql, ps[1..], ", ");
    assert rest == (name + "." + "name", none);
    assert RenderProjections(MySql, ps, ", ") == Joined((name + "." + "id", none), ", ", rest);
  }

  /** The FROM part over a derived table: the parenthesised inner statement and its name. */
  lemma DerivedFrom(name: string)
    ensures RenderFrom(MySql, DerivedStatement(name)) == (" FROM " + (("(" + UsersText) + (")" + " AS " + name)), [])
  {
    UsersStatementRenders();
    FromKeywordText();
    assert Kw(MySql, K.LParen) == "(" && Kw(MySql, K.RParen) == ")" && Kw(MySql, K.As) == " AS ";
    assert Kw(MySql, K.From) == "FROM " && MySql.clauseSep == " ";
    var dt := UsersDerived(name);
    var none: seq<Value> := [];
    assert none + none == none;
    assert RenderStatement(MySql, dt.from) == (UsersText, none);
    var t := RenderSelection(MySql, DerivedSel(dt));
    assert t == RenderDerivedTable(MySql, dt);
    assert t == Cat(Cat(Lit("("), (UsersText, none)), Lit(")" + " AS " + name));
    assert t == (("(" + UsersText) + (")" + " AS " + name), none);
    assert RenderSelections(MySql, [DerivedSel(UsersDerived(name))], ", ") == t;
    assert RenderJoins(MySql, []) == Lit("");
    CatEmpty((" FROM " + t.0, []));
  }

  lemma NamedDerivedRenders()
    ensures RenderStatement(MySql, DerivedStatement("u")) == (NamedDerivedText, [])
  {
    var s := DerivedStatement("u");
    StatementParts(MySql, s);
    DerivedHead("u");
    DerivedHeadTexts();
    DerivedFrom("u");
    ParenthesisTexts();
    NoClauses(MySql, s);
    NamedDerivedTextAssembled();
    CatEmpty((NamedDerivedText, []));
  }

  lemma DefaultDerivedRenders()
    ensures RenderStatement(MySql, DerivedStatement("derived0")) == (DefaultDerivedText, [])
  {
    var s := DerivedStatement("derived0");
    StatementParts(MySql, s);
    DerivedHead("derived0");
    DefaultDerivedHeadTexts();
    DefaultDerivedListText();
    DefaultDerivedSelectText();
    DerivedFrom("derived0");
    ParenthesisTexts();
    NoClauses(MySql, s);
    DefaultDerivedTextAssembled();
    CatEmpty((DefaultDerivedText, []));
  }

  /** Select(Select(users).As("u")): the derived table keeps its alias. */
  method NamedDerivedTable() returns (text: string, args: Slice<Value>)
    ensures text == NamedDerivedText
    ensures args.NilSlice?
  {
    var q := SelectDerived("u");
    NamedDerivedRenders();
    var out := StringArgs(MySql, q);
    text, args := out.1, out.2;
  }

  /** Select(Select(users)): the unnamed derived table is called derived0. */
  method DefaultNamedDerivedTable() returns (text: string, args: Slice<Value>)
    ensures text == DefaultDerivedText
    ensures args.NilSlice?
  {
    var q := SelectDerived("");
    DefaultDerivedRenders();
    var out := StringArgs(MySql, q);
    text, args := out.1, out.2;
  }
}

=== FILE: scenarios.dfy ===
/**
 * Concrete renderings under the MySQL and PostgreSQL symbol tables, over a
 * small fixture schema: users(id, name), articles(id, author, state) and
 * article_states(id, name). Each lemma pins one expected text and argument
 * list of the library's own behavioural tests.
 */
module Scenarios {
  import opened Wrappers
  import opened Text
  import opened Dialects
  import opened Schema
  import opened Expressions
  import opened Functions
  import opened DerivedColumns
  import opened Projections
  import opened Clauses
  import opened Statements
  import opened StatementMutators
  import opened SqlTexts
  import K = Symbols

  /** The literal text of every marker; it is the same for both dialects. */
  function Sym(s: K.Symbol): string {
    match s
    case Select => "SELECT "
    case From => "FROM "
    case CommaSpace => ", "
    case Period => "."
    case As => " AS "
    case LParen => "("
    case RParen => ")"
    case Where => " WHERE "
    case And => " AND "
    case Or => " OR "
    case GroupBy => " GROUP BY "
    case Having => " HAVING "
    case OrderBy => " ORDER BY "
    case Desc => " DESC"
    case Limit => " LIMIT "
    case Offset => " OFFSET "
    case QuestMark => "?"
    case Join => " JOIN "
    case On => " ON "
    case Equal => " = "
    case NotEqual => " != "
    case Greater => " > "
    case GreaterEqual => " >= "
    case Less => " < "
    case LessEqual => " <= "
    case In => " IN ("
    case Between => " BETWEEN "
    case IsNull => " IS NULL"
    case IsNotNull => " IS NOT NULL"
    case Max => "MAX("
    case Min => "MIN("
    case Sum => "SUM("
    case Avg => "AVG("
    case Trim => "TRIM("
    case BTrim => "BTRIM("
    case LTrim => "LTRIM("
    case RTrim => "RTRIM("
    case TrimLeadingFrom => "TRIM(LEADING FROM "
    case TrimTrailingFrom => "TRIM(TRAILING FROM "
  }

  const MySql: Dialect := Dialect(MySQL, Sym, " ")
  const Postgres: Dialect := Dialect(PostgreSQL, Sym, " ")

  // ---------------------------------------------------------------------
  // Fixture schema

  const UserIdDef: ColumnDef := ColumnDef(11, "id", 1, "users")
  const UserNameDef: ColumnDef := ColumnDef(12, "name", 1, "users")
  const UsersDef: TableDef := TableDef(1, "", "users", [UserIdDef, UserNameDef])
  const Users: Table := Table(1, UsersDef, "")
  const UserId: Column := Column(11, UserIdDef, "", Users)
  const UserName: Column := Column(12, UserNameDef, "", Users)

  const ArticleIdDef: ColumnDef := ColumnDef(21, "id", 2, "articles")
  const ArticleAuthorDef: ColumnDef := ColumnDef(22, "author", 2, "articles")
  const ArticleStateDef: ColumnDef := ColumnDef(23, "state", 2, "articles")
  const ArticlesDef: TableDef := TableDef(2, "", "articles", [ArticleIdDef, ArticleAuthorDef, ArticleStateDef])
  const Articles: Table := Table(2, ArticlesDef, "")
  const ArticleId: Column := Column(21, ArticleIdDef, "", Articles)
  const ArticleAuthor: Column := Column(22, ArticleAuthorDef, "", Articles)

  const StateIdDef: ColumnDef := ColumnDef(31, "id", 3, "article_states")
  const StateNameDef: ColumnDef := ColumnDef(32, "name", 3, "article_states")
  const StatesDef: TableDef := TableDef(3, "", "article_states", [StateIdDef, StateNameDef])
  const ArticleStates: Table := Table(3, StatesDef, "")

  /** SELECT users.id, users.name FROM users */
  const UsersStatement: Statement :=
    Statement(UsersProjs, [TableSel(Users)], [], None, None, None, None, None)

  lemma ColumnDefTexts()
    ensures RenderColumnDef(MySql, UserIdDef) == ("users.id", [])
    ensures RenderColumnDef(MySql, UserNameDef) == ("users.name", [])
  {
    assert Kw(MySql, K.Period) == ".";
    ColumnNames();
  }

  lemma ColumnTexts()
    ensures RenderProjection(MySql, PCol(UserId)) == ("users.id", [])
    ensures RenderProjection(MySql, PCol(UserName)) == ("users.name", [])
  {
    assert UserId.def == UserIdDef && UserId.alias == "";
    assert UserName.def == UserNameDef && UserName.alias == "";
    ColumnDefTexts();
  }

  const UsersProjs: seq<Projection> := [PCol(UserId), PCol(UserName)]

  lemma UsersHead()
    ensures RenderHead(MySql, UsersProjs) == ("SELECT users.id, users.name", [])
  {
    ColumnTexts();
    UsersHeadText();
    var ps := UsersProjs;
    assert ps[0] == PCol(UserId) && ps[1..] == [PCol(UserName)];
    assert RenderProjections(MySql, [PCol(UserName)], ", ") == ("users.name", []);
    assert RenderProjections(MySql, ps, ", ") == ("users.id, users.name", []);
    assert Kw(MySql, K.Select) == "SELECT " && Kw(MySql, K.CommaSpace) == ", ";
  }

  lemma UsersTable()
    ensures RenderSelection(MySql, TableSel(Users)) == ("users", [])
  {
    assert Users.alias == "" && Users.def.name == "users";
  }

  /** The FROM part of any statement selecting from users alone, without joins. */
  lemma UsersFrom(s: Statement)
    requires s.selections == [TableSel(Users)] && s.joins == []
    ensures RenderFrom(MySql, s) == (" FROM users", [])
  {
    UsersTable();
    UsersHeadText();
    assert RenderSelections(MySql, [TableSel(Users)], ", ") == ("users", []);
    assert RenderJoins(MySql, []) == Lit("");
    assert Kw(MySql, K.From) == "FROM " && MySql.clauseSep == " ";
    CatEmpty((" FROM users", []));
    assert RenderFrom(MySql, s) == Cat(Cat(Lit(" " + "FROM "), ("users", [])), Lit(""));
  }

  /** A statement's scan is its head, then its FROM part, then its trailing clauses. */
  lemma StatementParts(d: Dialect, s: Statement)
    ensures RenderStatement(d, s) == Cat(Cat(RenderHead(d, s.projs), RenderFrom(d, s)), RenderClauses(d, s))
  {
  }

  /** The head and FROM part of a users statement. */
  lemma UsersHeadAndFrom(s: Statement)
    requires s.projs == UsersProjs && s.selections == [TableSel(Users)] && s.joins == []
    ensures Cat(RenderHead(MySql, s.projs), RenderFrom(MySql, s)) == (UsersText, [])
  {
    UsersHead();
    UsersFrom(s);
    UsersHeadText();
  }

  /** A users statement renders the plain text followed by its trailing clauses. */
  lemma UsersWithClauses(s: Statement)
    requires s.projs == UsersProjs && s.selections == [TableSel(Users)] && s.joins == []
    ensures RenderStatement(MySql, s) == (UsersText + RenderClauses(MySql, s).0, RenderClauses(MySql, s).1)
  {
    UsersHeadAndFrom(s);
    StatementParts(MySql, s);
    var c := RenderClauses(MySql, s);
    CatEmpty(c);
  }

  /** A statement without trailing clauses renders none. */
  lemma NoClauses(d: Dialect, s: Statement)
    requires s.where.None? && s.groupBy.None? && s.having.None? && s.orderBy.None? && s.limit.None?
    ensures RenderClauses(d, s) == Lit("")
  {
    CatEmpty(Lit(""));
  }

  lemma UsersStatementRenders()
    ensures RenderStatement(MySql, UsersStatement) == (UsersText, [])
  {
    UsersHeadAndFrom(UsersStatement);
    StatementParts(MySql, UsersStatement);
    NoClauses(MySql, UsersStatement);
    CatEmpty((UsersText, []));
  }

  // ---------------------------------------------------------------------
  // A statement with exactly one trailing clause renders just that clause

  lemma OnlyWhere(d: Dialect, s: Statement)
    requires s.where.Some? && s.groupBy.None? && s.having.None? && s.orderBy.None? && s.limit.None?
    ensures RenderClauses(d, s) == RenderCondition(d, K.Where, s.where.value)
  {
    CatEmpty(RenderCondition(d, K.Where, s.where.value));
    CatEmpty(Lit(""));
  }

  lemma OnlyGroupBy(d: Dialect, s: Statement)
    requires s.where.None? && s.groupBy.Some? && s.having.None? && s.orderBy.None? && s.limit.None?
    ensures RenderClauses(d, s) == RenderGroupBy(d, s.groupBy.value)
  {
    CatEmpty(RenderGroupBy(d, s.groupBy.value));
    CatEmpty(Lit(""));
  }

  lemma OnlyOrderBy(d: Dialect, s: Statement)
    requires s.where.None? && s.groupBy.None? && s.having.None? && s.orderBy.Some? && s.limit.None?
    ensures RenderClauses(d, s) == RenderOrderBy(d, s.orderBy.value)
  {
    CatEmpty(RenderOrderBy(d, s.orderBy.value));
    CatEmpty(Lit(""));
  }

  lemma OnlyLimit(d: Dialect, s: Statement)
    requires s.where.None? && s.groupBy.None? && s.having.None? && s.orderBy.None? && s.limit.Some?
    ensures RenderClauses(d, s) == RenderLimit(d, s.limit.value)
  {
    CatEmpty(RenderLimit(d, s.limit.value));
    CatEmpty(Lit(""));
  }

  // ---------------------------------------------------------------------
  // Statements with one clause

  /** users.name = ? binding "foo" */
  const NameIsFoo: Expr := Compare(Eq, Col(UserName), Val(Str("foo")))

  lemma NameIsFooText()
    ensures RenderExpr(MySql, NameIsFoo) == ("users.name = ?", [Str("foo")])
  {
    ColumnDefTexts();
    WhereText();
    assert UserName.def == UserNameDef;
    assert Kw(MySql, K.QuestMark) == "?";
    assert RenderOperand(MySql, Col(UserName)) == ("users.name", []);
    assert RenderOperand(MySql, Val(Str("foo"))) == ("?", [Str("foo")]);
    assert Kw(MySql, OpSymbol(Eq)) == " = ";
    var none: seq<Value> := [];
    assert none + none + [Str("foo")] == [Str("foo")];
    assert RenderSimple(MySql, NameIsFoo) == ("users.name = ?", [Str("foo")]);
  }

  lemma WhereClauseText()
    ensures RenderCondition(MySql, K.Where, [NameIsFoo]) == (" WHERE users.name = ?", [Str("foo")])
  {
    NameIsFooText();
    WhereText();
    assert RenderExprs(MySql, [NameIsFoo], " AND ") == RenderExpr(MySql, NameIsFoo);
    assert Kw(MySql, K.Where) == " WHERE " && Kw(MySql, K.And) == " AND ";
  }

  lemma SimpleWhere()
    ensures RenderStatement(MySql, AddWhere(UsersStatement, NameIsFoo))
         == ("SELECT users.id, users.name FROM users WHERE users.name = ?", [Str("foo")])
  {
    var s := AddWhere(UsersStatement, NameIsFoo);
    assert s == UsersStatement.(where := Some([NameIsFoo]));
    OnlyWhere(MySql, s);
    WhereClauseText();
    UsersWithClauses(s);
    WhereStatementText();
  }

  lemma GroupByClauseText()
    ensures RenderGroupBy(MySql, [PCol(UserName)]) == (" GROUP BY users.name", [])
  {
    ColumnTexts();
    GroupByText();
    assert UnaliasedAll([PCol(UserName)]) == [PCol(UserName)];
    assert RenderProjections(MySql, [PCol(UserName)], ", ") == ("users.name", []);
    assert Kw(MySql, K.GroupBy) == " GROUP BY ";
  }

  lemma SimpleGroupBy()
    ensures RenderStatement(MySql, AddGroupBy(UsersStatement, [PCol(UserName)]))
         == ("SELECT users.id, users.name FROM users GROUP BY users.name", [])
  {
    var s := AddGroupBy(UsersStatement, [PCol(UserName)]);
    assert s == UsersStatement.(groupBy := Some([PCol(UserName)]));
    OnlyGroupBy(MySql, s);
    GroupByClauseText();
    UsersWithClauses(s);
    GroupByStatementText();
  }

  lemma OrderByClauseText()
    ensures RenderOrderBy(MySql, [Desc(UserName)]) == (" ORDER BY users.name DESC", [])
  {
    ColumnDefTexts();
    OrderByText();
    assert UserName.def == UserNameDef;
    assert Kw(MySql, K.Desc) == " DESC" && Kw(MySql, K.OrderBy) == " ORDER BY ";
    assert RenderSortColumn(MySql, Desc(UserName)) == ("users.name DESC", []);
    assert RenderSortColumns(MySql, [Desc(UserName)], ", ") == ("users.name DESC", []);
  }

  lemma SimpleOrderByDesc()
    ensures RenderStatement(MySql, AddOrderBy(UsersStatement, [Desc(UserName)]))
         == ("SELECT users.id, users.name FROM users ORDER BY users.name DESC", [])
  {
    var s := AddOrderBy(UsersStatement, [Desc(UserName)]);
    assert s == UsersStatement.(orderBy := Some([Desc(UserName)]));
    OnlyOrderBy(MySql, s);
    OrderByClauseText();
    UsersWithClauses(s);
    OrderByStatementText();
  }

  lemma LimitClauseTexts()
    ensures RenderLimit(MySql, LimitClause(10, None)) == (" LIMIT ?", [Int(10)])
    ensures RenderLimit(MySql, LimitClause(10, Some(20))) == (" LIMIT ? OFFSET ?", [Int(10), Int(20)])
  {
    LimitText();
    assert Kw(MySql, K.Limit) == " LIMIT " && Kw(MySql, K.QuestMark) == "?" && Kw(MySql, K.Offset) == " OFFSET ";
    assert [Int(10)] + [Int(20)] == [Int(10), Int(20)];
  }

  lemma SimpleLimit()
    ensures RenderStatement(MySql, SetLimit(UsersStatement, 10))
         == ("SELECT users.id, users.name FROM users LIMIT ?", [Int(10)])
  {
    var s := SetLimit(UsersStatement, 10);
    assert s == UsersStatement.(limit := Some(LimitClause(10, None)));
    OnlyLimit(MySql, s);
    LimitClauseTexts();
    UsersWithClauses(s);
    LimitText();
  }

  lemma SimpleLimitWithOffset()
    ensures RenderStatement(MySql, SetLimitWithOffset(UsersStatement, 10, 20))
         == ("SELECT users.id, users.name FROM users LIMIT ? OFFSET ?", [Int(10), Int(20)])
  {
    var s := SetLimitWithOffset(UsersStatement, 10, 20);
    assert s == UsersStatement.(limit := Some(LimitClause(10, Some(20))));
    OnlyLimit(MySql, s);
    LimitClauseTexts();
    UsersWithClauses(s);
    LimitText();
  }

  // ---------------------------------------------------------------------
  // Filter expressions

  /** A column compared with a value: the column, the operator's marker, one placeholder binding the value. */
  lemma ValueComparisonText(op: CompareOp, v: Value)
    ensures RenderExpr(MySql, Compare(op, Col(UserName), Val(v))) == ("users.name" + Sym(OpSymbol(op)) + "?", [v])
  {
    ColumnDefTexts();
    assert UserName.def == UserNameDef;
    assert Kw(MySql, K.QuestMark) == "?";
    var none: seq<Value> := [];
    assert none + [v] == [v];
    assert RenderSimple(MySql, Compare(op, Col(UserName), Val(v))) == ("users.name" + Sym(OpSymbol(op)) + "?", [v]);
  }

  lemma ComparisonOperatorTexts()
    ensures RenderExpr(MySql, Compare(Ne, Col(UserName), Val(Str("foo")))) == ("users.name != ?", [Str("foo")])
    ensures RenderExpr(MySql, Compare(Gt, Col(UserName), Val(Str("foo")))) == ("users.name > ?", [Str("foo")])
    ensures RenderExpr(MySql, Compare(Ge, Col(UserName), Val(Str("foo")))) == ("users.name >= ?", [Str("foo")])
  {
    ExpressionTexts();
    ComparisonTexts();
    ValueComparisonText(Ne, Str("foo"));
    ValueComparisonText(Gt, Str("foo"));
    ValueComparisonText(Ge, Str("foo"));
  }

  lemma OrderingComparisonTexts()
    ensures RenderExpr(MySql, Compare(Lt, Col(UserName), Val(Str("foo")))) == ("users.name < ?", [Str("foo")])
    ensures RenderExpr(MySql, Compare(Le, Col(UserName), Val(Str("foo")))) == ("users.name <= ?", [Str("foo")])
  {
    ComparisonTexts();
    ValueComparisonText(Lt, Str("foo"));
    ValueComparisonText(Le, Str("foo"));
  }

  lemma ReverseEqualText()
    ensures RenderExpr(MySql, Compare(Eq, Val(Str("foo")), Col(UserName))) == ("? = users.name", [Str("foo")])
  {
    ColumnDefTexts();
    ExpressionTexts();
    assert UserName.def == UserNameDef;
    assert Kw(MySql, K.QuestMark) == "?" && Kw(MySql, OpSymbol(Eq)) == " = ";
    var none: seq<Value> := [];
    assert [Str("foo")] + none + none == [Str("foo")];
    assert RenderSimple(MySql, Compare(Eq, Val(Str("foo")), Col(UserName))) == ("? = users.name", [Str("foo")]);
  }

  lemma ColumnsEqualText()
    ensures RenderExpr(MySql, Compare(Eq, Col(UserId), Col(ArticleAuthor))) == ("users.id = articles.author", [])
  {
    ColumnDefTexts();
    ExpressionTexts();
    assert UserId.def == UserIdDef && ArticleAuthor.def == ArticleAuthorDef;
    assert Kw(MySql, K.Period) == "." && Kw(MySql, OpSymbol(Eq)) == " = ";
    assert RenderColumnDef(MySql, ArticleAuthorDef) == ("articles.author", []);
    assert RenderSimple(MySql, Compare(Eq, Col(UserId), Col(ArticleAuthor))) == ("users.id = articles.author", []);
  }

  lemma PlaceholderTexts(a: Value, b: Value, c: Value)
    ensures RenderPlaceholders(MySql, [a]) == ("?", [a])
    ensures RenderPlaceholders(MySql, [a, b, c]) == ("?, ?, ?", [a, b, c])
  {
    InTexts();
    assert Kw(MySql, K.QuestMark) == "?" && Kw(MySql, K.CommaSpace) == ", ";
    assert [a, b, c][1..] == [b, c] && [b, c][1..] == [c];
    assert RenderPlaceholders(MySql, [c]) == ("?", [c]);
    assert RenderPlaceholders(MySql, [b, c]) == ("?, ?", [b, c]);
  }

  lemma InListTexts()
    ensures RenderExpr(MySql, InList(UserName, [Str("foo")])) == ("users.name IN (?)", [Str("foo")])
    ensures RenderExpr(MySql, InList(UserName, [Str("foo"), Str("bar"), Int(1)]))
         == ("users.name IN (?, ?, ?)", [Str("foo"), Str("bar"), Int(1)])
  {
    ColumnDefTexts();
    InTexts();
    PlaceholderTexts(Str("foo"), Str("bar"), Int(1));
    assert UserName.def == UserNameDef;
    assert Kw(MySql, K.In) == " IN (" && Kw(MySql, K.RParen) == ")";
    assert RenderSimple(MySql, InList(UserName, [Str("foo")])) == ("users.name IN (?)", [Str("foo")]);
  }

  /** A composite condition: both sides inside one pair of parentheses, the connective between them. */
  lemma ParenthesisedText(a: Rendered, op: K.Symbol, b: Rendered)
    ensures Parenthesise(MySql, a, op, b) == ("(" + a.0 + Sym(op) + b.0 + ")", a.1 + b.1)
  {
    assert Kw(MySql, K.LParen) == "(" && Kw(MySql, K.RParen) == ")";
    var none: seq<Value> := [];
    assert none + a.1 + none + b.1 + none == a.1 + b.1;
  }

  lemma ConjunctionText()
    ensures RenderExpr(MySql, Conj(Compare(Ne, Col(UserName), Val(Str("foo"))), Compare(Ne, Col(UserName), Val(Str("bar")))))
         == ("(users.name != ? AND users.name != ?)", [Str("foo"), Str("bar")])
  {
    var l := Compare(Ne, Col(UserName), Val(Str("foo")));
    var r := Compare(Ne, Col(UserName), Val(Str("bar")));
    ExpressionTexts();
    ValueComparisonText(Ne, Str("foo"));
    ValueComparisonText(Ne, Str("bar"));
    assert RenderExpr(MySql, l) == ("users.name != ?", [Str("foo")]);
    assert RenderExpr(MySql, r) == ("users.name != ?", [Str("bar")]);
    ParenthesisedText(RenderExpr(MySql, l), K.And, RenderExpr(MySql, r));
    AndText();
    assert Sym(K.And) == " AND ";
    assert [Str("foo")] + [Str("bar")] == [Str("foo"), Str("bar")];
    assert RenderExpr(MySql, Conj(l, r)) == Parenthesise(MySql, RenderExpr(MySql, l), K.And, RenderExpr(MySql, r));
  }

  lemma DisjunctionText()
    ensures RenderExpr(MySql, Disj(Compare(Eq, Col(UserName), Val(Str("foo"))), Compare(Eq, Col(UserName), Val(Str("bar")))))
         == ("(users.name = ? OR users.name = ?)", [Str("foo"), Str("bar")])
  {
    var l := Compare(Eq, Col(UserName), Val(Str("foo")));
    var r := Compare(Eq, Col(UserName), Val(Str("bar")));
    WhereText();
    ValueComparisonText(Eq, Str("foo"));
    ValueComparisonText(Eq, Str("bar"));
    assert RenderExpr(MySql, l) == ("users.name = ?", [Str("foo")]);
    assert RenderExpr(MySql, r) == ("users.name = ?", [Str("bar")]);
    ParenthesisedText(RenderExpr(MySql, l), K.Or, RenderExpr(MySql, r));
    OrText();
    assert Sym(K.Or) == " OR ";
    assert [Str("foo")] + [Str("bar")] == [Str("foo"), Str("bar")];
    assert RenderExpr(MySql, Disj(l, r)) == Parenthesise(MySql, RenderExpr(MySql, l), K.Or, RenderExpr(MySql, r));
  }

  lemma BetweenText()
    ensures RenderExpr(MySql, BetweenValues(UserName, Str("foo"), Str("bar")))
         == ("users.name BETWEEN ? AND ?", [Str("foo"), Str("bar")])
  {
    ColumnDefTexts();
    BetweenAndNullTexts();
    assert UserName.def == UserNameDef;
    assert Kw(MySql, K.Between) == " BETWEEN " && Kw(MySql, K.QuestMark) == "?" && Kw(MySql, K.And) == " AND ";
    var none: seq<Value> := [];
    assert none + none + [Str("foo")] + none + [Str("bar")] == [Str("foo"), Str("bar")];
    assert RenderSimple(MySql, BetweenValues(UserName, Str("foo"), Str("bar"))) == ("users.name BETWEEN ? AND ?", [Str("foo"), Str("bar")]);
  }

  lemma NullCheckTexts()
    ensures RenderExpr(MySql, NullCheck(UserName, false)) == ("users.name IS NULL", [])
    ensures RenderExpr(MySql, NullCheck(UserName, true)) == ("users.name IS NOT NULL", [])
  {
    ColumnDefTexts();
    BetweenAndNullTexts();
    assert UserName.def == UserNameDef;
    assert Kw(MySql, K.IsNull) == " IS NULL" && Kw(MySql, K.IsNotNull) == " IS NOT NULL";
    assert RenderSimple(MySql, NullCheck(UserName, false)) == ("users.name IS NULL", []);
    assert RenderSimple(MySql, NullCheck(UserName, true)) == ("users.name IS NOT NULL", []);
  }

  // ---------------------------------------------------------------------
  // GROUP BY

  lemma GroupByTwoColumnsText()
    ensures RenderGroupBy(MySql, [PCol(UserName), PCol(UserId)]) == (" GROUP BY users.name, users.id", [])
  {
    ColumnTexts();
    GroupByListText();
    var cols := [PCol(UserName), PCol(UserId)];
    assert UnaliasedAll(cols) == cols;
    assert cols[1..] == [PCol(UserId)];
    assert RenderProjections(MySql, [PCol(UserId)], ", ") == ("users.id", []);
    assert RenderProjections(MySql, cols, ", ") == ("users.name, users.id", []);
    assert Kw(MySql, K.GroupBy) == " GROUP BY " && Kw(MySql, K.CommaSpace) == ", ";
  }

  /** An aliased column in GROUP BY renders without its alias. */
  lemma GroupByAliasedText()
    ensures RenderGroupBy(MySql, [PCol(As(UserName, "user_name"))]) == (" GROUP BY users.name", [])
  {
    GroupByClauseText();
    assert Unaliased(PCol(As(UserName, "user_name"))) == Unaliased(PCol(UserName));
    GroupByIgnoresAliases(MySql, [PCol(As(UserName, "user_name"))], [PCol(UserName)]);
  }

  // ---------------------------------------------------------------------
  // Aggregates and trim functions

  const CreatedOnDef: ColumnDef := ColumnDef(13, "created_on", 1, "users")

  lemma AggregateTexts()
    ensures RenderAgg(MySql, Aggregate(Max, CreatedOnDef)) == ("MAX(created_on)", [])
    ensures RenderAgg(MySql, Aggregate(Min, CreatedOnDef)) == ("MIN(created_on)", [])
  {
    SqlTexts.AggregateTexts();
    assert Kw(MySql, K.Max) == "MAX(" && Kw(MySql, K.Min) == "MIN(" && Kw(MySql, K.RParen) == ")";
    assert CreatedOnDef.name == "created_on";
    CatEmpty(Lit("MAX(created_on)"));
    CatEmpty(Lit("MIN(created_on)"));
  }

  lemma AliasedAggregateText()
    ensures RenderAgg(MySql, AggAs(Aggregate(Max, CreatedOnDef), "max_created_on")) == ("MAX(created_on) AS max_created_on", [])
  {
    SqlTexts.AggregateTexts();
    SqlTexts.AliasedAggregateText();
    assert Kw(MySql, K.Max) == "MAX(" && Kw(MySql, K.RParen) == ")" && Kw(MySql, K.As) == " AS ";
    assert CreatedOnDef.name == "created_on";
    assert RenderAlias(MySql, "max_created_on") == (" AS max_created_on", []);
  }

  /** Column.Max() on a column of the same definition renders like Max over the definition. */
  lemma ColumnAggregateText()
    ensures RenderAgg(MySql, ColumnAggregate(Max, Column(13, CreatedOnDef, "", Users))) == ("MAX(created_on)", [])
  {
    AggregateTexts();
  }

  /** The trim column text does not depend on the dialect: both share the symbol table. */
  lemma TrimColumnText(d: Dialect)
    requires d.sym == Sym
    ensures RenderColumnDef(d, UserName.def) == ("users.name", [])
  {
    ColumnDefTexts();
    assert UserName.def == UserNameDef;
    assert RenderColumnDef(d, UserNameDef) == RenderColumnDef(MySql, UserNameDef);
  }

  lemma TrimBothTexts()
    ensures RenderTrim(MySql, TrimFunc(Both, UserName)) == ("TRIM(users.name)", [])
    ensures RenderTrim(Postgres, TrimFunc(Both, UserName)) == ("BTRIM(users.name)", [])
  {
    TrimColumnText(MySql);
    TrimColumnText(Postgres);
    TrimTexts();
    assert Kw(MySql, K.Trim) == "TRIM(" && Kw(Postgres, K.BTrim) == "BTRIM(";
    assert Kw(MySql, K.RParen) == ")" && Kw(Postgres, K.RParen) == ")";
  }

  lemma TrimLeadingTexts()
    ensures RenderTrim(MySql, TrimFunc(Leading, UserName)) == ("LTRIM(users.name)", [])
    ensures RenderTrim(Postgres, TrimFunc(Leading, UserName)) == ("TRIM(LEADING FROM users.name)", [])
  {
    TrimColumnText(MySql);
    TrimColumnText(Postgres);
    TrimTexts();
    assert Kw(MySql, K.LTrim) == "LTRIM(" && Kw(Postgres, K.TrimLeadingFrom) == "TRIM(LEADING FROM ";
    assert Kw(MySql, K.RParen) == ")" && Kw(Postgres, K.RParen) == ")";
  }

  lemma TrimTrailingTexts()
    ensures RenderTrim(MySql, TrimFunc(Trailing, UserName)) == ("RTRIM(users.name)", [])
    ensures RenderTrim(Postgres, TrimFunc(Trailing, UserName)) == ("TRIM(TRAILING FROM users.name)", [])
  {
    TrimColumnText(MySql);
    TrimColumnText(Postgres);
    TrimTexts();
    assert Kw(MySql, K.RTrim) == "RTRIM(" && Kw(Postgres, K.TrimTrailingFrom) == "TRIM(TRAILING FROM ";
    assert Kw(MySql, K.RParen) == ")" && Kw(Postgres, K.RParen) == ")";
  }

  // ---------------------------------------------------------------------
  // Tables and column lookup

  lemma TableAliasTexts()
    ensures RenderTable(MySql, DefTable(UsersDef)) == ("users", [])
    ensures RenderTable(MySql, TableAs(UsersDef, 4, "u")) == ("users AS u", [])
  {
    TableTexts();
    assert Kw(MySql, K.As) == " AS ";
    assert RenderAlias(MySql, "u") == (" AS u", []);
  }

  const UserEmailDef: ColumnDef := ColumnDef(14, "email", 1, "users")
  const ContactsDef: TableDef := TableDef(1, "test", "users", [UserIdDef, UserEmailDef])

  /** Column definitions keep insertion order; lookup finds a known name and reports an unknown one. */
  lemma ColumnLookups()
    ensures |DefColumns(ContactsDef)| == 2
    ensures DefColumns(ContactsDef)[0].def.name == "id" && DefColumns(ContactsDef)[1].def.name == "email"
    ensures LookupColumn(ContactsDef, "email") == Some(UserEmailDef)
    ensures LookupColumn(ContactsDef, "unknown").None?
  {
    assert ContactsDef.columns[0].name == "id" && ContactsDef.columns[1].name == "email";
    assert "id" != "email" && "id" != "unknown" && "email" != "unknown";
    assert ColumnIndex(ContactsDef.columns, "email") == Some(1);
  }
}

=== FILE: schema.dfy ===
/**
 * Table and column metadata and their usages in a statement: definitions,
 * aliased usages, sort columns, and how a column or table renders.
 *
 * A ColumnDef used directly as a projection is modelled as a Column with an
 * empty alias, and a TableDef used directly as a selection as a Table with an
 * empty alias whose identity is the definition's own.
 */
module Schema {
  import opened Wrappers
  import opened Text
  import opened Dialects
  import K = Symbols

  /** A column definition: its name and a back-reference to its table. */
  datatype ColumnDef = ColumnDef(id: nat, name: string, tableId: nat, tableName: string)

  /** A table definition owning its column definitions in insertion order. */
  datatype TableDef = TableDef(id: nat, schema: string, name: string, columns: seq<ColumnDef>)

  /** A usage of a table definition in a FROM clause, with an optional alias. */
  datatype Table = Table(id: nat, def: TableDef, alias: string)

  /**
   * A usage of a column definition with an optional projection alias;
   * `tbl` is the selection the column belongs to.
   */
  datatype Column = Column(id: nat, def: ColumnDef, alias: string, tbl: Table)

  /** A column with a sort direction, as ORDER BY lists it. */
  datatype SortColumn = SortColumn(col: Column, desc: bool)

  /** Every column definition of `td` refers back to `td`. */
  predicate WellFormedTableDef(td: TableDef) {
    forall i :: 0 <= i < |td.columns| ==>
      td.columns[i].tableId == td.id && td.columns[i].tableName == td.name
  }

  /** Defines a table whose columns are named `names`, in that order. */
  function NewTableDef(id: nat, schema: string, name: string, names: seq<string>, firstColumnId: nat): (td: TableDef)
    ensures td.id == id && td.schema == schema && td.name == name
    ensures WellFormedTableDef(td)
    ensures |td.columns| == |names|
    ensures forall i :: 0 <= i < |names| ==>
      td.columns[i].name == names[i] && td.columns[i].id == firstColumnId + i
  {
    TableDef(id, schema, name,
      seq(|names|, i requires 0 <= i < |names| => ColumnDef(firstColumnId + i, names[i], id, name)))
  }

  /** Position of the first column definition called `name`, if any. */
  function ColumnIndex(cols: seq<ColumnDef>, name: string): (r: Option<nat>)
    ensures r.Some? ==> r.value < |cols| && cols[r.value].name == name
    ensures r.Some? ==> forall j :: 0 <= j < r.value ==> cols[j].name != name
    ensures r.None? ==> forall j :: 0 <= j < |cols| ==> cols[j].name != name
  {
    if |cols| == 0 then None
    else if cols[0].name == name then Some(0)
    else match ColumnIndex(cols[1..], name)
      case None => None
      case Some(k) => Some(k + 1)
  }

  /** TableDef.Column: the definition called `name`, or nothing for an unknown name. */
  function LookupColumn(td: TableDef, name: string): (r: Option<ColumnDef>)
    ensures r.Some? ==> r.value in td.columns && r.value.name == name
    ensures r.None? <==> forall j :: 0 <= j < |td.columns| ==> td.columns[j].name != name
  {
    match ColumnIndex(td.columns, name)
    case None => None
    case Some(k) => Some(td.columns[k])
  }

  /** A table definition used directly as a selection. */
  function DefTable(td: TableDef): (t: Table)
    ensures t.def == td && t.alias == "" && t.id == td.id
  {
    Table(td.id, td, "")
  }

  /** TableDef.As: a usage of `td` carrying `alias`. */
  function TableAs(td: TableDef, id: nat, alias: string): (t: Table)
    ensures t.def == td && t.alias == alias && t.id == id
  {
    Table(id, td, alias)
  }

  /** The unaliased columns of a table definition, in definition order. */
  function DefColumns(td: TableDef): (r: seq<Column>)
    ensures |r| == |td.columns|
    ensures forall i :: 0 <= i < |r| ==>
      r[i].def == td.columns[i] && r[i].id == td.columns[i].id && r[i].alias == "" && r[i].tbl == DefTable(td)
  {
    seq(|td.columns|, i requires 0 <= i < |td.columns| => Column(td.columns[i].id, td.columns[i], "", DefTable(td)))
  }

  /** Column.As / Column.Alias: the same column object with its alias overwritten. */
  function As(c: Column, alias: string): (r: Column)
    ensures r.alias == alias
    ensures r.id == c.id && r.def == c.def && r.tbl == c.tbl
  {
    c.(alias := alias)
  }

  /** Column.Desc: a descending sort on the column. */
  function Desc(c: Column): (r: SortColumn)
    ensures r.col == c && r.desc
  {
    SortColumn(c, true)
  }

  /** Column.Asc: an ascending sort on the column. */
  function Asc(c: Column): (r: SortColumn)
    ensures r.col == c && !r.desc
  {
    SortColumn(c, false)
  }

  // ---------------------------------------------------------------------
  // Rendering

  /** Size of a column definition: `table.column`. */
  function ColumnDefSize(d: Dialect, cd: ColumnDef): nat {
    |cd.tableName| + KwLen(d, K.Period) + |cd.name|
  }

  function RenderColumnDef(d: Dialect, cd: ColumnDef): (r: Rendered)
    ensures |r.0| == ColumnDefSize(d, cd)
    ensures r.1 == []
  {
    Lit(cd.tableName + Kw(d, K.Period) + cd.name)
  }

  /** Bytes an optional ` AS alias` suffix contributes. */
  function AliasSize(d: Dialect, alias: string): nat {
    if alias != "" then KwLen(d, K.As) + |alias| else 0
  }

  function RenderAlias(d: Dialect, alias: string): (r: Rendered)
    ensures |r.0| == AliasSize(d, alias)
    ensures r.1 == []
    ensures alias == "" ==> r.0 == ""
  {
    if alias != "" then Lit(Kw(d, K.As) + alias) else Lit("")
  }

  /** Column.Size: the definition's size plus the alias suffix when aliased. */
  function ColumnSize(d: Dialect, c: Column): nat {
    ColumnDefSize(d, c.def) + AliasSize(d, c.alias)
  }

  /** Column.Scan: the definition, then ` AS alias` when aliased; never any argument. */
  function RenderColumn(d: Dialect, c: Column): (r: Rendered)
    ensures |r.0| == ColumnSize(d, c)
    ensures r.1 == []
    ensures r.0[..ColumnDefSize(d, c.def)] == RenderColumnDef(d, c.def).0
    ensures c.alias == "" ==> r == RenderColumnDef(d, c.def)
  {
    var def := RenderColumnDef(d, c.def);
    assert def.0 + "" == def.0 && def.1 + [] == def.1;
    Cat(def, RenderAlias(d, c.alias))
  }

  /** Size of a table usage: its name plus the alias suffix when aliased. */
  function TableSize(d: Dialect, t: Table): nat {
    |t.def.name| + AliasSize(d, t.alias)
  }

  function RenderTable(d: Dialect, t: Table): (r: Rendered)
    ensures |r.0| == TableSize(d, t)
    ensures r.1 == []
    ensures r.0[..|t.def.name|] == t.def.name
    ensures t.alias == "" ==> r.0 == t.def.name
  {
    Cat(Lit(t.def.name), RenderAlias(d, t.alias))
  }
}

=== FILE: select_clause.dfy ===
/**
 * The older statement renderer, SelectClause. Its three phases differ from
 * selectStatement's: SELECT and FROM are always written, selections are
 * concatenated with no separator, the clause's own alias follows the
 * selections, and the scan returns its byte and argument counts instead of
 * moving a shared cursor. Projections, selections and joins are scanned into
 * the whole argument slice, the later clauses into the slice past the
 * running count.
 */
module SelectClauses {
  import opened Wrappers
  import opened Text
  import opened Dialects
  import opened Schema
  import opened Expressions
  import opened Projections
  import opened Clauses
  import opened Statements
  import opened StatementMutators
  import K = Symbols

  datatype SelectClause = SelectClause(
    alias: string,
    projected: seq<Projection>,
    selections: seq<Selection>,
    joins: seq<JoinClause>,
    filters: seq<Expr>,
    groupBy: Option<seq<Projection>>,
    orderBy: Option<seq<SortColumn>>,
    limit: Option<LimitClause>)

  // ---------------------------------------------------------------------
  // Phase one

  /** Arguments of the clauses scanned past the running count. */
  function TailArgCount(sc: SelectClause): nat {
    ExprsArgCount(sc.filters) + (if sc.limit.Some? then LimitArgCount(sc.limit.value) else 0)
  }

  /** SelectClause.argCount: selections, joins, filters and the limit; the rest bind nothing. */
  function SelectClauseArgCount(sc: SelectClause): nat {
    SelectionsArgCount(sc.selections) + JoinsArgCount(sc.joins) + TailArgCount(sc)
  }

  /** The projection list, comma separated. */
  function ListSize(d: Dialect, ps: seq<Projection>): nat {
    ProjectionsSize(d, ps) + Times(Separators(|ps|), KwLen(d, K.CommaSpace))
  }

  /** WHERE once, AND between each pair of filters, nothing for no filters. */
  function FiltersSize(d: Dialect, fs: seq<Expr>): nat {
    if |fs| > 0 then KwLen(d, K.Where) + Times(|fs| - 1, KwLen(d, K.And)) + ExprsSize(d, fs) else 0
  }

  /** SelectClause.size. */
  function SelectClauseSize(d: Dialect, sc: SelectClause): nat {
    KwLen(d, K.Select) + KwLen(d, K.From) + ListSize(d, sc.projected)
    + SelectionsSize(d, sc.selections) + AliasSize(d, sc.alias) + JoinsSize(d, sc.joins)
    + FiltersSize(d, sc.filters)
    + (if sc.groupBy.Some? then GroupBySize(d, sc.groupBy.value) else 0)
    + (if sc.orderBy.Some? then OrderBySize(d, sc.orderBy.value) else 0)
    + (if sc.limit.Some? then LimitSize(d, sc.limit.value) else 0)
  }

  // ---------------------------------------------------------------------
  // Phase two: the text, and the arguments in emission order

  function RenderFilters(d: Dialect, fs: seq<Expr>): (r: Rendered)
    ensures |r.0| == FiltersSize(d, fs)
    ensures |r.1| == ExprsArgCount(fs)
  {
    if |fs| > 0 then RenderCondition(d, K.Where, fs) else Lit("")
  }

  /** SELECT and the projection list; projections bind nothing. */
  function RenderList(d: Dialect, ps: seq<Projection>): (r: Rendered)
    ensures |r.0| == KwLen(d, K.Select) + ListSize(d, ps)
    ensures r.1 == []
  {
    Cat(Lit(Kw(d, K.Select)), RenderProjections(d, ps, Kw(d, K.CommaSpace)))
  }

  /** FROM, the selections back to back with no separator, then the clause's alias. */
  function RenderFromAlias(d: Dialect, sc: SelectClause): (r: Rendered)
    ensures |r.0| == KwLen(d, K.From) + SelectionsSize(d, sc.selections) + AliasSize(d, sc.alias)
    ensures r.1 == RenderSelections(d, sc.selections, "").1
  {
    var sels := RenderSelections(d, sc.selections, "");
    TimesIsProduct(Separators(|sc.selections|), 0);
    Cat(Cat(Lit(Kw(d, K.From)), sels), RenderAlias(d, sc.alias))
  }

  /** SELECT, the list, FROM, the selections, the alias and the joins. */
  function RenderSelectHead(d: Dialect, sc: SelectClause): (r: Rendered)
    ensures |r.0| == KwLen(d, K.Select) + KwLen(d, K.From) + ListSize(d, sc.projected)
      + SelectionsSize(d, sc.selections) + AliasSize(d, sc.alias) + JoinsSize(d, sc.joins)
    ensures r.1 == RenderSelections(d, sc.selections, "").1 + RenderJoins(d, sc.joins).1
  {
    var l, f, j := RenderList(d, sc.projected), RenderFromAlias(d, sc), RenderJoins(d, sc.joins);
    assert l.1 + f.1 == f.1;
    assert |l.0 + f.0 + j.0| == |l.0| + |f.0| + |j.0|;
    Cat(Cat(l, f), j)
  }

  /** WHERE, GROUP BY, ORDER BY and LIMIT, each only when present. */
  function RenderSelectTail(d: Dialect, sc: SelectClause): (r: Rendered)
    ensures |r.0| == FiltersSize(d, sc.filters)
      + (if sc.groupBy.Some? then GroupBySize(d, sc.groupBy.value) else 0)
      + (if sc.orderBy.Some? then OrderBySize(d, sc.orderBy.value) else 0)
      + (if sc.limit.Some? then LimitSize(d, sc.limit.value) else 0)
    ensures |r.1| == TailArgCount(sc)
  {
    var g := if sc.groupBy.Some? then RenderGroupBy(d, sc.groupBy.value) else Lit("");
    var o := if sc.orderBy.Some? then RenderOrderBy(d, sc.orderBy.value) else Lit("");
    var l := if sc.limit.Some? then RenderLimit(d, sc.limit.value) else Lit("");
    assert |g.1| == 0 && |o.1| == 0;
    Cat(Cat(RenderFilters(d, sc.filters), g), Cat(o, l))
  }

  /**
   * The bytes SelectClause.scan writes, with every argument in its own slot
   * in emission order (the evidently intended argument layout).
   */
  function RenderSelectClause(d: Dialect, sc: SelectClause): (r: Rendered)
    ensures |r.0| == SelectClauseSize(d, sc)
    ensures |r.1| == SelectClauseArgCount(sc)
  {
    Cat(RenderSelectHead(d, sc), RenderSelectTail(d, sc))
  }

  // ---------------------------------------------------------------------
  // The argument slice as SelectClause.scan fills it

  /** Each selection's arguments, in selection order. */
  function SelectionArgLists(d: Dialect, sels: seq<Selection>): (r: seq<seq<Value>>)
    ensures |r| == |sels|
    ensures forall i :: 0 <= i < |sels| ==> r[i] == RenderSelection(d, sels[i]).1
  {
    seq(|sels|, i requires 0 <= i < |sels| => RenderSelection(d, sels[i]).1)
  }

  /** Each join's arguments, in join order. */
  function JoinArgLists(d: Dialect, js: seq<JoinClause>): (r: seq<seq<Value>>)
    ensures |r| == |js|
    ensures forall i :: 0 <= i < |js| ==> r[i] == RenderJoin(d, js[i]).1
  {
    seq(|js|, i requires 0 <= i < |js| => RenderJoin(d, js[i]).1)
  }

  function Concat(ls: seq<seq<Value>>): seq<Value> {
    if |ls| == 0 then [] else ls[0] + Concat(ls[1..])
  }

  lemma {:induction false} ConcatAppend(a: seq<seq<Value>>, b: seq<seq<Value>>)
    ensures Concat(a + b) == Concat(a) + Concat(b)
    decreases |a|
  {
    if |a| == 0 {
      assert a + b == b;
    } else {
      assert (a + b)[1..] == a[1..] + b;
      ConcatAppend(a[1..], b);
    }
  }

  /** Each part of a concatenation is no longer than the whole. */
  lemma {:induction false} ConcatCovers(ls: seq<seq<Value>>)
    ensures forall i :: 0 <= i < |ls| ==> |ls[i]| <= |Concat(ls)|
    decreases |ls|
  {
    if |ls| > 0 {
      ConcatCovers(ls[1..]);
      forall i | 1 <= i < |ls|
        ensures |ls[i]| <= |Concat(ls)|
      {
        assert ls[i] == ls[1..][i - 1];
      }
    }
  }

  /** The per-selection argument lists, concatenated, are the selections' arguments. */
  lemma {:induction false} SelectionArgListsConcat(d: Dialect, sels: seq<Selection>, sep: string)
    ensures Concat(SelectionArgLists(d, sels)) == RenderSelections(d, sels, sep).1
    decreases |sels|
  {
    if |sels| > 1 {
      SelectionArgListsConcat(d, sels[1..], sep);
      assert SelectionArgLists(d, sels)[1..] == SelectionArgLists(d, sels[1..]);
    } else if |sels| == 1 {
      assert SelectionArgLists(d, sels)[1..] == [];
    }
  }

  /** The per-join argument lists, concatenated, are the joins' arguments. */
  lemma {:induction false} JoinArgListsConcat(d: Dialect, js: seq<JoinClause>)
    ensures Concat(JoinArgLists(d, js)) == RenderJoins(d, js).1
    decreases |js|
  {
    if |js| > 0 {
      JoinArgListsConcat(d, js[1..]);
      assert JoinArgLists(d, js)[1..] == JoinArgLists(d, js[1..]);
    }
  }

  /** Scanning each list, one after another, into the whole slice: every write starts at slot 0. */
  function WriteEachAtStart(buf: seq<Value>, ls: seq<seq<Value>>): (r: seq<Value>)
    requires forall i :: 0 <= i < |ls| ==> |ls[i]| <= |buf|
    ensures |r| == |buf|
    ensures |ls| > 0 ==> r[..|ls[|ls| - 1]|] == ls[|ls| - 1]
    decreases |ls|
  {
    if |ls| == 0 then buf
    else
      var next := WriteAt(buf, 0, ls[0]);
      assert forall i :: 1 <= i < |ls| ==> ls[i] == ls[1..][i - 1];
      WriteEachAtStart(next, ls[1..])
  }

  /**
   * The argument slice SelectClause.scan leaves behind: the selections' and
   * joins' arguments are all written from slot 0, the later clauses' from the
   * running count onwards.
   */
  function ArgsAsWritten(d: Dialect, sc: SelectClause): (r: seq<Value>)
    ensures |r| == SelectClauseArgCount(sc)
  {
    var head := SelectionArgLists(d, sc.selections) + JoinArgLists(d, sc.joins);
    var n := SelectClauseArgCount(sc);
    var tail := RenderSelectTail(d, sc).1;
    ConcatAppend(SelectionArgLists(d, sc.selections), JoinArgLists(d, sc.joins));
    SelectionArgListsConcat(d, sc.selections, "");
    JoinArgListsConcat(d, sc.joins);
    ConcatCovers(head);
    WriteAt(WriteEachAtStart(Blank(n), head), |Concat(head)|, tail)
  }

  /** The counts SelectClause.scan returns: bytes written and the running argument count. */
  function ScanCounts(d: Dialect, sc: SelectClause): (r: (nat, nat))
    ensures r.0 == SelectClauseSize(d, sc)
    ensures r.1 == SelectClauseArgCount(sc)
  {
    var head := SelectionArgLists(d, sc.selections) + JoinArgLists(d, sc.joins);
    ConcatAppend(SelectionArgLists(d, sc.selections), JoinArgLists(d, sc.joins));
    SelectionArgListsConcat(d, sc.selections, "");
    JoinArgListsConcat(d, sc.joins);
    (|RenderSelectClause(d, sc).0|, |Concat(head)| + |RenderSelectTail(d, sc).1|)
  }

  /** StringArgs as written: the text and the argument slice the scan fills. */
  function StringArgsAsWritten(d: Dialect, sc: SelectClause): (r: (string, seq<Value>))
    ensures |r.0| == SelectClauseSize(d, sc)
    ensures |r.1| == SelectClauseArgCount(sc)
    ensures r.0 == RenderSelectClause(d, sc).0
  {
    (RenderSelectClause(d, sc).0, ArgsAsWritten(d, sc))
  }

  /** StringArgs with every argument in its own slot. */
  function StringArgs(d: Dialect, sc: SelectClause): (r: (string, seq<Value>))
    ensures |r.0| == SelectClauseSize(d, sc)
    ensures |r.1| == SelectClauseArgCount(sc)
    ensures r.1 == RenderSelections(d, sc.selections, "").1 + RenderJoins(d, sc.joins).1
      + RenderSelectTail(d, sc).1
  {
    RenderSelectClause(d, sc)
  }

  /** String: the text alone, the same with either argument layout. */
  function String(d: Dialect, sc: SelectClause): (r: string)
    ensures r == StringArgs(d, sc).0 && r == StringArgsAsWritten(d, sc).0
  {
    RenderSelectClause(d, sc).0
  }

  /**
   * When neither selections nor joins carry arguments, writing them from slot
   * 0 is harmless and the slice as written is the intended one.
   */
  lemma ArgsAsWrittenAgreeWithoutHeadArgs(d: Dialect, sc: SelectClause)
    requires SelectionsArgCount(sc.selections) + JoinsArgCount(sc.joins) == 0
    ensures ArgsAsWritten(d, sc) == StringArgs(d, sc).1
  {
    var head := SelectionArgLists(d, sc.selections) + JoinArgLists(d, sc.joins);
    ConcatAppend(SelectionArgLists(d, sc.selections), JoinArgLists(d, sc.joins));
    SelectionArgListsConcat(d, sc.selections, "");
    JoinArgListsConcat(d, sc.joins);
    ConcatCovers(head);
    var n := SelectClauseArgCount(sc);
    var tail := RenderSelectTail(d, sc).1;
    var front := WriteEachAtStart(Blank(n), head);
    var r := WriteAt(front, 0, tail);
    assert r[0..|tail|] == tail;
    assert r == r[0..|tail|];
  }

  /** A join of a plain table on `column = value` binds exactly that value. */
  lemma ValueJoinArgs(d: Dialect, id: nat, t: Table, right: Table, c: Column, v: Value)
    ensures RenderJoin(d, JoinClause(id, TableSel(t), TableSel(right), Compare(Eq, Col(c), Val(v)))).1 == [v]
  {
    assert RenderSelection(d, TableSel(right)).1 == [];
    assert ExprValues(Compare(Eq, Col(c), Val(v))) == [v];
  }

  lemma ConcatThree(a: seq<Value>, b: seq<Value>, c: seq<Value>)
    ensures Concat([a, b, c]) == a + b + c
  {
    assert [a, b, c][1..] == [b, c];
    assert [b, c][1..] == [c];
    assert [c][1..] == [];
    assert Concat([c]) == c;
    assert Concat([b, c]) == b + c;
  }

  /** Three writes from slot 0 into a two-slot slice: only the last one survives in slot 0. */
  lemma WriteThreeAtStart(v1: Value, v2: Value)
    ensures WriteEachAtStart([Nil, Nil], [[], [v1], [v2]]) == [v2, Nil]
  {
    var ls: seq<seq<Value>> := [[], [v1], [v2]];
    assert ls[1..] == [[v1], [v2]];
    assert ls[1..][1..] == [[v2]];
    assert ls[1..][1..][1..] == [];
    assert WriteAt([Nil, Nil], 0, []) == [Nil, Nil];
    assert WriteAt([Nil, Nil], 0, [v1]) == [v1, Nil];
    assert WriteAt([v1, Nil], 0, [v2]) == [v2, Nil];
    assert WriteEachAtStart([v2, Nil], []) == [v2, Nil];
    assert WriteEachAtStart([v1, Nil], [[v2]]) == [v2, Nil];
    assert WriteEachAtStart([Nil, Nil], [[v1], [v2]]) == [v2, Nil];
  }

  /** The clause of the collision example: one table and two joins on `column = value`. */
  function TwoValueJoins(t: Table, right: Table, c: Column, v1: Value, v2: Value): (r: SelectClause)
    ensures |r.joins| == 2 && r.joins[0].on == Compare(Eq, Col(c), Val(v1))
    ensures r.joins[1].on == Compare(Eq, Col(c), Val(v2))
  {
    var j1 := JoinClause(1, TableSel(t), TableSel(right), Compare(Eq, Col(c), Val(v1)));
    var j2 := JoinClause(2, TableSel(t), TableSel(right), Compare(Eq, Col(c), Val(v2)));
    SelectClause("", [], [TableSel(t)], [j1, j2], [], None, None, None)
  }

  /** As written, the second join's value lands on top of the first in slot 0; slot 1 stays nil. */
  lemma TwoValueJoinsAsWritten(d: Dialect, t: Table, right: Table, c: Column, v1: Value, v2: Value)
    ensures ArgsAsWritten(d, TwoValueJoins(t, right, c, v1, v2)) == [v2, Nil]
  {
    var sc := TwoValueJoins(t, right, c, v1, v2);
    ValueJoinArgs(d, 1, t, right, c, v1);
    ValueJoinArgs(d, 2, t, right, c, v2);
    assert RenderSelection(d, TableSel(t)).1 == [];
    var head := SelectionArgLists(d, sc.selections) + JoinArgLists(d, sc.joins);
    assert head == [[], [v1], [v2]];
    ConcatThree([], [v1], [v2]);
    assert |Concat(head)| == 2;
    assert SelectClauseArgCount(sc) == 2 by {
      assert SelectionsArgCount(sc.selections) == 0;
      assert sc.joins[1..] == [sc.joins[1]] && sc.joins[1..][1..] == [];
      assert JoinArgCount(sc.joins[0]) == 1 && JoinArgCount(sc.joins[1]) == 1;
      assert JoinsArgCount(sc.joins[1..][1..]) == 0;
      assert JoinsArgCount(sc.joins[1..]) == 1;
    }
    assert Blank(2) == [Nil, Nil];
    WriteThreeAtStart(v1, v2);
    assert RenderSelectTail(d, sc).1 == [];
    assert WriteAt([v2, Nil], 2, []) == [v2, Nil];
  }

  /** The two joins of the example bind their values in join order. */
  lemma TwoJoinArgs(d: Dialect, t: Table, right: Table, c: Column, v1: Value, v2: Value)
    ensures RenderJoins(d, TwoValueJoins(t, right, c, v1, v2).joins).1 == [v1, v2]
  {
    var js := TwoValueJoins(t, right, c, v1, v2).joins;
    ValueJoinArgs(d, 1, t, right, c, v1);
    ValueJoinArgs(d, 2, t, right, c, v2);
    assert js[1..][1..] == [];
    assert RenderJoins(d, js[1..]).1 == [v2] + [];
    assert RenderJoins(d, js).1 == [v1] + [v2];
  }

  /** Intended: both join values, each in its own slot, in join order. */
  lemma TwoValueJoinsIntended(d: Dialect, t: Table, right: Table, c: Column, v1: Value, v2: Value)
    ensures StringArgs(d, TwoValueJoins(t, right, c, v1, v2)).1 == [v1, v2]
  {
    var sc := TwoValueJoins(t, right, c, v1, v2);
    TwoJoinArgs(d, t, right, c, v1, v2);
    assert RenderSelection(d, TableSel(t)).1 == [];
    assert RenderSelections(d, sc.selections, "").1 == [];
    assert RenderSelectTail(d, sc).1 == [];
    assert [] + [v1, v2] + [] == [v1, v2];
  }

  /**
   * Two joins binding one value each: the argument slice as written differs
   * from the intended one in both slots.
   */
  lemma JoinArgsCollide(d: Dialect, t: Table, right: Table, c: Column, v1: Value, v2: Value)
    requires v2 != Nil
    ensures ArgsAsWritten(d, TwoValueJoins(t, right, c, v1, v2)) != StringArgs(d, TwoValueJoins(t, right, c, v1, v2)).1
  {
    TwoValueJoinsAsWritten(d, t, right, c, v1, v2);
    TwoValueJoinsIntended(d, t, right, c, v1, v2);
    assert [v2, Nil][1] != [v1, v2][1];
  }

  // ---------------------------------------------------------------------
  // Mutators

  /** Alias/As: the clause's alias is overwritten; nothing else changes. */
  function As(sc: SelectClause, alias: string): (r: SelectClause)
    ensures r.alias == alias && r.(alias := sc.alias) == sc
  {
    sc.(alias := alias)
  }

  /** Where: the filter is appended after the earlier ones. */
  function Where(sc: SelectClause, e: Expr): (r: SelectClause)
    ensures |r.filters| == |sc.filters| + 1
    ensures r.filters[..|sc.filters|] == sc.filters && r.filters[|sc.filters|] == e
    ensures r.(filters := sc.filters) == sc
  {
    sc.(filters := sc.filters + [e])
  }

  /** GroupBy: nothing for no columns; otherwise create then append, each as a plain column. */
  function GroupBy(sc: SelectClause, cols: seq<Column>): (r: SelectClause)
    ensures |cols| == 0 ==> r == sc
    ensures |cols| > 0 ==> r.groupBy.Some? && |r.groupBy.value| == |Existing(sc.groupBy)| + |cols|
    ensures |cols| > 0 ==> r.groupBy.Some? && r.groupBy.value[..|Existing(sc.groupBy)|] == Existing(sc.groupBy)
    ensures |cols| > 0 ==> forall i :: 0 <= i < |cols| ==> r.groupBy.value[|Existing(sc.groupBy)| + i] == PCol(cols[i])
    ensures r.(groupBy := sc.groupBy) == sc
  {
    if |cols| == 0 then sc
    else sc.(groupBy := AppendOrCreate(sc.groupBy, seq(|cols|, i requires 0 <= i < |cols| => PCol(cols[i]))))
  }

  /** OrderBy: nothing for no sort columns; otherwise create then append in argument order. */
  function OrderBy(sc: SelectClause, scs: seq<SortColumn>): (r: SelectClause)
    ensures |scs| == 0 ==> r == sc
    ensures |scs| > 0 ==> r.orderBy.Some? && |r.orderBy.value| == |Existing(sc.orderBy)| + |scs|
    ensures |scs| > 0 ==> r.orderBy.Some? && r.orderBy.value[..|Existing(sc.orderBy)|] == Existing(sc.orderBy)
    ensures |scs| > 0 ==> r.orderBy.Some? && r.orderBy.value[|Existing(sc.orderBy)|..] == scs
    ensures r.(orderBy := sc.orderBy) == sc
  {
    if |scs| == 0 then sc else sc.(orderBy := AppendOrCreate(sc.orderBy, scs))
  }

  /** Limit: any earlier limit clause is replaced by one without an offset. */
  function Limit(sc: SelectClause, limit: int): (r: SelectClause)
    ensures r.limit == Some(LimitClause(limit, None)) && r.(limit := sc.limit) == sc
  {
    sc.(limit := Some(LimitClause(limit, None)))
  }

  /** LimitWithOffset: any earlier limit clause is replaced by one with both values. */
  function LimitWithOffset(sc: SelectClause, limit: int, offset: int): (r: SelectClause)
    ensures r.limit == Some(LimitClause(limit, Some(offset))) && r.(limit := sc.limit) == sc
  {
    sc.(limit := Some(LimitClause(limit, Some(offset))))
  }

  /** addToProjections for a SelectClause: the projection goes last in the list. */
  function ClauseAddToProjections(sc: SelectClause, p: Projection): (r: SelectClause)
    ensures |r.projected| == |sc.projected| + 1
    ensures r.projected[..|sc.projected|] == sc.projected && r.projected[|sc.projected|] == p
    ensures r.(projected := sc.projected) == sc
  {
    sc.(projected := sc.projected + [p])
  }

  /** A new filter adds exactly its own value operands to the count. */
  lemma WhereArgCount(sc: SelectClause, e: Expr)
    ensures SelectClauseArgCount(Where(sc, e)) == SelectClauseArgCount(sc) + ExprArgCount(e)
  {
    ExprsArgCountAppend(sc.filters, [e]);
    assert ExprsArgCount([e]) == ExprArgCount(e);
  }
}

=== FILE: sql_texts.dfy ===
/**
 * The literal string identities the concrete renderings rely on, kept apart
 * from the rendering model so that each is decided on its own.
 */
module SqlTexts {
  const UsersText: string := "SELECT users.id, users.name FROM users"

  /** The renderings of the named and the default-named derived-table examples. */
  const NamedDerivedText: string := "SELECT u.id, u.name FROM (SELECT users.id, users.name FROM users) AS u"
  const DefaultDerivedText: string := "SELECT derived0.id, derived0.name FROM (SELECT users.id, users.name FROM users) AS derived0"

  /** The rendering of the inner-join example. */
  const JoinText: string := "SELECT articles.id, users.name AS author FROM articles JOIN users ON articles.author = users.id"

  lemma ColumnNames()
    ensures "users" + "." + "id" == "users.id"
    ensures "users" + "." + "name" == "users.name"
  {
  }

  lemma UsersHeadText()
    ensures "users.id" + ", " + "users.name" == "users.id, users.name"
    ensures "SELECT " + "users.id, users.name" == "SELECT users.id, users.name"
    ensures " " + "FROM " + "users" == " FROM users"
    ensures "SELECT users.id, users.name" + " FROM users" == UsersText
  {
  }

  lemma WhereText()
    ensures "users.name" + " = " + "?" == "users.name = ?"
    ensures " WHERE " + "users.name = ?" == " WHERE users.name = ?"
  {
  }

  lemma WhereStatementText()
    ensures UsersText + " WHERE users.name = ?" == "SELECT users.id, users.name FROM users WHERE users.name = ?"
  {
  }

  lemma GroupByText()
    ensures " GROUP BY " + "users.name" == " GROUP BY users.name"
  {
  }

  lemma GroupByStatementText()
    ensures UsersText + " GROUP BY users.name" == "SELECT users.id, users.name FROM users GROUP BY users.name"
  {
  }

  lemma OrderByText()
    ensures "users.name" + " DESC" == "users.name DESC"
    ensures " ORDER BY " + "users.name DESC" == " ORDER BY users.name DESC"
  {
  }

  lemma OrderByStatementText()
    ensures UsersText + " ORDER BY users.name DESC" == "SELECT users.id, users.name FROM users ORDER BY users.name DESC"
  {
  }

  lemma LimitText()
    ensures " LIMIT " + "?" == " LIMIT ?"
    ensures " OFFSET " + "?" == " OFFSET ?"
    ensures " LIMIT ?" + " OFFSET ?" == " LIMIT ? OFFSET ?"
    ensures UsersText + " LIMIT ?" == "SELECT users.id, users.name FROM users LIMIT ?"
    ensures UsersText + " LIMIT ? OFFSET ?" == "SELECT users.id, users.name FROM users LIMIT ? OFFSET ?"
  {
  }

  lemma ExpressionTexts()
    ensures "users.name" + " != " + "?" == "users.name != ?"
    ensures "?" + " = " + "users.name" == "? = users.name"
    ensures "articles" + "." + "author" == "articles.author"
    ensures "users.id" + " = " + "articles.author" == "users.id = articles.author"
  {
  }

  lemma InTexts()
    ensures "users.name" + " IN (" + "?" + ")" == "users.name IN (?)"
    ensures "?" + ", " + "?" == "?, ?"
    ensures "?" + ", " + "?, ?" == "?, ?, ?"
    ensures "users.name" + " IN (" + "?, ?, ?" + ")" == "users.name IN (?, ?, ?)"
  {
  }

  lemma AndText()
    ensures "(" + "users.name != ?" + " AND " + "users.name != ?" + ")" == "(users.name != ? AND users.name != ?)"
  {
  }

  lemma OrText()
    ensures "(" + "users.name = ?" + " OR " + "users.name = ?" + ")" == "(users.name = ? OR users.name = ?)"
  {
  }

  lemma BetweenAndNullTexts()
    ensures "users.name" + " BETWEEN " + "?" + " AND " + "?" == "users.name BETWEEN ? AND ?"
    ensures "users.name" + " IS NULL" == "users.name IS NULL"
    ensures "users.name" + " IS NOT NULL" == "users.name IS NOT NULL"
  {
  }

  lemma ComparisonTexts()
    ensures "users.name" + " > " + "?" == "users.name > ?"
    ensures "users.name" + " >= " + "?" == "users.name >= ?"
    ensures "users.name" + " < " + "?" == "users.name < ?"
    ensures "users.name" + " <= " + "?" == "users.name <= ?"
  {
  }

  lemma GroupByListText()
    ensures "users.name" + ", " + "users.id" == "users.name, users.id"
    ensures " GROUP BY " + "users.name, users.id" == " GROUP BY users.name, users.id"
  {
  }

  lemma AggregateTexts()
    ensures "MAX(" + "created_on" + ")" == "MAX(created_on)"
    ensures "MIN(" + "created_on" + ")" == "MIN(created_on)"
  {
  }

  lemma AliasedAggregateText()
    ensures " AS " + "max_created_on" == " AS max_created_on"
    ensures "MAX(created_on)" + " AS max_created_on" == "MAX(created_on) AS max_created_on"
  {
  }

  lemma TrimTexts()
    ensures "TRIM(" + "users.name" + ")" == "TRIM(users.name)"
    ensures "BTRIM(" + "users.name" + ")" == "BTRIM(users.name)"
    ensures "LTRIM(" + "users.name" + ")" == "LTRIM(users.name)"
    ensures "TRIM(LEADING FROM " + "users.name" + ")" == "TRIM(LEADING FROM users.name)"
    ensures "RTRIM(" + "users.name" + ")" == "RTRIM(users.name)"
    ensures "TRIM(TRAILING FROM " + "users.name" + ")" == "TRIM(TRAILING FROM users.name)"
  {
  }

  lemma TableTexts()
    ensures " AS " + "u" == " AS u"
    ensures "users" + " AS u" == "users AS u"
  {
  }

  lemma FromKeywordText()
    ensures " " + "FROM " == " FROM "
  {
  }

  lemma LiveWhereText()
    ensures "users.id" + " = " + "?" == "users.id = ?"
    ensures " WHERE " + "users.id = ?" == " WHERE users.id = ?"
  {
  }

  lemma LiveWhereStatementText()
    ensures UsersText + " WHERE users.id = ?" == "SELECT users.id, users.name FROM users WHERE users.id = ?"
  {
  }

  lemma DerivedNameText()
    ensures "derived" + "0" == "derived0"
  {
  }

  lemma DerivedHeadTexts()
    ensures "u" + "." + "id" == "u.id" && "u" + "." + "name" == "u.name"
    ensures "u.id" + ", " + "u.name" == "u.id, u.name"
    ensures "SELECT " + "u.id, u.name" == "SELECT u.id, u.name"
  {
  }

  lemma DefaultDerivedHeadTexts()
    ensures "derived0" + "." + "id" == "derived0.id" && "derived0" + "." + "name" == "derived0.name"
  {
  }

  lemma DefaultDerivedListText()
    ensures "derived0.id" + ", " + "derived0.name" == "derived0.id, derived0.name"
  {
  }

  lemma DefaultDerivedSelectText()
    ensures "SELECT " + "derived0.id, derived0.name" == "SELECT derived0.id, derived0.name"
  {
  }

  lemma ParenthesisTexts()
    ensures ")" + " AS " + "u" == ") AS u"
    ensures ")" + " AS " + "derived0" == ") AS derived0"
  {
  }

  lemma JoinColumnTexts()
    ensures "articles" + "." + "id" == "articles.id"
    ensures " AS " + "author" == " AS author"
    ensures "users.name" + " AS author" == "users.name AS author"
  {
  }

  lemma JoinListText()
    ensures "articles.id" + ", " + "users.name AS author" == "articles.id, users.name AS author"
  {
  }

  lemma JoinSelectText()
    ensures "SELECT " + "articles.id, users.name AS author" == "SELECT articles.id, users.name AS author"
  {
  }

  lemma JoinConditionText()
    ensures "articles.author" + " = " + "users.id" == "articles.author = users.id"
    ensures " JOIN " + "users" == " JOIN users"
  {
  }

  /** Appending is associative; long texts are assembled one short piece at a time. */
  lemma Assoc(a: string, b: string, c: string)
    ensures a + (b + c) == a + b + c
  {
  }

  // Left-nested chains building the longer statement texts

  lemma NamedDerivedChain()
    ensures "SELECT u.id, u.name" + " FROM " == "SELECT u.id, u.name FROM "
    ensures "SELECT u.id, u.name FROM " + "(" == "SELECT u.id, u.name FROM ("
  {
  }

  lemma NamedDerivedChainMiddle()
    ensures "SELECT u.id, u.name FROM (" + "SELECT users.id, users.name" == "SELECT u.id, u.name FROM (SELECT users.id, users.name"
  {
  }

  lemma NamedDerivedChainEnd()
    ensures "SELECT u.id, u.name FROM (SELECT users.id, users.name" + " FROM users"
         == "SELECT u.id, u.name FROM (SELECT users.id, users.name FROM users"
    ensures "SELECT u.id, u.name FROM (SELECT users.id, users.name FROM users" + ") AS u"
         == "SELECT u.id, u.name FROM (SELECT users.id, users.name FROM users) AS u"
  {
  }

  lemma DefaultDerivedChain()
    ensures "SELECT derived0.id, derived0.name" + " FROM " == "SELECT derived0.id, derived0.name FROM "
    ensures "SELECT derived0.id, derived0.name FROM " + "(" == "SELECT derived0.id, derived0.name FROM ("
  {
  }

  lemma DefaultDerivedChainMiddle()
    ensures "SELECT derived0.id, derived0.name FROM (" + "SELECT users.id, users.name"
         == "SELECT derived0.id, derived0.name FROM (SELECT users.id, users.name"
  {
  }

  lemma DefaultDerivedChainEnd()
    ensures "SELECT derived0.id, derived0.name FROM (SELECT users.id, users.name" + " FROM users"
         == "SELECT derived0.id, derived0.name FROM (SELECT users.id, users.name FROM users"
  {
  }

  lemma DefaultDerivedChainClose()
    ensures "SELECT derived0.id, derived0.name FROM (SELECT users.id, users.name FROM users" + ") AS derived0"
         == "SELECT derived0.id, derived0.name FROM (SELECT users.id, users.name FROM users) AS derived0"
  {
  }

  lemma JoinChain()
    ensures "SELECT articles.id, users.name AS author" + " FROM " == "SELECT articles.id, users.name AS author FROM "
    ensures "SELECT articles.id, users.name AS author FROM " + "articles" == "SELECT articles.id, users.name AS author FROM articles"
  {
  }

  lemma JoinChainMiddle()
    ensures "SELECT articles.id, users.name AS author FROM articles" + " JOIN users"
         == "SELECT articles.id, users.name AS author FROM articles JOIN users"
    ensures "SELECT articles.id, users.name AS author FROM articles JOIN users" + " ON "
         == "SELECT articles.id, users.name AS author FROM articles JOIN users ON "
  {
  }

  lemma JoinChainEnd()
    ensures "SELECT articles.id, users.name AS author FROM articles JOIN users ON " + "articles.author = users.id"
         == "SELECT articles.id, users.name AS author FROM articles JOIN users ON articles.author = users.id"
  {
  }

  // The longer statement texts, assembled from their rendered pieces

  lemma JoinTextAssembled()
    ensures "SELECT articles.id, users.name AS author" + ((" FROM " + "articles") + ((" JOIN users" + " ON ") + "articles.author = users.id"))
         == JoinText
  {
    var h := "SELECT articles.id, users.name AS author";
    var c1 := "SELECT articles.id, users.name AS author FROM articles";
    Assoc(h, " FROM " + "articles", (" JOIN users" + " ON ") + "articles.author = users.id");
    Assoc(h, " FROM ", "articles");
    JoinChain();
    Assoc(c1, " JOIN users" + " ON ", "articles.author = users.id");
    Assoc(c1, " JOIN users", " ON ");
    JoinChainMiddle();
    JoinChainEnd();
  }

  lemma NamedDerivedTextAssembled()
    ensures "SELECT u.id, u.name" + (" FROM " + (("(" + UsersText) + ") AS u"))
         == NamedDerivedText
  {
    var h := "SELECT u.id, u.name";
    var hf := "SELECT u.id, u.name FROM ";
    var hfp := "SELECT u.id, u.name FROM (";
    UsersHeadText();
    Assoc(h, " FROM ", ("(" + UsersText) + ") AS u");
    Assoc(hf, "(" + UsersText, ") AS u");
    Assoc(hf, "(", UsersText);
    Assoc(hfp, "SELECT users.id, users.name", " FROM users");
    NamedDerivedChain();
    NamedDerivedChainMiddle();
    NamedDerivedChainEnd();
  }

  lemma DefaultDerivedTextAssembled()
    ensures "SELECT derived0.id, derived0.name" + (" FROM " + (("(" + UsersText) + ") AS derived0"))
         == DefaultDerivedText
  {
    var h := "SELECT derived0.id, derived0.name";
    var hf := "SELECT derived0.id, derived0.name FROM ";
    var hfp := "SELECT derived0.id, derived0.name FROM (";
    UsersHeadText();
    Assoc(h, " FROM ", ("(" + UsersText) + ") AS derived0");
    Assoc(hf, "(" + UsersText, ") AS derived0");
    Assoc(hf, "(", UsersText);
    Assoc(hfp, "SELECT users.id, users.name", " FROM users");
    DefaultDerivedChain();
    DefaultDerivedChainMiddle();
    DefaultDerivedChainEnd();
    DefaultDerivedChainClose();
  }
}

=== FILE: statement.dfy ===
/**
 * The SELECT statement and the nodes that can nest a statement: selections
 * (tables and derived tables) and joins. Every node has a size phase, an
 * argument-count phase and a scan; the scan's text is exactly as long as the
 * size phase says and it binds exactly as many arguments as the count phase
 * says, proved over the whole tree for any symbol table.
 *
 * Emission order of a statement: SELECT, the projections joined by commas,
 * then - only when there are selections - the clause separator, FROM, the
 * selections joined by commas and the joins, then WHERE, GROUP BY, HAVING,
 * ORDER BY and LIMIT, each only when present.
 */
module Statements {
  import opened Wrappers
  import opened Text
  import opened Dialects
  import opened Schema
  import opened Expressions
  import opened Projections
  import opened DerivedColumns
  import opened Clauses
  import K = Symbols

  /** A FROM-clause subject. */
  datatype Selection = TableSel(t: Table) | DerivedSel(dt: DerivedTable)

  /** A SELECT used as a FROM-clause subject; always aliased. */
  datatype DerivedTable = DerivedTable(id: nat, alias: string, from: Statement)

  /** An inner join of `right` onto the statement, `left` being the selection it joins against. */
  datatype JoinClause = JoinClause(id: nat, left: Selection, right: Selection, on: Expr)

  datatype Statement = Statement(
    projs: seq<Projection>,
    selections: seq<Selection>,
    joins: seq<JoinClause>,
    where: Option<seq<Expr>>,
    groupBy: Option<seq<Projection>>,
    having: Option<seq<Expr>>,
    orderBy: Option<seq<SortColumn>>,
    limit: Option<LimitClause>)

  /** A statement with nothing in it. */
  const EmptyStatement: Statement := Statement([], [], [], None, None, None, None, None)

  /** The identity a selection is deduplicated by. */
  function SelectionId(sel: Selection): nat {
    match sel
    case TableSel(t) => t.id
    case DerivedSel(dt) => dt.id
  }

  // ---------------------------------------------------------------------
  // Trailing clauses (they never nest a statement)

  function ClausesArgCount(s: Statement): nat {
    (if s.where.Some? then ExprsArgCount(s.where.value) else 0)
    + (if s.having.Some? then ExprsArgCount(s.having.value) else 0)
    + (if s.limit.Some? then LimitArgCount(s.limit.value) else 0)
  }

  function ClausesSize(d: Dialect, s: Statement): nat {
    (if s.where.Some? then ConditionSize(d, K.Where, s.where.value) else 0)
    + (if s.groupBy.Some? then GroupBySize(d, s.groupBy.value) else 0)
    + (if s.having.Some? then ConditionSize(d, K.Having, s.having.value) else 0)
    + (if s.orderBy.Some? then OrderBySize(d, s.orderBy.value) else 0)
    + (if s.limit.Some? then LimitSize(d, s.limit.value) else 0)
  }

  /** WHERE, GROUP BY, HAVING, ORDER BY, LIMIT in that order, each only when present. */
  function RenderClauses(d: Dialect, s: Statement): (r: Rendered)
    ensures |r.0| == ClausesSize(d, s)
    ensures |r.1| == ClausesArgCount(s)
  {
    var w := RenderOptCondition(d, K.Where, s.where);
    var g := if s.groupBy.Some? then RenderGroupBy(d, s.groupBy.value) else Lit("");
    var h := RenderOptCondition(d, K.Having, s.having);
    var o := if s.orderBy.Some? then RenderOrderBy(d, s.orderBy.value) else Lit("");
    var l := if s.limit.Some? then RenderLimit(d, s.limit.value) else Lit("");
    assert |g.1| == 0 && |o.1| == 0;
    assert |w.0| + |g.0| + |h.0| + |o.0| + |l.0| == ClausesSize(d, s);
    assert |w.1| + |h.1| + |l.1| == ClausesArgCount(s);
    Cat(Cat(w, g), Cat(h, Cat(o, l)))
  }

  function RenderOptCondition(d: Dialect, kw: K.Symbol, o: Option<seq<Expr>>): (r: Rendered)
    ensures |r.0| == if o.Some? then ConditionSize(d, kw, o.value) else 0
    ensures |r.1| == if o.Some? then ExprsArgCount(o.value) else 0
  {
    if o.Some? then RenderCondition(d, kw, o.value) else Lit("")
  }

  // ---------------------------------------------------------------------
  // Phase one: argument counts

  /**
   * The statement's argument count: selections, the joins (only when there
   * are selections, since the scan writes joins only then) and the present
   * clauses. Projections, GROUP BY and ORDER BY bind no arguments.
   */
  function StatementArgCount(s: Statement): nat
    decreases s
  {
    SelectionsArgCount(s.selections)
    + (if |s.selections| > 0 then JoinsArgCount(s.joins) else 0)
    + ClausesArgCount(s)
  }

  function SelectionsArgCount(sels: seq<Selection>): nat
    decreases sels
  {
    if |sels| == 0 then 0 else SelectionArgCount(sels[0]) + SelectionsArgCount(sels[1..])
  }

  function SelectionArgCount(sel: Selection): nat
    decreases sel
  {
    match sel
    case TableSel(_) => 0
    case DerivedSel(dt) => DerivedTableArgCount(dt)
  }

  /** derivedTable.argCount: the wrapped statement's count. */
  function DerivedTableArgCount(dt: DerivedTable): nat
    decreases dt
  {
    StatementArgCount(dt.from)
  }

  function JoinsArgCount(js: seq<JoinClause>): nat
    decreases js
  {
    if |js| == 0 then 0 else JoinArgCount(js[0]) + JoinsArgCount(js[1..])
  }

  function JoinArgCount(j: JoinClause): nat
    decreases j
  {
    SelectionArgCount(j.right) + ExprArgCount(j.on)
  }

  // ---------------------------------------------------------------------
  // Phase one: sizes

  function StatementSize(d: Dialect, s: Statement): nat
    decreases s, 2
  {
    HeadSize(d, s.projs) + FromSize(d, s) + ClausesSize(d, s)
  }

  /** SELECT and the projections joined by commas. */
  function HeadSize(d: Dialect, projs: seq<Projection>): nat {
    KwLen(d, K.Select) + ProjectionsSize(d, projs) + Times(Separators(|projs|), KwLen(d, K.CommaSpace))
  }

  /** The FROM part: nothing at all, joins included, when there are no selections. */
  function FromSize(d: Dialect, s: Statement): nat
    decreases s, 1
  {
    if |s.selections| == 0 then 0
    else (|d.clauseSep| + KwLen(d, K.From) + SelectionsSize(d, s.selections)
          + Times(Separators(|s.selections|), KwLen(d, K.CommaSpace)) + JoinsSize(d, s.joins))
  }

  function SelectionsSize(d: Dialect, sels: seq<Selection>): nat
    decreases sels
  {
    if |sels| == 0 then 0 else SelectionSize(d, sels[0]) + SelectionsSize(d, sels[1..])
  }

  function SelectionSize(d: Dialect, sel: Selection): nat
    decreases sel
  {
    match sel
    case TableSel(t) => TableSize(d, t)
    case DerivedSel(dt) => DerivedTableSize(d, dt)
  }

  /** derivedTable.size: the inner size plus the parentheses, AS and the alias. */
  function DerivedTableSize(d: Dialect, dt: DerivedTable): nat
    decreases dt
  {
    StatementSize(d, dt.from)
    + KwLen(d, K.LParen) + KwLen(d, K.RParen) + KwLen(d, K.As) + |dt.alias|
  }

  function JoinsSize(d: Dialect, js: seq<JoinClause>): nat
    decreases js
  {
    if |js| == 0 then 0 else JoinSize(d, js[0]) + JoinsSize(d, js[1..])
  }

  function JoinSize(d: Dialect, j: JoinClause): nat
    decreases j
  {
    KwLen(d, K.Join) + SelectionSize(d, j.right) + KwLen(d, K.On) + ExprSize(d, j.on)
  }

  // ---------------------------------------------------------------------
  // Phase two: scan

  /**
   * selectStatement.scan with the shared argument cursor: the text has
   * exactly the size phase's length and the arguments number exactly the
   * count phase's total.
   */
  function RenderStatement(d: Dialect, s: Statement): (r: Rendered)
    ensures |r.0| == StatementSize(d, s)
    ensures |r.1| == StatementArgCount(s)
    decreases s, 2
  {
    Cat(Cat(RenderHead(d, s.projs), RenderFrom(d, s)), RenderClauses(d, s))
  }

  function RenderHead(d: Dialect, projs: seq<Projection>): (r: Rendered)
    ensures |r.0| == HeadSize(d, projs)
    ensures r.1 == []
  {
    Cat(Lit(Kw(d, K.Select)), RenderProjections(d, projs, Kw(d, K.CommaSpace)))
  }

  /** The clause separator, FROM, the selections joined by commas, then the joins. */
  function RenderFrom(d: Dialect, s: Statement): (r: Rendered)
    ensures |r.0| == FromSize(d, s)
    ensures |r.1| == if |s.selections| > 0 then SelectionsArgCount(s.selections) + JoinsArgCount(s.joins) else 0
    decreases s, 1
  {
    if |s.selections| == 0 then Lit("")
    else Cat(Cat(Lit(d.clauseSep + Kw(d, K.From)), RenderSelections(d, s.selections, Kw(d, K.CommaSpace))),
             RenderJoins(d, s.joins))
  }

  function RenderSelections(d: Dialect, sels: seq<Selection>, sep: string): (r: Rendered)
    ensures |r.0| == SelectionsSize(d, sels) + Times(Separators(|sels|), |sep|)
    ensures |r.1| == SelectionsArgCount(sels)
    decreases sels
  {
    if |sels| == 0 then Lit("")
    else
      var h, rest := RenderSelection(d, sels[0]), sels[1..];
      assert SelectionsSize(d, sels) == SelectionSize(d, sels[0]) + SelectionsSize(d, rest);
      assert SelectionsArgCount(sels) == SelectionArgCount(sels[0]) + SelectionsArgCount(rest);
      if |rest| == 0 then
        assert SelectionsSize(d, rest) == 0 && SelectionsArgCount(rest) == 0;
        h
      else
        var t := RenderSelections(d, rest, sep);
        SeparatorStep(|sels|, |sep|);
        Joined(h, sep, t)
  }

  function RenderSelection(d: Dialect, sel: Selection): (r: Rendered)
    ensures |r.0| == SelectionSize(d, sel)
    ensures |r.1| == SelectionArgCount(sel)
    decreases sel
  {
    match sel
    case TableSel(t) => RenderTable(d, t)
    case DerivedSel(dt) => RenderDerivedTable(d, dt)
  }

  /**
   * derivedTable.scan: `(` inner `)` AS alias. It binds exactly the wrapped
   * statement's arguments, in the same order.
   */
  function RenderDerivedTable(d: Dialect, dt: DerivedTable): (r: Rendered)
    ensures |r.0| == DerivedTableSize(d, dt)
    ensures |r.1| == DerivedTableArgCount(dt)
    ensures r.1 == RenderStatement(d, dt.from).1
    decreases dt
  {
    var inner := RenderStatement(d, dt.from);
    assert [] + inner.1 + [] == inner.1;
    Cat(Cat(Lit(Kw(d, K.LParen)), inner), Lit(Kw(d, K.RParen) + Kw(d, K.As) + dt.alias))
  }

  function RenderJoins(d: Dialect, js: seq<JoinClause>): (r: Rendered)
    ensures |r.0| == JoinsSize(d, js)
    ensures |r.1| == JoinsArgCount(js)
    decreases js
  {
    if |js| == 0 then Lit("") else Cat(RenderJoin(d, js[0]), RenderJoins(d, js[1..]))
  }

  /** JOIN, the joined selection, ON and the condition. */
  function RenderJoin(d: Dialect, j: JoinClause): (r: Rendered)
    ensures |r.0| == JoinSize(d, j)
    ensures |r.1| == JoinArgCount(j)
    decreases j
  {
    Cat(Cat(Cat(Lit(Kw(d, K.Join)), RenderSelection(d, j.right)), Lit(Kw(d, K.On))), RenderExpr(d, j.on))
  }
}

module StatementProtocol {
  import opened Wrappers
  import opened Text
  import opened Dialects
  import opened Schema
  import opened Expressions
  import opened Projections
  import opened DerivedColumns
  import opened Clauses
  import opened Statements
  import K = Symbols

  /**
   * Scanning a statement into an args slice at the shared cursor `cur`: the
   * statement's arguments land in slots cur..cur+ArgCount in emission order,
   * every other slot keeps its contents, the cursor advances by exactly the
   * count phase's total and the text has exactly the size phase's length.
   */
  function ScanStatement(d: Dialect, s: Statement, args: seq<Value>, cur: nat): (r: (string, seq<Value>, nat))
    requires cur + StatementArgCount(s) <= |args|
    ensures |r.0| == StatementSize(d, s)
    ensures r.2 == cur + StatementArgCount(s)
    ensures |r.1| == |args|
    ensures r.1[..cur] == args[..cur]
    ensures r.1[cur..r.2] == RenderStatement(d, s).1
    ensures r.1[r.2..] == args[r.2..]
  {
    var out := RenderStatement(d, s);
    (out.0, WriteAt(args, cur, out.1), cur + |out.1|)
  }

  /**
   * Two statements scanned one after the other through the same cursor never
   * collide: the first one's arguments survive the second scan.
   */
  lemma SharedCursorNoCollision(d: Dialect, s1: Statement, s2: Statement, args: seq<Value>, cur: nat)
    requires cur + StatementArgCount(s1) + StatementArgCount(s2) <= |args|
    ensures var first := ScanStatement(d, s1, args, cur);
            var second := ScanStatement(d, s2, first.1, first.2);
            second.1[cur..second.2] == RenderStatement(d, s1).1 + RenderStatement(d, s2).1
  {
    WriteAtSequential(args, cur, RenderStatement(d, s1).1, RenderStatement(d, s2).1);
  }

  // ---------------------------------------------------------------------
  // The size and count phases exactly as selectStatement writes them

  /**
   * selectStatement.size as written: the projection commas are counted as
   * `len(", ") * (nprojs - 1)` even when there is no projection at all.
   */
  function StatementSizeAsWritten(d: Dialect, s: Statement): int {
    HeadSizeAsWritten(d, s.projs) + FromSize(d, s) + ClausesSize(d, s)
  }

  /** The SELECT keyword and projection list, with the comma count as written. */
  function HeadSizeAsWritten(d: Dialect, projs: seq<Projection>): int {
    KwLen(d, K.Select) + ProjectionsSize(d, projs) + KwLen(d, K.CommaSpace) * (|projs| - 1)
  }

  /** With at least one projection the size as written is the number of bytes the scan writes. */
  lemma SizeAsWrittenExactWithProjections(d: Dialect, s: Statement)
    requires |s.projs| >= 1
    ensures StatementSizeAsWritten(d, s) == |RenderStatement(d, s).0|
  {
    TimesIsProduct(|s.projs| - 1, KwLen(d, K.CommaSpace));
    assert HeadSizeAsWritten(d, s.projs) == HeadSize(d, s.projs);
  }

  /**
   * With no projection the size as written falls short of the bytes the scan
   * writes by one comma: the scan writes no comma at all.
   */
  lemma SizeAsWrittenShortWithoutProjections(d: Dialect, s: Statement)
    requires |s.projs| == 0
    ensures StatementSizeAsWritten(d, s) == |RenderStatement(d, s).0| - KwLen(d, K.CommaSpace)
  {
  }

  /**
   * selectStatement.argCount as written: the joins' arguments are counted
   * even when there is no selection, although the scan then writes no join.
   */
  function StatementArgCountAsWritten(s: Statement): nat {
    SelectionsArgCount(s.selections) + JoinsArgCount(s.joins) + ClausesArgCount(s)
  }

  /** With a selection present the count as written is the number of arguments the scan binds. */
  lemma ArgCountAsWrittenExactWithSelections(d: Dialect, s: Statement)
    requires |s.selections| > 0
    ensures StatementArgCountAsWritten(s) == |RenderStatement(d, s).1|
  {
  }

  /**
   * Without a selection the count as written exceeds the arguments the scan
   * binds by the joins' arguments, which stay unwritten (nil) slots.
   */
  lemma ArgCountAsWrittenOvercountsWithoutSelections(d: Dialect, s: Statement)
    requires |s.selections| == 0
    ensures StatementArgCountAsWritten(s) == |RenderStatement(d, s).1| + JoinsArgCount(s.joins)
  {
  }

  /**
   * Joins contribute no bytes and no arguments when the statement has no
   * selections: any join list renders the same as none.
   */
  lemma JoinsIgnoredWithoutSelections(d: Dialect, s: Statement, js: seq<JoinClause>)
    requires |s.selections| == 0
    ensures RenderStatement(d, s.(joins := js)) == RenderStatement(d, s)
    ensures StatementSize(d, s.(joins := js)) == StatementSize(d, s)
    ensures StatementArgCount(s.(joins := js)) == StatementArgCount(s)
  {
  }

  // ---------------------------------------------------------------------
  // Derived tables as projection sources

  /**
   * getAllDerivedColumns: one entry per inner projection, in order; an inner
   * column becomes a derived column reading from this derived table with no
   * outer alias, any other projection leaves its position empty.
   */
  function GetAllDerivedColumns(dt: DerivedTable): (r: seq<Option<DerivedColumn>>)
    ensures |r| == |dt.from.projs|
    ensures forall i :: 0 <= i < |r| ==> (r[i].Some? <==> dt.from.projs[i].PCol?)
    ensures forall i :: 0 <= i < |r| && r[i].Some? ==>
      r[i].value == DerivedColumn("", dt.from.projs[i].c, dt.id, dt.alias)
  {
    seq(|dt.from.projs|, i requires 0 <= i < |dt.from.projs| =>
      if dt.from.projs[i].PCol? then Some(DerivedColumn("", dt.from.projs[i].c, dt.id, dt.alias)) else None)
  }

  /** Every derived column getAllDerivedColumns builds reports this derived table as its source. */
  lemma DerivedColumnsReadFromTheirTable(dt: DerivedTable)
    ensures forall dc :: Some(dc) in GetAllDerivedColumns(dt) ==> From(dc) == dt.id && dc.dtAlias == dt.alias
  {
  }

  /** derivedTable.projections: a slice as long as the inner projection list that is never filled in. */
  function DerivedProjections(dt: DerivedTable): (r: seq<Option<Projection>>)
    ensures |r| == |dt.from.projs|
    ensures forall i :: 0 <= i < |r| ==> r[i].None?
  {
    seq(|dt.from.projs|, _ => None)
  }
}

=== FILE: symbols.dfy ===
/**
 * Syntactic markers and the dialect context threaded through every size and
 * scan call. The literal text of each marker is NOT fixed here: a dialect
 * carries an arbitrary symbol table, so every general property proved about
 * rendering holds for any table of keywords and punctuation.
 */
module Symbols {

  /** The syntactic markers a node may emit. */
  datatype Symbol =
    | Select | From | CommaSpace | Period | As | LParen | RParen
    | Where | And | Or | GroupBy | Having | OrderBy | Desc
    | Limit | Offset | QuestMark | Join | On
    | Equal | NotEqual | Greater | GreaterEqual | Less | LessEqual
    | In | Between | IsNull | IsNotNull
    | Max | Min | Sum | Avg
    | Trim | BTrim | LTrim | RTrim | TrimLeadingFrom | TrimTrailingFrom
}

module Dialects {
  import opened Symbols

  /** The SQL flavours that change how an element renders. */
  datatype DialectKind = MySQL | PostgreSQL

  /**
   * The rendering context: the dialect tag, the symbol table giving each
   * marker its literal text, and the text the scanner's format puts between
   * the projection list and the FROM clause.
   */
  datatype Dialect = Dialect(kind: DialectKind, sym: Symbol -> string, clauseSep: string)

  /** The literal text of a marker under a dialect. */
  function Kw(d: Dialect, s: Symbol): string {
    d.sym(s)
  }

  /** Byte length of a marker under a dialect. */
  function KwLen(d: Dialect, s: Symbol): nat {
    |d.sym(s)|
  }
}

=== FILE: text.dfy ===
/**
 * What a scan produces: bytes and positional arguments. Text is modelled as
 * `seq<char>` with one char per byte, arguments as an opaque value sequence.
 */
module Text {

  /** A positional argument; `Nil` is an argument slot nothing has written. */
  datatype Value = Nil | Str(s: string) | Int(i: int)

  /** The output of scanning one node: its text and its arguments in order. */
  type Rendered = (string, seq<Value>)

  /** Text that binds no argument. */
  function Lit(s: string): Rendered {
    (s, [])
  }

  /** Output of two nodes scanned one after the other. */
  function Cat(a: Rendered, b: Rendered): Rendered {
    (a.0 + b.0, a.1 + b.1)
  }

  /** Output that writes nothing is a unit of concatenation on both sides. */
  lemma CatEmpty(a: Rendered)
    ensures Cat(Lit(""), a) == a && Cat(a, Lit("")) == a
  {
    assert Lit("").0 + a.0 == a.0 && a.0 + Lit("").0 == a.0;
    assert Lit("").1 + a.1 == a.1 && a.1 + Lit("").1 == a.1;
  }

  /** Two outputs with a separator between them. */
  function Joined(a: Rendered, sep: string, b: Rendered): (r: Rendered)
    ensures |r.0| == |a.0| + |sep| + |b.0|
    ensures r.1 == a.1 + b.1
  {
    (a.0 + sep + b.0, a.1 + b.1)
  }

  /** Number of separators written between `n` items of a list. */
  function Separators(n: nat): nat {
    if n == 0 then 0 else n - 1
  }

  /** `n` copies of a `k`-byte piece take `n * k` bytes; kept recursive so proofs stay linear. */
  function Times(n: nat, k: nat): nat {
    if n == 0 then 0 else k + Times(n - 1, k)
  }

  /** One more item in a list of at least two adds one separator. */
  lemma SeparatorStep(n: nat, k: nat)
    requires n >= 2
    ensures Times(Separators(n), k) == k + Times(Separators(n - 1), k)
  {
  }

  lemma {:induction false} TimesIsProduct(n: nat, k: nat)
    ensures Times(n, k) == n * k
  {
    if n > 0 {
      TimesIsProduct(n - 1, k);
    }
  }

  /** An args slice of `n` slots nothing has written yet. */
  function Blank(n: nat): (r: seq<Value>)
    ensures |r| == n
    ensures forall i :: 0 <= i < n ==> r[i] == Nil
  {
    seq(n, _ => Nil)
  }

  /**
   * Writing `vals` into `buf` starting at slot `off`: the slots before and
   * after the written range keep their old contents.
   */
  function WriteAt(buf: seq<Value>, off: nat, vals: seq<Value>): (r: seq<Value>)
    requires off + |vals| <= |buf|
    ensures |r| == |buf|
    ensures r[..off] == buf[..off]
    ensures r[off..off + |vals|] == vals
    ensures r[off + |vals|..] == buf[off + |vals|..]
  {
    buf[..off] + vals + buf[off + |vals|..]
  }

  /**
   * Two writes through an advancing cursor leave both runs side by side: the
   * second write starts where the first ended, so it cannot clobber it.
   */
  lemma WriteAtSequential(buf: seq<Value>, off: nat, a: seq<Value>, b: seq<Value>)
    requires off + |a| + |b| <= |buf|
    ensures WriteAt(WriteAt(buf, off, a), off + |a|, b)[off..off + |a| + |b|] == a + b
  {
    var first := WriteAt(buf, off, a);
    var second := WriteAt(first, off + |a|, b);
    assert second[..off + |a|] == first[..off + |a|];
    assert second[off..off + |a|] == first[off..off + |a|];
    assert second[off..off + |a| + |b|] == second[off..off + |a|] + second[off + |a|..off + |a| + |b|];
  }

  /** Decimal digits of a natural number, most significant first. */
  function NatToString(n: nat): (r: string)
    ensures |r| >= 1
    ensures forall i :: 0 <= i < |r| ==> '0' <= r[i] <= '9'
  {
    if n < 10 then [DigitChar(n)] else NatToString(n / 10) + [DigitChar(n % 10)]
  }

  function DigitChar(k: nat): (c: char)
    requires k < 10
    ensures '0' <= c <= '9'
  {
    ['0', '1', '2', '3', '4', '5', '6', '7', '8', '9'][k]
  }
}

=== FILE: wrappers.dfy ===
/** Failure-compatible helper datatypes shared by every module. */
module Wrappers {

  /** A value that may be absent; stands for a nil pointer field in the builder. */
  datatype Option<+T> = None | Some(value: T)

  /** A Go slice, which is either nil or an allocated backing array. */
  datatype Slice<T> = NilSlice | Made(items: seq<T>) {

    /** len() of the slice; a nil slice has length zero. */
    function Len(): nat {
      match this
      case NilSlice => 0
      case Made(xs) => |xs|
    }

    /** The elements of the slice; a nil slice has none. */
    function Elements(): (r: seq<T>)
      ensures |r| == Len()
    {
      match this
      case NilSlice => []
      case Made(xs) => xs
    }
  }
}
